=== FILE: README.md ===
# NoMo subscription tracker — a Dafny model of its logic layer

NoMo is a web app that tracks the user's subscriptions. The data comes from
three places:

- a built-in default list;
- services the user picks from a cancel directory (a CSV file served by
  `/api/directory`);
- vendors detected in the user's Gmail receipts (`/api/scan`).

The app has a list view and a price editor. It lets the user mark a service
as cancelled (which adds to the "monthly savings") or hide it. Its state is
kept either in `localStorage` or, when the user is signed in, in per-user
Firestore documents behind `/api/subscriptions`.

This project models the deterministic layer under the UI as pure Dafny
functions over sequences and maps, and proves what each part promises:

| module | models |
|---|---|
| `Common` | the string and list built-ins the app leans on: `trim`, ASCII `toLowerCase`/`toUpperCase`, `includes`, `filter` |
| `Csv` | the directory's CSV reader, `parseCsv` and `splitCsvLine` |
| `Slugs` | the directory slug, `lower → [^a-z0-9]+ → '-' → strip edge '-'` |
| `OrderedMaps` | JavaScript `Map` insertion order and `new Set` dedupe |
| `Sorting` | a stable `Array.prototype.sort` under a comparison |
| `Directory` | the `/api/directory` route: slug, last-row-wins dedupe, sort by name |
| `Scan` | the `/api/scan` route: 400-id cap, vendor detection, status codes |
| `Data` | the `Subscription` record and the built-in defaults |
| `Json` | JavaScript/JSON values, `localStorage` as a map of raw text, and the shared find/upsert/remove-by-id list logic |
| `Prefs`, `CustomLocal`, `LocalSubs`, `FirestoreSubs` | the client-side stores |
| `SubscriptionsRoute` | `GET`/`POST /api/subscriptions` as transitions on a map of named documents |
| `Reconciler` | `SubscriptionList`: `normalizeKey`, `mergeByName`, the active/canceled views, `sortItems`, and the cancel/restore/hide/unhide/select/discard/save/reset transitions |
| `JsNumber` | `Number(text)` results, including `NaN`, and how `JSON.stringify` writes them |
| `EditPrice` | the price editor's `invalid` check, blur, close, and save |
| `AddService` | the directory search in the add-service dialog |
| `Overview` | the monthly-total and count chips |
| `BrandAvatar` | the 32-bit string hash, the palette pick, and the initials |
| `Theme` | the light/dark/system theme and its toggle |
| `Middleware` | the onboarding redirect |
| `Concierge` | the concierge form's e-mail check and submit |
| `ManualAdd` | the onboarding "add a subscription" form |

Inputs the code gets from its environment are made parameters:

- the window's presence is `Storage = Option<...>`, where `None` means server rendering;
- the system colour preference and the `confirm()` answer are booleans;
- `Date.now()` is a real `now`;
- the Gmail listing and fetch results are values;
- `Number`, `toFixed` and `String` are function parameters;
- `localeCompare` is an abstract comparison `nameLe`.

Where a property needs more of `Number` than "some function", the predicate
`JsNumber.ParsesDecimals` pins it down on plain decimal text.

## Model

| member | source | states |
|---|---|---|
| Csv.SplitCsvLine | src/lib/parseCsv.ts:38-57 | never empty: one field more than there are commas outside quotes; no field holds `"`; joining the fields with `,` gives the line with every quote removed |
| Csv.QuoteFreeSplit | src/lib/parseCsv.ts:42-56 | on a line without quotes the splitter is exactly a split on commas |
| Csv.SplitLines | src/lib/parseCsv.ts:12 | splitting on line breaks always yields at least one line |
| Csv.NonBlank | src/lib/parseCsv.ts:12 | keeps exactly the lines whose trim is non-empty, and no more lines than it was given |
| Csv.HeaderIndex | src/lib/parseCsv.ts:15-16 | the header is the first line containing "service" in any case; none found means no line mentions it |
| Csv.ColumnNames | src/lib/parseCsv.ts:19 | each header cell names its column by its trimmed, lower-cased text |
| Csv.ColIndex | src/lib/parseCsv.ts:19 | a repeated column name resolves to its last position; an unknown name has no index |
| Csv.Cell | src/lib/parseCsv.ts:24-32 | a cell is present exactly when its column is known and the row is long enough, and then it is the trimmed text at that column's (last) position |
| Csv.ParseRows | src/lib/parseCsv.ts:22-34 | no more rows than data lines, and every row a data line parses to is emitted |
| Csv.RowsWellFormed | src/lib/parseCsv.ts:24-27 | every emitted row has a non-empty, trimmed service name |
| Csv.RowsInOrder | src/lib/parseCsv.ts:22-34 | rows keep input order: parsing a concatenation concatenates the rows |
| Csv.NoServiceColumnNoRows | src/lib/parseCsv.ts:24-25 | a header without a cell named exactly "service" skips every row |
| Csv.ParseCsvShort | src/lib/parseCsv.ts:12-13 | fewer than two non-blank lines give no rows |
| Csv.ParseCsvFails | src/lib/parseCsv.ts:15-17 | the parser fails exactly when at least two non-blank lines remain and none mentions "service" |
| Csv.ParseLinesHeader | src/lib/parseCsv.ts:16-24 | the header is the first line mentioning "service", and only the lines after it become rows |
| Csv.ParseCsvRows | src/lib/parseCsv.ts:21-35 | on success every row is well formed, and there are at most as many rows as non-blank lines, and fewer whenever there is a non-blank line |
| Csv.ParseRow | src/lib/parseCsv.ts:23-33 | a data line yields a row exactly when its service cell is present and non-empty; the row's service and five optional fields are the cells of their columns, and the service is trimmed and non-empty |
| Csv.RowsOfLine | src/lib/parseCsv.ts:22-34 | a single data line gives its row, or nothing when skipped; with RowsInOrder this fixes the rows of any line list |
| Csv.RowsComplete | src/lib/parseCsv.ts:22-34 | a row is emitted iff some data line parses to it |
| Csv.ParseLines | src/lib/parseCsv.ts:13-35 | a successful parse of at least one line has fewer rows than lines, since the header never becomes a row |
| Csv.ParseCsv | src/lib/parseCsv.ts:10-13 | a text whose lines are all blank parses to no rows |
| Slugs.Hyphenate | src/app/api/directory/route.ts:19 | the result uses only `[a-z0-9-]` with no `--`; it starts or ends with `-` exactly when the text starts or ends with a non-slug character |
| Slugs.RunIsOneHyphen | src/app/api/directory/route.ts:19 | a non-empty run of characters outside `[a-z0-9]` becomes exactly one `-` (the `+` of the pattern) |
| Slugs.SlugCharSplits | src/app/api/directory/route.ts:19 | every `[a-z0-9]` character is kept in place, and the text on each side of it is replaced independently |
| Slugs.HyphenateRunBefore | src/app/api/directory/route.ts:19 | a run of other characters in front of text puts one `-` in front of its replacement, merging with a `-` already there |
| Slugs.HyphenateRunAfter | src/app/api/directory/route.ts:19 | a run of other characters after text puts one `-` after its replacement, merging with a `-` already there |
| Slugs.StripHyphens | src/app/api/directory/route.ts:19 | the result is the text with only hyphens removed in front of it and after it, and it has no edge `-` |
| Slugs.StripKeepsNonHyphen | src/app/api/directory/route.ts:19 | stripping edge hyphens cannot empty text that holds a character other than `-` |
| Slugs.Slug | src/app/api/directory/route.ts:19 | the id is a slug: `[a-z0-9-]` only, no `--`, no edge `-` |
| Slugs.SlugWord | src/app/api/directory/route.ts:19 | a name of ASCII letters and digits slugs to its lower-case text |
| Slugs.SlugJoin | src/app/api/directory/route.ts:19 | two parts of a name, the first ending and the second starting with an ASCII letter or digit, joined by any non-empty run of other characters, slug to their slugs joined by one `-` |
| Slugs.SlugPadLeft | src/app/api/directory/route.ts:19 | characters other than ASCII letters and digits in front of a name do not change its slug |
| Slugs.SlugPadRight | src/app/api/directory/route.ts:19 | characters other than ASCII letters and digits after a name do not change its slug |
| Slugs.SlugEmptyIff | src/app/api/directory/route.ts:19 | the slug is empty exactly when the name has no ASCII letter or digit |
| Slugs.SlugIdempotent | src/app/api/directory/route.ts:19 | a slug is its own slug |
| OrderedMaps.Set | src/app/api/directory/route.ts:20-26 | `map.set` overwrites in place for a known key and appends a new key at the end; keys stay distinct |
| OrderedMaps.FromPairs | src/app/api/directory/route.ts:17-27 | a map built by `set` calls has distinct keys, namely the keys of the pairs |
| OrderedMaps.GetSet | src/app/api/directory/route.ts:20 | reading a key after `set` gives the value just set, and other keys are unchanged |
| OrderedMaps.FromPairsLastWins | src/app/api/directory/route.ts:16-26 | each key ends with the value of its last pair |
| OrderedMaps.FromPairsKeyOrder | src/app/api/directory/route.ts:28 | `map.values()` order is the order in which each key first appeared |
| OrderedMaps.Dedupe | src/app/components/SubscriptionList.tsx:467 | `Array.from(new Set(xs))` is duplicate-free, holds the same elements, and is no longer |
| OrderedMaps.DedupeFirstOccurrence | src/app/components/SubscriptionList.tsx:467 | the set keeps insertion order: the result is a subsequence of the input, and its elements come in the order of their first occurrences |
| OrderedMaps.DedupeDistinct | src/app/components/SubscriptionList.tsx:467 | dedupe leaves a duplicate-free list unchanged |
| OrderedMaps.LastByAppend | src/app/components/SubscriptionList.tsx:139-140 | a later list overrides an earlier one for every id it has |
| OrderedMaps.IndexBy | src/app/components/SubscriptionList.tsx:137-142 | a map keyed by a field has its keys in first-seen order, and each key holds the last element with it |
| Sorting.Sort | src/app/components/SubscriptionList.tsx:223-228 | a permutation, sorted whenever the comparison is a total preorder |
| Sorting.SortStable | src/app/components/SubscriptionList.tsx:223-228 | the sort is stable: for every key, the elements comparing equal to it leave in the order they came in |
| Sorting.FilterKeepsSorted | src/app/components/SubscriptionList.tsx:259-261 | filtering a sorted list keeps it sorted |
| Directory.Canonicalize | src/app/api/directory/route.ts:16-28 | ids distinct; each entry comes from the last row with its slug; every row's slug appears; sorted by name under a total preorder |
| Directory.CanonicalEntries | src/app/api/directory/route.ts:17-27 | the map holds one entry per slug, built from that slug's last row |
| Directory.Pairs | src/app/api/directory/route.ts:18-27 | one `byId.set` per row, in row order, keyed by the slug of the row's service name |
| Directory.ByNamePreorder | src/app/api/directory/route.ts:28 | comparing entries by name inherits a total preorder from the name order |
| Directory.DirectoryGet | src/app/api/directory/route.ts:8-38 | an unreadable file or a parse failure yields `[]`; otherwise the canonical entries |
| Scan.FirstMatch | src/app/api/scan/route.ts:67-72 | the earliest message any of whose four fields matches the vendor |
| Scan.ScanMessageAppendsFresh | src/app/api/scan/route.ts:68-72 | one message appends exactly its matching vendors not yet found, in table order |
| Scan.DetectComplete | src/app/api/scan/route.ts:66-73 | a vendor is reported iff some message matches it |
| Scan.DetectFromTable | src/app/api/scan/route.ts:56-70 | every reported entry is exactly an entry of the table |
| Scan.DetectDistinct | src/app/api/scan/route.ts:70 | reported ids are pairwise distinct |
| Scan.VendorIdsDistinct | src/app/api/scan/route.ts:56-64 | the vendor table's ids are distinct |
| Scan.DetectContents | src/app/api/scan/route.ts:56-73 | reported entries are table entries with distinct ids, at most as many as the table |
| Scan.DetectOrdered | src/app/api/scan/route.ts:66-73 | vendors appear by earliest matching message and, within a message, in table order |
| Scan.DetectCaseBlind | src/app/api/scan/route.ts:57-63 | changing the case of message fields never changes the result |
| Scan.ScanMessage | src/app/api/scan/route.ts:68-72 | one message only appends to what was found, at most one entry per vendor |
| Scan.Detect | src/app/api/scan/route.ts:66-73 | the batch yields at most one entry per vendor per message |
| Scan.PresentIds | src/app/api/scan/route.ts:36 | messages without an id are skipped |
| Scan.MessageIds | src/app/api/scan/route.ts:34-42 | the examined ids are the first 400 of all the listed ids |
| Scan.CollectFromPrefix | src/app/api/scan/route.ts:34-39 | the paging loop collects a prefix of all ids, and stops only after more than 400 or at the last page |
| Scan.CollectFrom | src/app/api/scan/route.ts:34-39 | the paging loop only appends to the ids already collected |
| Scan.FetchAll | src/app/api/scan/route.ts:41-53 | one failed fetch rejects the batch; otherwise one message per id, in order |
| Scan.ScanPost | src/app/api/scan/route.ts:9-87 | 401 iff no session; 400 iff the token is missing or empty; a failed listing, a failed message fetch or a failed write gives 500; a 200 carries exactly the detection over the fetched first 400 messages, and every success path ends in 200 |
| Scan.ScanPostReports | src/app/api/scan/route.ts:41-82 | a 200 reports a vendor iff one of the examined messages was fetched and matches it |
| Data.DefaultsWellFormed | src/lib/data.ts:12-35 | default ids are pairwise distinct and every default price is positive |
| Json.Spread | src/app/api/subscriptions/route.ts:85 | `{...a, ...b}` holds b's fields, then a's own fields that b lacks, and nothing else |
| Json.FieldsOf | src/app/api/subscriptions/route.ts:85 | an object spreads its fields; a string or an array spreads only index names such as `"0"`; other values spread nothing |
| Json.SpreadStringUnits | src/lib/customLocal.ts:33-34 | for a string of characters below U+10000, spreading it gives exactly one key `"i"` per UTF-16 unit, holding that one-character string, and no other key |
| Json.IndexedFields | src/app/api/subscriptions/route.ts:85 | a spread array or string puts element `i` under `String(i)` and nothing else |
| Json.IndexKeyDecodes | src/app/api/subscriptions/route.ts:85 | reading an index's property name back gives the index, so distinct indices never share a name |
| Json.SpreadKeepsJson | src/app/api/subscriptions/route.ts:85 | spreading JSON over any JSON value gives JSON |
| Json.CleanFixesJson | src/lib/customLocal.ts:28 | a JSON value survives `JSON.stringify` followed by `JSON.parse` unchanged |
| Json.SetItem | src/lib/customLocal.ts:26-29 | without a window nothing is written; otherwise only the key changes |
| Json.StoredList | src/lib/customLocal.ts:13-24 | the parsed array under a key, and `[]` for no window, a missing key, text that does not parse, or a non-array |
| Json.StoredListRoundTrip | src/lib/customLocal.ts:13-29 | a JSON list written under a key reads back unchanged |
| Json.FindIndex | src/lib/customLocal.ts:33 | `findIndex` returns the first entry with the id, or none when no entry has it |
| Json.FindIndexChecked | src/lib/customLocal.ts:33 | the search throws iff a null entry comes before the first match; otherwise it agrees with `findIndex` |
| Json.UpsertById | src/lib/customLocal.ts:33-35 | a new id is appended; a known id is merged in place with the new fields winning; the length grows by at most one |
| Json.RemoveById | src/lib/customLocal.ts:41 | is the filter of the list by `x.id !== id`: the entries whose id differs, in their order and with their repetitions |
| Json.RemoveByIdChecked | src/lib/customLocal.ts:41 | throws iff some entry is null; otherwise it is the plain filter |
| Json.UpsertFinds | src/lib/customLocal.ts:33-35 | after an upsert, the first entry with the id carries every field of the new entry |
| Json.UpsertIdempotent | src/lib/customLocal.ts:33-35 | upserting the same entry twice equals upserting it once |
| Json.UpsertKeepsIdsUnique | src/lib/customLocal.ts:32-36 | distinct ids stay distinct after an upsert |
| Json.RemoveAbsent | src/lib/customLocal.ts:41 | removing an id no entry has changes nothing |
| Json.UpsertThenRemove | src/lib/firestoreSubs.ts:32-44 | an upsert followed by a remove of the same id leaves no entry with it |
| Prefs.Normalise | src/lib/prefs.ts:16-21 | sort is price only for exactly "price"; a stored array of hidden ids is kept as is and nothing else gives any; a stored boolean for suggestions is kept, anything else turns them on |
| Prefs.GetPrefs | src/lib/prefs.ts:9-25 | no window, a missing key or a parse error give the defaults |
| Prefs.PrefsRoundTrip | src/lib/prefs.ts:9-30 | reading after `setPrefs(p)` gives `p` back for well-formed `p` |
| Prefs.SetPrefsExists | src/lib/prefs.ts:27-35 | `prefsExists` holds after a write iff there is a window |
| Prefs.SetPrefs | src/lib/prefs.ts:27-30 | writes only in a window: the preferences key gets the stored text and every other key is kept |
| Prefs.NoWindowPrefs | src/lib/prefs.ts:10-12 | without a window: defaults, no flag, and no write |
| Prefs.GarbageGivesDefaults | src/lib/prefs.ts:13-24 | unparsable text or `null` gives the defaults |
| CustomLocal.GetCustomLocal | src/lib/customLocal.ts:13-24 | no window or nothing parsed gives `[]`; a non-empty result is the stored array |
| CustomLocal.SetCustomLocal | src/lib/customLocal.ts:26-29 | writes only in a window, and only under its own key |
| CustomLocal.SetCustomRoundTrip | src/lib/customLocal.ts:13-29 | a JSON list written in the browser reads back unchanged |
| CustomLocal.UpsertCustomLocal | src/lib/customLocal.ts:31-37 | throws iff the id search meets a null entry; otherwise writes the upserted list |
| CustomLocal.RemoveCustomLocal | src/lib/customLocal.ts:39-43 | throws iff some entry is null; otherwise writes the filtered list |
| CustomLocal.UpsertCustomRoundTrip | src/lib/customLocal.ts:31-37 | in the browser an upsert succeeds and reads back as the upserted list |
| CustomLocal.UpsertCustomIdempotent | src/lib/customLocal.ts:33-35 | upserting the same entry twice leaves the list of one upsert |
| CustomLocal.RemoveAbsentCustom | src/lib/customLocal.ts:39-43 | removing an id no entry has leaves the list as it was |
| CustomLocal.RemoveCustomContents | src/lib/customLocal.ts:39-43 | after a remove no entry has the id, and every other entry remains |
| CustomLocal.NoWindowCustom | src/lib/customLocal.ts:14-27 | without a window nothing is read or written |
| LocalSubs.ToValue | src/lib/localSubs.ts:26 | the stored entry keeps the id; its price is a number exactly when `Number` gave a finite value |
| LocalSubs.GetLocalSubscriptions | src/lib/localSubs.ts:10-21 | no window or nothing parsed gives `[]`; a non-empty result is the stored array |
| LocalSubs.AddLocalSubscription | src/lib/localSubs.ts:23-28 | without a window nothing happens; other keys are untouched |
| LocalSubs.AddAppends | src/lib/localSubs.ts:23-28 | in the browser the list grows by exactly the new entry at the end |
| LocalSubs.AddKeepsDuplicates | src/lib/localSubs.ts:25-26 | there is no dedupe: adding a stored id leaves two entries with it |
| LocalSubs.NoWindowLocal | src/lib/localSubs.ts:10-11 | without a window the list is empty and an add is a no-op |
| FirestoreSubs.GetUserSubs | src/lib/firestoreSubs.ts:14-19 | a missing document or a non-array `items` gives `[]` |
| FirestoreSubs.SetUserSubs | src/lib/firestoreSubs.ts:28-30 | rejected iff the items hold `undefined`; otherwise sets `items` and `updatedAt` and keeps other fields |
| FirestoreSubs.SetGetUserSubs | src/lib/firestoreSubs.ts:14-30 | whatever `setUserSubs` accepted, `getUserSubs` reads back |
| FirestoreSubs.UpsertUserSub | src/lib/firestoreSubs.ts:32-38 | fails iff the search meets a null entry or the data holds `undefined`; otherwise stores the upserted list |
| FirestoreSubs.RemoveUserSub | src/lib/firestoreSubs.ts:40-44 | fails iff some entry is null; otherwise keeps exactly the entries with another id |
| FirestoreSubs.UpsertUserSubSucceeds | src/lib/firestoreSubs.ts:32-38 | on stored data an upsert succeeds, merges in place or appends, and grows the list by at most one |
| FirestoreSubs.UpsertThenRemoveUserSub | src/lib/firestoreSubs.ts:32-44 | an upsert then a remove of the same id leaves no entry with it |
| SubscriptionsRoute.Get | src/app/api/subscriptions/route.ts:7-33 | 401 iff there is no email; otherwise each of the four lists is the stored field when its document exists and the field is not nullish, else `[]`, and the prefs are the stored document or `{}` |
| SubscriptionsRoute.GetDefaults | src/app/api/subscriptions/route.ts:20-28 | a user without documents reads four empty lists and `{}` |
| SubscriptionsRoute.Merge | src/app/api/subscriptions/route.ts:63 | a merging write: a non-empty object merges into an object field by field (keys are the union; leaf fields written land as written; unwritten fields stay; nested objects merge again); a leaf, including an empty object, replaces what was stored |
| SubscriptionsRoute.MergeInto | src/app/api/subscriptions/route.ts:63 | an empty write leaves the document as it was (created empty if missing); otherwise written leaf fields land, unwritten fields stay, no field appears that neither side had, and other documents are untouched |
| SubscriptionsRoute.MergeLeafLands | src/app/api/subscriptions/route.ts:63 | every leaf of a non-empty write, at any depth, is found at its path after the merge |
| SubscriptionsRoute.MergeKeepsUntouched | src/app/api/subscriptions/route.ts:63 | a stored value at a path the write does not reach is kept |
| SubscriptionsRoute.MergePathsFrom | src/app/api/subscriptions/route.ts:63 | every path of the merged value comes from the write, or is one the write does not reach and was stored before |
| SubscriptionsRoute.MergeIntoPaths | src/app/api/subscriptions/route.ts:63 | the three path properties for a document: written leaves land, untouched stored values stay, nothing else appears |
| SubscriptionsRoute.ResetAll | src/app/api/subscriptions/route.ts:51-61 | empties the canceled, removed, custom, detected and realtime lists; prefs get `hiddenIds []` and sort "name"; other users untouched |
| SubscriptionsRoute.ApplyPrefs | src/app/api/subscriptions/route.ts:62-64 | an object merges into prefs; an array makes the write throw; anything else is ignored |
| SubscriptionsRoute.ApplyIds | src/app/api/subscriptions/route.ts:65-70 | an array replaces the stored ids wholesale; a non-array leaves them |
| SubscriptionsRoute.SpreadAppend | src/app/api/subscriptions/route.ts:76 | an array list is extended by the entry, a string spreads into its one-character strings first; any other value throws |
| SubscriptionsRoute.ApplyCustomAdd | src/app/api/subscriptions/route.ts:71-78 | skipped without a truthy id and name; an existing id rewrites the list unchanged; a stored array gets the entry appended, a stored string is spread into characters and then gets it; it throws exactly when the stored list is neither an array nor a string |
| SubscriptionsRoute.ApplyCustomUpsert | src/app/api/subscriptions/route.ts:79-88 | skipped without a truthy id and name; otherwise upserts the entry, and fails exactly when the list cannot be searched |
| SubscriptionsRoute.Post | src/app/api/subscriptions/route.ts:35-90 | 401 iff there is no email; a bad body writes nothing; resetAll returns before any other field |
| SubscriptionsRoute.Put | src/app/api/subscriptions/route.ts:65-70 | a document write stores the stamped field under its path and leaves every other document as it was |
| SubscriptionsRoute.ResetIgnoresOtherFields | src/app/api/subscriptions/route.ts:51-61 | with resetAll set, no other body field has any effect |
| SubscriptionsRoute.PostIsolated | src/app/api/subscriptions/route.ts:35-90 | a POST only writes the signed-in user's documents |
| SubscriptionsRoute.CustomAddTwice | src/app/api/subscriptions/route.ts:71-78 | sending the same customAdd twice stores the entry once |
| SubscriptionsRoute.AddThenUpsertSameId | src/app/api/subscriptions/route.ts:71-88 | fields apply in order: an add then an upsert of the same new id give one merged entry |
| SubscriptionsRoute.ResetThenGet | src/app/api/subscriptions/route.ts:20-61 | after `resetAll`, GET reads four `[]` and prefs with `hiddenIds []` and sort "name" |
| SubscriptionsRoute.IdsThenGet | src/app/api/subscriptions/route.ts:23-70 | an id array stored by POST is what GET returns, and nothing else GET reads changes |
| SubscriptionsRoute.CustomAddThenGet | src/app/api/subscriptions/route.ts:25-78 | a new custom entry added by POST is read back at the end of GET's `custom`, and nothing else changes |
| Reconciler.NormalizeKey | src/app/components/SubscriptionList.tsx:133-135 | the key is hyphenated lower-case text, empty iff the trimmed `id \|\| name` is empty; it starts (ends) with `-` exactly when the trimmed text starts (ends) with a character other than an ASCII letter or digit |
| Reconciler.NormalizeKeyStripsToSlug | src/app/components/SubscriptionList.tsx:133-135 | apart from its edge hyphens the key is the directory slug of `id \|\| name`: trimming and the edge `-` are the only differences |
| Reconciler.NormalizeKeyFixesHyphenated | src/app/components/SubscriptionList.tsx:133-135 | an id that is already a hyphenated key is its own key |
| Reconciler.NormalizeKeyKeepsEdgeHyphens | src/app/components/SubscriptionList.tsx:133-135 | unlike the slug, the key keeps edge hyphens |
| Common.Without | src/app/components/SubscriptionList.tsx:303-318 | the other entries, in their order and with their repetitions: exactly the filter of the list by `y !== x`; the list itself when `x` is absent |
| Reconciler.MergeByName | src/app/components/SubscriptionList.tsx:137-142 | ids in first-seen order without duplicates; each entry is the last one with its id, custom over base |
| Reconciler.MergeByNameContents | src/app/components/SubscriptionList.tsx:137-142 | merged ids are unique and cover every base and custom id |
| Reconciler.ActiveView | src/app/components/SubscriptionList.tsx:147-149 | exactly the merged entries neither canceled nor removed |
| Reconciler.ActiveViewOrderFree | src/app/components/SubscriptionList.tsx:259-261 | the two filters commute |
| Reconciler.CanceledView | src/app/components/SubscriptionList.tsx:486 | exactly the merged entries whose id is canceled, hidden or not |
| Reconciler.EveryEntryShown | src/app/components/SubscriptionList.tsx:259-261 | every merged entry is active, canceled or removed |
| Reconciler.PriceLeTotal | src/app/components/SubscriptionList.tsx:225 | the price comparison is a total preorder |
| Reconciler.SortItems | src/app/components/SubscriptionList.tsx:223-228 | a permutation, by non-decreasing price for "price", otherwise by name |
| Reconciler.VisibleList | src/app/components/SubscriptionList.tsx:259-261 | the rendered list holds exactly the active view, in sort order |
| Reconciler.ConfirmCancel | src/app/components/SubscriptionList.tsx:444-458 | adds the id at most once and raises the savings by the price; nothing else changes |
| Reconciler.Restore | src/app/components/SubscriptionList.tsx:501-508 | removes the id; savings and everything else stay |
| Reconciler.CancelThenRestore | src/app/components/SubscriptionList.tsx:444-508 | restoring a fresh cancel gives back the canceled ids but keeps the raised savings |
| Reconciler.Hide | src/app/components/SubscriptionList.tsx:459-476 | adds the id once, drops custom entries with the same key, and un-detects the id |
| Reconciler.Unhide | src/app/components/SubscriptionList.tsx:317 | removes only that id |
| Reconciler.HideThenUnhide | src/app/components/SubscriptionList.tsx:317-473 | unhiding a freshly hidden id gives back the removed ids |
| Reconciler.PickedItem | src/app/components/SubscriptionList.tsx:535-536 | a picked entry has price 0, the option's name, and a non-empty cancel link |
| Reconciler.AddOnce | src/app/components/SubscriptionList.tsx:533 | the ids afterwards are exactly the old ones plus the new one; an id already present changes nothing, and a duplicate-free list stays duplicate-free |
| Reconciler.Select | src/app/components/SubscriptionList.tsx:532-557 | the detected ids become exactly the old ones plus the picked id (unchanged when already there, duplicate-free when they were); adds the entry unless its key exists, un-removes the id, and opens it as pending |
| Reconciler.Discard | src/app/components/SubscriptionList.tsx:591-595 | a missing or empty pending id changes nothing; otherwise exactly the custom entries with that id go and nothing is pending |
| Reconciler.SelectThenDiscard | src/app/components/SubscriptionList.tsx:532-595 | when no custom entry holds the picked id, discarding the pick restores the custom list, whether or not the pick appended an entry; discarding a pick with an empty id changes nothing |
| Reconciler.CloseEdit | src/app/components/SubscriptionList.tsx:596 | closes the editor and clears the pending id |
| Reconciler.EditSave | src/app/components/SubscriptionList.tsx:597-607 | only price, cadence and charge date of the entries with the edited id change |
| Reconciler.EditSaveIdempotent | src/app/components/SubscriptionList.tsx:597-607 | saving the same values twice equals saving once |
| Reconciler.TrackSave | src/app/components/SubscriptionList.tsx:567-581 | always appends one fresh entry, with "Custom service" for a blank name |
| Reconciler.ResetAll | src/app/components/SubscriptionList.tsx:404-414 | a declined confirm or a rejected `fetch` changes nothing; otherwise every list empties and the sort returns to name; the savings, the pending entry and the editor stay |
| Reconciler.DefaultIdsNormalized | src/lib/data.ts:14-31 | every default id is its own normalised key |
| Reconciler.DefaultIdsDetectable | src/lib/data.ts:14-31 | every default id is a vendor id of the scanner |
| JsNumber.ToJson | src/lib/localSubs.ts:27 | `JSON.stringify` writes a number exactly for finite values |
| JsNumber.DecimalValue | src/app/components/EditPriceModal.tsx:19-22 | plain decimal text has the sign of its leading `-` |
| EditPrice.Numeric | src/app/components/EditPriceModal.tsx:19-22 | the finite value of the text, else NaN |
| EditPrice.ValidMeansInRange | src/app/components/EditPriceModal.tsx:24-30 | valid iff the text is non-blank and its value is finite and in (0, 100000] |
| EditPrice.InvalidExamples | src/app/components/EditPriceModal.tsx:24-30 | 0.01 and 100000 pass; 0, -1, 100001 and "abc" fail |
| EditPrice.Blur | src/app/components/EditPriceModal.tsx:32-34 | only valid text is reformatted |
| EditPrice.RequestClose | src/app/components/EditPriceModal.tsx:36-43 | an invalid required price asks first: yes calls discard then close, no calls nothing; otherwise only close |
| EditPrice.ChargeDate | src/app/components/EditPriceModal.tsx:89 | an empty date is passed as undefined |
| EditPrice.SaveClick | src/app/components/EditPriceModal.tsx:89 | saves iff the button is enabled and the price is above 0, passing the parsed price, cadence and date, then closes |
| EditPrice.RequiredSaveInRange | src/app/components/EditPriceModal.tsx:89 | with a required price, whatever is saved is finite and in (0, 100000] |
| EditPrice.SaveAboveBound | src/app/components/EditPriceModal.tsx:89 | without a required price, 100001 is saved although the editor calls it invalid |
| EditPrice.OpenValue | src/app/components/EditPriceModal.tsx:12-14 | shows the price when it is positive, else an empty field |
| AddService.Results | src/app/components/AddServiceModal.tsx:23-29 | at most 6 results, in option order; a blank query gives the first options; otherwise a prefix of the matches |
| AddService.ResultsMatch | src/app/components/AddServiceModal.tsx:26-28 | every result's lower-cased name contains the query, and fewer than 6 results means all matches |
| AddService.QueryCaseBlind | src/app/components/AddServiceModal.tsx:24 | the query's case does not matter |
| AddService.QueryPaddingBlind | src/app/components/AddServiceModal.tsx:24 | surrounding white space in the query does not matter |
| AddService.NoOptionsNoResults | src/app/components/AddServiceModal.tsx:10-21 | a failed fetch leaves no options and so no results |
| Overview.Summary | src/app/components/OverviewWidgets.tsx:6-11 | the count is the number of items; the total is non-negative |
| Overview.TotalIsShareSum | src/app/components/OverviewWidgets.tsx:7-8 | the total sums the positive prices; zero and negative prices add nothing |
| Overview.FiguresPermutation | src/app/components/OverviewWidgets.tsx:6-11 | reordering the items changes neither total nor count |
| BrandAvatar.Int32 | src/lib/brandAvatar.ts:6 | ToInt32 lands in the 32-bit range, congruent modulo 2^32 |
| BrandAvatar.HashStringToInt | src/lib/brandAvatar.ts:1-9 | the absolute value of a 32-bit hash, at most 2^31 |
| BrandAvatar.StepIsTimes31 | src/lib/brandAvatar.ts:5-6 | the shift-and-subtract step is `31*h + code` modulo 2^32 |
| BrandAvatar.HashIsPoly | src/lib/brandAvatar.ts:1-9 | the hash is the base-31 polynomial of the UTF-16 units, modulo 2^32 |
| BrandAvatar.PaletteIndex | src/lib/brandAvatar.ts:37 | the index is below 10, so it names a palette entry |
| BrandAvatar.Words | src/lib/brandAvatar.ts:12-15 | the words are non-empty runs of `[a-zA-Z0-9]`; a name without any gives none |
| BrandAvatar.WordsCoverAlnum | src/lib/brandAvatar.ts:12-15 | the words hold exactly the name's alphanumeric characters, in order |
| BrandAvatar.WordsSingle | src/lib/brandAvatar.ts:12-15 | a non-empty alphanumeric name is one word |
| BrandAvatar.WordsSplit | src/lib/brandAvatar.ts:12-15 | a non-alphanumeric character splits: the words of `a + [c] + b` are the words of `a` followed by the words of `b`, so words are maximal runs |
| BrandAvatar.Initials | src/lib/brandAvatar.ts:11-20 | upper-case letters or digits, at most maxLetters; one word gives its prefix, several give their first letters |
| BrandAvatar.BrandAvatarStyle | src/lib/brandAvatar.ts:36-39 | the colour is a palette entry and there are at most 3 initials |
| BrandAvatar.ColourIgnoresCase | src/lib/brandAvatar.ts:37 | the colour depends only on the lower-cased name |
| Theme.InitialTheme | src/app/theme/ThemeProvider.tsx:28-32 | "system" without a window or a stored value; otherwise the stored text as is |
| Theme.SystemTheme | src/app/theme/ThemeProvider.tsx:16-19 | dark iff a window prefers dark; light without a window |
| Theme.Resolved | src/app/theme/ThemeProvider.tsx:34-36 | the system theme for "system", otherwise the theme itself; never "system" |
| Theme.Toggle | src/app/theme/ThemeProvider.tsx:58-63 | always light or dark, and the opposite of the resolved theme; any other text toggles to dark |
| Theme.ToggleTwice | src/app/theme/ThemeProvider.tsx:58-63 | two toggles under the same preference give back the resolved theme |
| Theme.StoredThemeRoundTrip | src/app/theme/ThemeProvider.tsx:28-45 | light, dark and system survive being stored and read back |
| Theme.FromText | src/app/theme/ThemeProvider.tsx:30-31 | reading stored text as a theme loses nothing: writing the theme back gives the same text |
| Middleware.Gate | src/app/middleware.ts:11-30 | `/onboarding` and `/api` paths and either session cookie pass; every other request goes to `/onboarding` with its query |
| Middleware.NoRedirectLoop | src/app/middleware.ts:14-26 | the redirect target always passes |
| Concierge.EmailShapeIff | src/app/components/ConciergeForm.tsx:19-21 | valid iff: no white space; exactly one `@`, not first; a `.` after it that is not last, with at least one character between |
| Concierge.EmailExamples | src/app/components/ConciergeForm.tsx:19-21 | the placeholder address passes; one without a dot or without a local part fails |
| Concierge.Submit | src/app/components/ConciergeForm.tsx:23-39 | an invalid address changes nothing; a valid one ends submitted and not loading, whatever the write did |
| Concierge.EnabledButtonSubmits | src/app/components/ConciergeForm.tsx:56-60 | an enabled button always submits; a field marked invalid keeps it disabled |
| ManualAdd.Dashed | src/app/onboarding/manual/page.tsx:18 | each white-space run becomes `-`: no white space remains, and the text does not grow |
| ManualAdd.DashedKeeps | src/app/onboarding/manual/page.tsx:18 | text without white space is left alone |
| ManualAdd.DashedIdempotent | src/app/onboarding/manual/page.tsx:18 | dashing twice is dashing once |
| ManualAdd.DashedKeepsText | src/app/onboarding/manual/page.tsx:18 | apart from dashes, the id holds the name's characters other than white space and dashes, in order |
| ManualAdd.ManualIdDashes | src/app/onboarding/manual/page.tsx:18 | "Disney Plus" becomes "disney-plus" |
| ManualAdd.ManualIdUntrimmed | src/app/onboarding/manual/page.tsx:18 | the name is not trimmed: "  Hulu" becomes "-hulu" |
| ManualAdd.ManualId | src/app/onboarding/manual/page.tsx:18 | the id holds no white space and is no longer than the name |
| ManualAdd.Entry | src/app/onboarding/manual/page.tsx:17-22 | the entry keeps the name and `Number(price)`; the cancel link is never empty |
| ManualAdd.Submit | src/app/onboarding/manual/page.tsx:13-22 | an empty name or price changes nothing |
| ManualAdd.SubmitAppends | src/app/onboarding/manual/page.tsx:13-22 | an accepted submit appends one entry with the dashed id, the fallback cancel link, and the typed decimal as its price |

## Left out

- I/O is not modelled: Firestore and its admin SDK, `localStorage` events,
  `fetch`, the Gmail API calls themselves, and response and header
  construction. Stores are values; Gmail answers are parameters.
- The Gemini route and its callers are not modelled. They wrap an external
  model, DOMPurify and `marked`.
- Auth pages, `next-auth` options and the sign-in button are not modelled:
  they are foreign services.
- Timing and rendering are not modelled: click debounces, `setTimeout`, focus,
  confetti, animations, and races between `setState` calls.
- Cross-tab last-write-wins is not modelled, for the same reason.
- UI-only components are not modelled: bottom sheet and bar, header, confirm
  and chooser modals, card colours, the privacy and terms pages.
- Case mapping covers ASCII only. `toLowerCase`/`toUpperCase` of other
  letters and Unicode normalisation are outside the model.
- The white-space set of `trim` and `\s` is written out explicitly as
  JavaScript's set.
- `localeCompare` is an abstract comparison `nameLe`. Sortedness by name is
  proved under the assumption that it is a total preorder.
- Prices of `Subscription` are reals. Floating-point rounding, NaN and
  infinities in stored prices are not modelled. `Number(text)` is modelled
  only where its result is kept: `LocalSubs` and `EditPrice` use
  `JsNumber.JsNum`, and `toFixed`/`String` are parameters.
- Firestore validation is reduced to two rules: `undefined` anywhere in the
  data rejects a write, and an array cannot be merged as a document.
  Nested-array rules and field-name rules are left out.
- Server timestamps are a real `now`; `new Date()` and `Date.now()` are not
  distinguished.
- `listenUserSubs` (src/lib/firestoreSubs.ts:21-26) is a subscription callback.
  It applies the same defaulting as `getUserSubs` and is not modelled separately.
- The scan route's header extraction (src/app/api/scan/route.ts:44-51)
  is not modelled. Each message is already the four text fields, with a
  missing header as `''`.
- The middleware's `matcher` (src/app/middleware.ts:7-9) belongs to the
  framework's routing and is not modelled. The gate is modelled for every
  path.
- `upsertUserSub` at src/app/components/SubscriptionList.tsx:577 is not
  imported in that file, so the call throws. Only the in-memory
  `customItems` effect of that handler is modelled (`Reconciler.TrackSave`).
- The persistence calls inside the list's handlers are not modelled: the
  `fetch` POSTs and the `upsertCustomLocal`/`removeCustomLocal` calls. Their
  effect on the stores is modelled by `SubscriptionsRoute` and
  `CustomLocal` on their own.
- `src/app/page.tsx` only puts the defaults before the local entries. That
  concatenation is the `base` input of `Reconciler.MergeByName`.
- Json.FieldsOf: a string is a sequence of Unicode code points, so for a
  character above U+FFFF the model gives one index key where JavaScript's
  object spread gives two, one per surrogate half (a lone surrogate is not a
  Dafny character). For strings below U+10000 the keys are exact
  (`Json.SpreadStringUnits`).
- Theme.Resolved: the source types the resolved theme as light or dark, but a
  stored text other than the three names is cast without a check and passes
  through. The model keeps it as `Other(text)` rather than promising light or
  dark.

## Notes on the code as written

- Directory dedupe is plain last-row-wins per slug. There is no family
  collapsing and no preference among duplicate rows.
- `parseCsv` does not return `[]` when two or more non-blank lines remain and
  none mentions "service". The header scan runs off the end and
  `splitCsvLine` is called on `undefined`, which throws. The model returns
  `Err`, and `Directory.DirectoryGet` turns it into `[]` as the route's
  `catch` does.
- A Gmail authorisation error thrown during the scan becomes a 500, like any
  other error.
- The `prefs` field of a POST is checked only for `typeof === 'object'`. An
  array passes that check and makes Firestore's merging write throw;
  `SubscriptionsRoute.ApplyPrefs` models that failure.

=== FILE: add_service.dfy ===
/** The directory search in the add-service dialog
    (src/app/components/AddServiceModal.tsx): at most six options, picked by a
    case-blind substring match on the name, or the first ones for a blank
    query. */
module AddService {
  import opened Common
  import Directory

  const MaxResults: nat := 6
  const BlankCut: nat := 12

  function Min(a: nat, b: nat): nat { if a < b then a else b }

  /** The normalised query `query.trim().toLowerCase()`. */
  function Needle(query: string): string {
    Lower(Trim(query))
  }

  function NameHas(q: string): Directory.DirOption -> bool {
    (o: Directory.DirOption) => Contains(Lower(o.name), q)
  }

  /** `results` (lines 23-29). */
  function Results(options: seq<Directory.DirOption>, query: string): (r: seq<Directory.DirOption>)
    ensures |r| <= MaxResults
    ensures Subseq(r, options)
    ensures Needle(query) == "" ==> r == options[..Min(MaxResults, |options|)]
    ensures Needle(query) != "" ==>
      |r| <= |Filter(options, NameHas(Needle(query)))| && r == Filter(options, NameHas(Needle(query)))[..|r|]
  {
    var q := Needle(query);
    var list := Candidates(options, q);
    var r := list[..Min(MaxResults, |list|)];
    PrefixSubseq(list, Min(MaxResults, |list|));
    SubseqTrans(r, list, options);
    r
  }

  /** The list before the final cut: the matches, or the first twelve. */
  function Candidates(options: seq<Directory.DirOption>, q: string): (r: seq<Directory.DirOption>)
    ensures Subseq(r, options)
    ensures q == "" ==> r == options[..Min(BlankCut, |options|)]
    ensures q != "" ==> r == Filter(options, NameHas(q))
  {
    if q != "" then
      FilterSubseq(options, NameHas(q));
      Filter(options, NameHas(q))
    else
      PrefixSubseq(options, Min(BlankCut, |options|));
      options[..Min(BlankCut, |options|)]
  }

  /** For a non-blank query every result's lower-cased name contains it, and
      when fewer than six come back, every matching option is among them. */
  lemma ResultsMatch(options: seq<Directory.DirOption>, query: string)
    requires Needle(query) != ""
    ensures var r := Results(options, query);
      && (forall i :: 0 <= i < |r| ==> Contains(Lower(r[i].name), Needle(query)))
      && (|r| < MaxResults ==> forall o :: o in options && Contains(Lower(o.name), Needle(query)) ==> o in r)
  {
    var q := Needle(query);
    var matches := Filter(options, NameHas(q));
    var r := Results(options, query);
    assert forall i :: 0 <= i < |r| ==> r[i] == matches[i];
    if |r| < MaxResults {
      assert r == matches;
      forall o | o in options && Contains(Lower(o.name), q)
        ensures o in r
      {
        assert NameHas(q)(o);
      }
    }
  }

  /** The case of the query does not matter. */
  lemma QueryCaseBlind(options: seq<Directory.DirOption>, query: string)
    ensures Results(options, Upper(query)) == Results(options, query)
  {
    TrimUpper(query);
    LowerUpper(Trim(query));
  }

  /** Surrounding white space in the query does not matter. */
  lemma QueryPaddingBlind(options: seq<Directory.DirOption>, query: string)
    ensures Results(options, " " + query + " ") == Results(options, query)
  {
    TrimPadded(query);
  }

  /** With no options (the fetch failed) there are no results. */
  lemma NoOptionsNoResults(query: string)
    ensures Results([], query) == []
  {
  }
}

=== FILE: brand_avatar.dfy ===
/** Brand avatars (src/lib/brandAvatar.ts): a 32-bit string hash that picks
    a palette colour, and initials from the name's alphanumeric words. */
module BrandAvatar {
  import opened Common

  const Two31: int := 0x8000_0000
  const Two32: int := 0x1_0000_0000

  /** ECMAScript ToInt32: the integer congruent to `x` modulo 2^32 in
      [-2^31, 2^31). */
  function Int32(x: int): (r: int)
    ensures -Two31 <= r < Two31
    ensures (x - r) % Two32 == 0
  {
    var m := x % Two32;
    if m >= Two31 then m - Two32 else m
  }

  /** One loop step as written (line 5-6): `(hash << 5) - hash + code`, then
      `hash |= 0`.  The shift works on the 32-bit value. */
  function Step(h: int, code: int): int {
    Int32(Int32(h * 32) - h + code)
  }

  /** The loop over the code units. */
  function HashUnits(units: seq<int>): (r: int)
    ensures -Two31 <= r < Two31
  {
    if |units| == 0 then 0 else Step(HashUnits(units[..|units| - 1]), units[|units| - 1])
  }

  /** `hashStringToInt` (lines 1-9): `Math.abs` of the 32-bit hash. */
  function HashStringToInt(s: string): (r: nat)
    ensures r <= Two31
  {
    var h := HashUnits(Utf16(s));
    if h < 0 then -h else h
  }

  /** The polynomial the loop computes: `sum(code[i] * 31^(n-1-i))`. */
  function Poly(units: seq<int>): int {
    if |units| == 0 then 0 else Poly(units[..|units| - 1]) * 31 + units[|units| - 1]
  }

  lemma MulMultiple(a: int, k: int)
    requires a % Two32 == 0
    ensures (k * a) % Two32 == 0
  {
    var q := a / Two32;
    assert a == q * Two32;
    assert k * a == (k * q) * Two32;
  }

  lemma SumMultiple(a: int, b: int)
    requires a % Two32 == 0 && b % Two32 == 0
    ensures (a + b) % Two32 == 0
  {
    var p, q := a / Two32, b / Two32;
    assert a + b == (p + q) * Two32;
  }

  /** The shift-and-subtract step is the 32-bit image of `31 * h + code`. */
  lemma StepIsTimes31(h: int, code: int)
    ensures (Step(h, code) - (31 * h + code)) % Two32 == 0
  {
    var s := Int32(h * 32);
    var t := Int32(s - h + code);
    assert (h * 32 - s) % Two32 == 0;
    assert (s - h + code - t) % Two32 == 0;
    SumMultiple(h * 32 - s, s - h + code - t);
    assert (h * 32 - s) + (s - h + code - t) == 31 * h + code - t;
    MulMultiple(-(31 * h + code - t), 1);
  }

  /** The hash is the polynomial hash with base 31, taken modulo 2^32. */
  lemma {:induction false} HashIsPoly(units: seq<int>)
    ensures (HashUnits(units) - Poly(units)) % Two32 == 0
  {
    if |units| > 0 {
      var init, c := units[..|units| - 1], units[|units| - 1];
      var h := HashUnits(init);
      HashIsPoly(init);
      StepIsTimes31(h, c);
      MulMultiple(h - Poly(init), 31);
      assert HashUnits(units) - Poly(units)
          == (Step(h, c) - (31 * h + c)) + 31 * (h - Poly(init));
      SumMultiple(Step(h, c) - (31 * h + c), 31 * (h - Poly(init)));
    }
  }

  const Palette: seq<string> := [
    "bg-red-600", "bg-amber-600", "bg-emerald-600", "bg-sky-600", "bg-indigo-600",
    "bg-fuchsia-600", "bg-teal-600", "bg-blue-600", "bg-purple-600", "bg-rose-600"
  ]

  /** The palette index (line 37). */
  function PaletteIndex(name: string): (r: nat)
    ensures r < |Palette|
  {
    HashStringToInt(Lower(name)) % |Palette|
  }

  // ---------------------------------------------------------------------------
  // Initials

  predicate AllAlnum(w: string) {
    forall i :: 0 <= i < |w| ==> IsAlnum(w[i])
  }

  /** The length of the leading run of `[a-zA-Z0-9]`. */
  function RunLength(s: string): (n: nat)
    ensures n <= |s| && AllAlnum(s[..n])
    ensures n < |s| ==> !IsAlnum(s[n])
  {
    if |s| == 0 || !IsAlnum(s[0]) then 0 else 1 + RunLength(s[1..])
  }

  /** `name.replace(/[^a-zA-Z0-9\s]/g, ' ').split(/\s+/).filter(Boolean)`:
      every character outside `[a-zA-Z0-9]` separates, so the parts are the
      maximal alphanumeric runs. */
  function Words(s: string): (r: seq<string>)
    ensures forall i :: 0 <= i < |r| ==> r[i] != [] && AllAlnum(r[i])
    ensures (forall i :: 0 <= i < |s| ==> !IsAlnum(s[i])) ==> r == []
    decreases |s|
  {
    if |s| == 0 then []
    else if !IsAlnum(s[0]) then Words(s[1..])
    else
      var n := RunLength(s);
      [s[..n]] + Words(s[n..])
  }

  /** A non-empty alphanumeric name is a single word. */
  lemma WordsSingle(w: string)
    requires w != [] && AllAlnum(w)
    ensures Words(w) == [w]
  {
    RunLengthAll(w);
    assert w[..|w|] == w && w[|w|..] == [];
  }

  /** The run of an all-alphanumeric text is all of it. */
  lemma {:induction false} RunLengthAll(w: string)
    requires AllAlnum(w)
    ensures RunLength(w) == |w|
  {
    if |w| > 0 {
      RunLengthAll(w[1..]);
    }
  }

  /** A separator splits a name into the words before it and the words after
      it: no word runs across it. */
  lemma {:induction false} WordsSplit(a: string, c: char, b: string)
    requires !IsAlnum(c)
    ensures Words(a + [c] + b) == Words(a) + Words(b)
    decreases |a|
  {
    var s := a + [c] + b;
    if |a| == 0 {
      assert s[1..] == b;
    } else if !IsAlnum(a[0]) {
      assert s[1..] == a[1..] + [c] + b;
      WordsSplit(a[1..], c, b);
    } else {
      var m := RunLength(a);
      RunLengthStops(a, [c] + b);
      assert s == a + ([c] + b);
      assert s[..m] == a[..m];
      assert s[m..] == a[m..] + [c] + b;
      WordsSplit(a[m..], c, b);
    }
  }

  /** A run that ends inside `a`, or at a separator right after it, is not
      lengthened by what follows. */
  lemma {:induction false} RunLengthStops(a: string, t: string)
    requires t != [] && !IsAlnum(t[0])
    ensures RunLength(a + t) == RunLength(a)
  {
    if |a| > 0 {
      assert (a + t)[0] == a[0];
      if IsAlnum(a[0]) {
        assert (a + t)[1..] == a[1..] + t;
        RunLengthStops(a[1..], t);
      }
    } else {
      assert a + t == t;
    }
  }

  function Concat(ws: seq<string>): string {
    if |ws| == 0 then [] else ws[0] + Concat(ws[1..])
  }

  function Alnum(): char -> bool {
    (c: char) => IsAlnum(c)
  }

  /** The words hold exactly the alphanumeric characters of the name, in
      order. */
  lemma {:induction false} WordsCoverAlnum(s: string)
    ensures Concat(Words(s)) == Filter(s, Alnum())
    decreases |s|
  {
    if |s| > 0 {
      if !IsAlnum(s[0]) {
        WordsCoverAlnum(s[1..]);
        FilterSkip(s);
      } else {
        WordsCoverAlnum(s[RunLength(s)..]);
        FilterRun(s);
        ConcatWordsRun(s);
      }
    }
  }

  /** A leading separator is dropped by the filter. */
  lemma FilterSkip(s: string)
    requires |s| > 0 && !IsAlnum(s[0])
    ensures Filter(s, Alnum()) == Filter(s[1..], Alnum())
  {
    assert s == [s[0]] + s[1..];
    FilterAppend([s[0]], s[1..], Alnum());
    assert Filter([s[0]], Alnum()) == [] by { assert [s[0]][..0] == []; }
  }

  /** A leading alphanumeric run is kept whole by the filter. */
  lemma FilterRun(s: string)
    ensures Filter(s, Alnum()) == s[..RunLength(s)] + Filter(s[RunLength(s)..], Alnum())
  {
    var n := RunLength(s);
    assert s == s[..n] + s[n..];
    FilterAppend(s[..n], s[n..], Alnum());
    FilterAll(s[..n], Alnum());
  }

  /** A name opening with a letter or digit opens with its first word. */
  lemma ConcatWordsRun(s: string)
    requires |s| > 0 && IsAlnum(s[0])
    ensures Concat(Words(s)) == s[..RunLength(s)] + Concat(Words(s[RunLength(s)..]))
  {
    var ws := Words(s);
    assert ws == [s[..RunLength(s)]] + Words(s[RunLength(s)..]);
    assert ws[1..] == Words(s[RunLength(s)..]);
  }

  /** `str.slice(0, n)`: a negative `n` counts from the end. */
  function SliceTo(s: string, n: int): (r: string)
    ensures |r| <= |s| && r == s[..|r|]
    ensures n >= 0 ==> |r| <= n
  {
    if n >= 0 then (if n < |s| then s[..n] else s)
    else if |s| + n > 0 then s[..|s| + n] else []
  }

  /** The first character of each word. */
  function Firsts(ws: seq<string>): (r: string)
    requires forall i :: 0 <= i < |ws| ==> ws[i] != []
    ensures |r| == |ws| && forall i :: 0 <= i < |ws| ==> r[i] == ws[i][0]
  {
    seq(|ws|, i requires 0 <= i < |ws| => ws[i][0])
  }

  /** `getInitials(name, maxLetters)` (lines 11-20). */
  function Initials(name: string, maxLetters: int): (r: string)
    ensures maxLetters >= 0 ==> |r| <= maxLetters
    ensures forall i :: 0 <= i < |r| ==> IsUpper(r[i]) || IsDigit(r[i])
    ensures (forall i :: 0 <= i < |name| ==> !IsAlnum(name[i])) ==> r == ""
    ensures |Words(name)| == 1 ==> r == Upper(SliceTo(Words(name)[0], maxLetters))
    ensures |Words(name)| != 1 ==> r == Upper(SliceTo(Firsts(Words(name)), maxLetters))
  {
    var parts := Words(name);
    var letters := if |parts| == 1 then SliceTo(parts[0], maxLetters) else SliceTo(Firsts(parts), maxLetters);
    assert AllAlnum(letters);
    Upper(letters)
  }

  datatype Style = Style(bgClass: string, initials: string)

  /** `getBrandAvatarStyle(name)` (lines 36-39), with the default of three
      letters. */
  function BrandAvatarStyle(name: string): (r: Style)
    ensures r.bgClass in Palette
    ensures |r.initials| <= 3
  {
    Style(Palette[PaletteIndex(name)], Initials(name, 3))
  }

  /** The colour depends only on the lower-cased name, so it ignores case. */
  lemma ColourIgnoresCase(name: string)
    ensures BrandAvatarStyle(Upper(name)).bgClass == BrandAvatarStyle(name).bgClass
    ensures BrandAvatarStyle(Lower(name)).bgClass == BrandAvatarStyle(name).bgClass
  {
    LowerUpper(name);
    assert Lower(Lower(name)) == Lower(name);
  }
}

=== FILE: common.dfy ===
/** Small shared vocabulary: optional values, results, and the few string
    primitives of JavaScript the application relies on (trim, ASCII case
    mapping, `includes`, `startsWith`). */
module Common {

  datatype Option<+T> = None | Some(value: T) {
    function GetOr(default: T): T {
      match this
      case Some(v) => v
      case None => default
    }
  }

  datatype Result<+T, +E> = Ok(value: T) | Err(error: E)

  /** The characters JavaScript's `trim` and the regular-expression class `\s`
      treat as white space: the WhiteSpace and LineTerminator code points. */
  predicate IsSpace(c: char) {
    var n := c as int;
    || n == 0x20 || (0x09 <= n <= 0x0D) || n == 0xA0 || n == 0x1680
    || (0x2000 <= n <= 0x200A) || n == 0x2028 || n == 0x2029
    || n == 0x202F || n == 0x205F || n == 0x3000 || n == 0xFEFF
  }

  predicate IsUpper(c: char) { 'A' <= c <= 'Z' }
  predicate IsLower(c: char) { 'a' <= c <= 'z' }
  predicate IsDigit(c: char) { '0' <= c <= '9' }
  predicate IsAlnum(c: char) { IsUpper(c) || IsLower(c) || IsDigit(c) }

  function LowerChar(c: char): (r: char)
    ensures !IsUpper(r)
    ensures IsUpper(c) ==> IsLower(r)
    ensures !IsUpper(c) ==> r == c
  {
    if IsUpper(c) then (c as int - 'A' as int + 'a' as int) as char else c
  }

  function UpperChar(c: char): (r: char)
    ensures !IsLower(r)
    ensures IsLower(c) ==> IsUpper(r)
    ensures !IsLower(c) ==> r == c
  {
    if IsLower(c) then (c as int - 'a' as int + 'A' as int) as char else c
  }

  /** `toLowerCase`, restricted to the ASCII letters. */
  function Lower(s: string): (r: string)
    ensures |r| == |s|
    ensures forall i :: 0 <= i < |s| ==> r[i] == LowerChar(s[i])
  {
    seq(|s|, i requires 0 <= i < |s| => LowerChar(s[i]))
  }

  /** `toUpperCase`, restricted to the ASCII letters. */
  function Upper(s: string): (r: string)
    ensures |r| == |s|
    ensures forall i :: 0 <= i < |s| ==> r[i] == UpperChar(s[i])
  {
    seq(|s|, i requires 0 <= i < |s| => UpperChar(s[i]))
  }

  function TrimStart(s: string): (r: string)
    ensures |r| <= |s| && r == s[|s| - |r|..]
    ensures |r| > 0 ==> !IsSpace(r[0])
  {
    if |s| > 0 && IsSpace(s[0]) then TrimStart(s[1..]) else s
  }

  function TrimEnd(s: string): (r: string)
    ensures |r| <= |s| && r == s[..|r|]
    ensures |r| > 0 ==> !IsSpace(r[|r| - 1])
  {
    if |s| > 0 && IsSpace(s[|s| - 1]) then TrimEnd(s[..|s| - 1]) else s
  }

  /** `String.prototype.trim`. */
  function Trim(s: string): (r: string)
    ensures |r| <= |s|
    ensures |r| > 0 ==> !IsSpace(r[0]) && !IsSpace(r[|r| - 1])
  {
    TrimEnd(TrimStart(s))
  }

  lemma AppendAssoc<T>(a: seq<T>, b: seq<T>, c: seq<T>)
    ensures a + b + c == a + (b + c)
  {
  }

  /** The trimmed text sits between white space only. */
  lemma TrimParts(s: string) returns (lead: string, trail: string)
    ensures s == lead + Trim(s) + trail
    ensures forall i :: 0 <= i < |lead| ==> IsSpace(lead[i])
    ensures forall i :: 0 <= i < |trail| ==> IsSpace(trail[i])
  {
    lead := TrimStartPart(s);
    trail := TrimEndPart(TrimStart(s));
    AppendAssoc(lead, Trim(s), trail);
  }

  /** What `TrimStart` drops is white space in front of what it keeps. */
  lemma TrimStartPart(s: string) returns (lead: string)
    ensures s == lead + TrimStart(s)
    ensures forall i :: 0 <= i < |lead| ==> IsSpace(lead[i])
  {
    lead := s[..|s| - |TrimStart(s)|];
    TrimStartDrops(s);
  }

  /** What `TrimEnd` drops is white space after what it keeps. */
  lemma TrimEndPart(t: string) returns (trail: string)
    ensures t == TrimEnd(t) + trail
    ensures forall i :: 0 <= i < |trail| ==> IsSpace(trail[i])
  {
    trail := t[|TrimEnd(t)|..];
    TrimEndDrops(t);
    forall i | 0 <= i < |trail|
      ensures IsSpace(trail[i])
    {
      assert trail[i] == t[|TrimEnd(t)| + i];
    }
  }

  lemma {:induction false} TrimStartDrops(s: string)
    ensures forall i :: 0 <= i < |s| - |TrimStart(s)| ==> IsSpace(s[i])
  {
    if |s| > 0 && IsSpace(s[0]) {
      TrimStartDrops(s[1..]);
    }
  }

  lemma {:induction false} TrimEndDrops(s: string)
    ensures forall i :: |TrimEnd(s)| <= i < |s| ==> IsSpace(s[i])
  {
    if |s| > 0 && IsSpace(s[|s| - 1]) {
      TrimEndDrops(s[..|s| - 1]);
    }
  }

  /** Text with no white space at either end is its own trim. */
  lemma TrimKeeps(s: string)
    requires |s| > 0 && !IsSpace(s[0]) && !IsSpace(s[|s| - 1])
    ensures Trim(s) == s
  {
  }

  /** `sub` occurs in `s` starting at index `i`. */
  predicate OccursAt(s: string, sub: string, i: int) {
    0 <= i <= |s| - |sub| && s[i..i + |sub|] == sub
  }

  /** The UTF-16 code units of a JavaScript string, as `charCodeAt` walks
      them: characters above U+FFFF are a surrogate pair. */
  function Utf16(s: string): (r: seq<int>)
    ensures |r| >= |s|
    ensures forall i :: 0 <= i < |r| ==> 0 <= r[i] < 0x1_0000
  {
    if |s| == 0 then []
    else
      var c := s[0] as int;
      var units := if c < 0x1_0000 then [c] else [0xD800 + (c - 0x1_0000) / 0x400, 0xDC00 + (c - 0x1_0000) % 0x400];
      units + Utf16(s[1..])
  }

  /** `s.includes(sub)`. */
  predicate Contains(s: string, sub: string) {
    exists i :: 0 <= i <= |s| - |sub| && OccursAt(s, sub, i)
  }

  /** `s.startsWith(p)`. */
  predicate StartsWith(s: string, p: string) {
    |p| <= |s| && s[..|p|] == p
  }

  /** `list.includes(x)` for a list of strings. */
  predicate Includes(list: seq<string>, x: string) {
    x in list
  }

  /** The callback `(y) => y !== x`. */
  function Other(x: string): string -> bool {
    (y: string) => y != x
  }

  /** `list.filter((y) => y !== x)`: the other entries, in their order and
      with their repetitions. */
  function Without(list: seq<string>, x: string): (r: seq<string>)
    ensures x !in r
    ensures forall y :: y in r <==> y in list && y != x
    ensures |r| <= |list|
    ensures x !in list ==> r == list
    ensures r == Filter(list, Other(x))
  {
    if |list| == 0 then []
    else
      assert list == [list[0]] + list[1..];
      FilterCons(list[0], list[1..], Other(x));
      if list[0] == x then Without(list[1..], x)
      else [list[0]] + Without(list[1..], x)
  }

  /** Removing an element that was just appended to a list without it gives
      back the list. */
  lemma {:induction false} WithoutAppended(list: seq<string>, x: string)
    requires x !in list
    ensures Without(list + [x], x) == list
  {
    if |list| > 0 {
      assert (list + [x])[1..] == list[1..] + [x];
      WithoutAppended(list[1..], x);
      assert list == [list[0]] + list[1..];
    }
  }

  /** `xs.flatMap`-style filter-and-map: keep `f(x).value` for every `x` of
      `xs` (in order) where `f(x)` is present. */
  function FilterMap<A, B>(xs: seq<A>, f: A -> Option<B>): (r: seq<B>)
    ensures |r| <= |xs|
  {
    if |xs| == 0 then []
    else
      match f(xs[0])
      case Some(y) => [y] + FilterMap(xs[1..], f)
      case None => FilterMap(xs[1..], f)
  }

  lemma {:induction false} FilterMapAppend<A, B>(a: seq<A>, b: seq<A>, f: A -> Option<B>)
    ensures FilterMap(a + b, f) == FilterMap(a, f) + FilterMap(b, f)
  {
    if |a| > 0 {
      assert (a + b)[1..] == a[1..] + b;
      FilterMapAppend(a[1..], b, f);
    } else {
      assert a + b == b;
    }
  }

  lemma {:induction false} FilterMapSource<A, B>(xs: seq<A>, f: A -> Option<B>, y: B)
    requires y in FilterMap(xs, f)
    ensures exists i :: 0 <= i < |xs| && f(xs[i]) == Some(y)
  {
    if f(xs[0]).Some? && f(xs[0]).value == y {
      assert f(xs[0]) == Some(y);
    } else {
      FilterMapSource(xs[1..], f, y);
      var i :| 0 <= i < |xs[1..]| && f(xs[1..][i]) == Some(y);
      assert f(xs[i + 1]) == Some(y);
    }
  }

  /** Every value `f` produces is kept. */
  lemma {:induction false} FilterMapKeeps<A, B>(xs: seq<A>, f: A -> Option<B>)
    ensures forall i :: 0 <= i < |xs| && f(xs[i]).Some? ==> f(xs[i]).value in FilterMap(xs, f)
  {
    if |xs| > 0 {
      FilterMapKeeps(xs[1..], f);
      forall i | 0 <= i < |xs| && f(xs[i]).Some?
        ensures f(xs[i]).value in FilterMap(xs, f)
      {
        if i > 0 {
          assert xs[i] == xs[1..][i - 1];
        }
      }
    }
  }

  lemma {:induction false} FilterMapNone<A, B>(xs: seq<A>, f: A -> Option<B>)
    requires forall i :: 0 <= i < |xs| ==> f(xs[i]).None?
    ensures FilterMap(xs, f) == []
  {
    if |xs| > 0 {
      FilterMapNone(xs[1..], f);
    }
  }

  /** `xs.filter(p)`. */
  function Filter<T(!new)>(xs: seq<T>, p: T -> bool): (r: seq<T>)
    ensures |r| <= |xs|
    ensures forall i :: 0 <= i < |r| ==> p(r[i])
    ensures forall x :: x in r <==> x in xs && p(x)
  {
    if |xs| == 0 then []
    else
      var init := Filter(xs[..|xs| - 1], p);
      assert forall x :: x in xs <==> x in xs[..|xs| - 1] || x == xs[|xs| - 1];
      if p(xs[|xs| - 1]) then init + [xs[|xs| - 1]] else init
  }

  /** Filtering looked at from the front of the list. */
  lemma FilterCons<T(!new)>(c: T, xs: seq<T>, p: T -> bool)
    ensures Filter([c] + xs, p) == (if p(c) then [c] else []) + Filter(xs, p)
  {
    FilterAppend([c], xs, p);
    assert [c][..0] == [];
  }

  lemma {:induction false} FilterAppend<T(!new)>(a: seq<T>, b: seq<T>, p: T -> bool)
    ensures Filter(a + b, p) == Filter(a, p) + Filter(b, p)
    decreases |b|
  {
    if |b| == 0 {
      assert a + b == a;
    } else {
      assert (a + b)[..|a + b| - 1] == a + b[..|b| - 1];
      FilterAppend(a, b[..|b| - 1], p);
    }
  }

  /** Filtering by two predicates in either order gives the same list. */
  lemma {:induction false} FilterCommutes<T(!new)>(xs: seq<T>, p: T -> bool, q: T -> bool)
    ensures Filter(Filter(xs, p), q) == Filter(Filter(xs, q), p)
  {
    if |xs| > 0 {
      var init, last := xs[..|xs| - 1], xs[|xs| - 1];
      FilterCommutes(init, p, q);
      FilterAppend(Filter(init, p), if p(last) then [last] else [], q);
      FilterAppend(Filter(init, q), if q(last) then [last] else [], p);
      assert Filter(xs, p) == Filter(init, p) + (if p(last) then [last] else []);
      assert Filter(xs, q) == Filter(init, q) + (if q(last) then [last] else []);
    }
  }

  /** A filter keeps every element that passes, in order: filtering a list
      whose elements all pass is the identity. */
  lemma {:induction false} FilterAll<T(!new)>(xs: seq<T>, p: T -> bool)
    requires forall i :: 0 <= i < |xs| ==> p(xs[i])
    ensures Filter(xs, p) == xs
  {
    if |xs| > 0 {
      FilterAll(xs[..|xs| - 1], p);
    }
  }

  /** `a` is `b` with some elements left out, order kept. */
  predicate Subseq<T(==)>(a: seq<T>, b: seq<T>)
    decreases |b|
  {
    if a == [] then true
    else if |b| == 0 then false
    else (a[|a| - 1] == b[|b| - 1] && Subseq(a[..|a| - 1], b[..|b| - 1])) || Subseq(a, b[..|b| - 1])
  }

  lemma {:induction false} SubseqRefl<T>(a: seq<T>)
    ensures Subseq(a, a)
  {
    if a != [] {
      SubseqRefl(a[..|a| - 1]);
    }
  }

  lemma {:induction false} FilterSubseq<T(!new)>(xs: seq<T>, p: T -> bool)
    ensures Subseq(Filter(xs, p), xs)
  {
    if |xs| > 0 {
      var init := xs[..|xs| - 1];
      FilterSubseq(init, p);
      if p(xs[|xs| - 1]) {
        assert Filter(xs, p) == Filter(init, p) + [xs[|xs| - 1]];
        assert (Filter(init, p) + [xs[|xs| - 1]])[..|Filter(init, p)|] == Filter(init, p);
      }
    }
  }

  lemma {:induction false} PrefixSubseq<T>(xs: seq<T>, n: nat)
    requires n <= |xs|
    ensures Subseq(xs[..n], xs)
    decreases |xs|
  {
    if n == |xs| {
      assert xs[..n] == xs;
      SubseqRefl(xs);
    } else {
      PrefixSubseq(xs[..|xs| - 1], n);
      assert xs[..|xs| - 1][..n] == xs[..n];
    }
  }

  lemma {:induction false} SubseqTrans<T>(a: seq<T>, b: seq<T>, c: seq<T>)
    requires Subseq(a, b) && Subseq(b, c)
    ensures Subseq(a, c)
    decreases |c|
  {
    if a != [] {
      var c' := c[..|c| - 1];
      if b[|b| - 1] == c[|c| - 1] && Subseq(b[..|b| - 1], c') {
        if a[|a| - 1] == b[|b| - 1] && Subseq(a[..|a| - 1], b[..|b| - 1]) {
          SubseqTrans(a[..|a| - 1], b[..|b| - 1], c');
        } else {
          SubseqTrans(a, b[..|b| - 1], c');
        }
      } else {
        SubseqTrans(a, b, c');
      }
    }
  }

  // ---------------------------------------------------------------------------
  // Case mapping and trimming commute

  lemma LowerUpper(s: string)
    ensures Lower(Upper(s)) == Lower(s)
  {
  }

  /** Case mapping never turns white space into something else, or back. */
  lemma UpperCharSpace(c: char)
    ensures IsSpace(UpperChar(c)) == IsSpace(c)
  {
  }

  lemma {:induction false} TrimStartUpper(s: string)
    ensures TrimStart(Upper(s)) == Upper(TrimStart(s))
  {
    if |s| > 0 {
      UpperCharSpace(s[0]);
      var u := Upper(s);
      assert u[0] == UpperChar(s[0]);
      assert u[1..] == Upper(s[1..]);
      TrimStartUpper(s[1..]);
    }
  }

  lemma {:induction false} TrimEndUpper(s: string)
    ensures TrimEnd(Upper(s)) == Upper(TrimEnd(s))
  {
    if |s| > 0 {
      UpperCharSpace(s[|s| - 1]);
      var u := Upper(s);
      assert u[|s| - 1] == UpperChar(s[|s| - 1]);
      assert u[..|s| - 1] == Upper(s[..|s| - 1]);
      TrimEndUpper(s[..|s| - 1]);
    }
  }

  /** Upper-casing before or after trimming gives the same text. */
  lemma TrimUpper(s: string)
    ensures Trim(Upper(s)) == Upper(Trim(s))
  {
    TrimStartUpper(s);
    TrimEndUpper(TrimStart(s));
  }

  lemma {:induction false} TrimStartPadded(s: string)
    ensures TrimStart(s + " ") == (if TrimStart(s) == "" then "" else TrimStart(s) + " ")
  {
    if |s| > 0 {
      assert (s + " ")[1..] == s[1..] + " ";
      TrimStartPadded(s[1..]);
    }
  }

  /** A space on either side of the text makes no difference to its trim. */
  lemma TrimPadded(s: string)
    ensures Trim(" " + s + " ") == Trim(s)
  {
    assert (" " + s + " ")[1..] == s + " ";
    TrimStartPadded(s);
    var t := TrimStart(s);
    if t != "" {
      assert (t + " ")[..|t|] == t;
    }
  }
}

=== FILE: concierge.dfy ===
/** The concierge request form (src/app/components/ConciergeForm.tsx): an
    e-mail check, the submit step and the button state. */
module Concierge {
  import opened Common

  /** A run matched by `[^\s@]+`. */
  predicate Segment(x: string) {
    |x| > 0 && forall i :: 0 <= i < |x| ==> !IsSpace(x[i]) && x[i] != '@'
  }

  /** `isValidEmail` (lines 19-21): the text splits as segment, `@`,
      segment, `.`, segment. */
  predicate IsValidEmail(s: string) {
    exists at, dot | 0 < at < dot < |s| :: SplitAt(s, at, dot)
  }

  predicate NoSpace(s: string) {
    forall i :: 0 <= i < |s| ==> !IsSpace(s[i])
  }

  /** The same check described by what the text contains: no white space,
      exactly one `@`, not in front, and a `.` that is not last with at
      least one character between it and the `@`. */
  predicate EmailShape(s: string) {
    && NoSpace(s)
    && multiset(s)['@'] == 1
    && |s| > 0 && s[0] != '@'
    && exists dot :: 1 < dot < |s| - 1 && s[dot] == '.' && '@' in s[..dot - 1]
  }

  /** Two places holding the same character count it twice. */
  lemma TwiceCounted(s: string, i: nat, j: nat)
    requires i < j < |s| && s[i] == s[j]
    ensures multiset(s)[s[i]] >= 2
  {
    assert s == s[..i] + [s[i]] + s[i + 1..j] + [s[j]] + s[j + 1..];
  }

  /** The pattern's parts, for a given `@` and `.` position. */
  predicate SplitAt(s: string, at: int, dot: int) {
    0 < at && at + 1 < dot < |s| - 1 && s[at] == '@' && s[dot] == '.'
      && Segment(s[..at]) && Segment(s[at + 1..dot]) && Segment(s[dot + 1..])
  }

  lemma SplitNoSpace(s: string, at: int, dot: int)
    requires SplitAt(s, at, dot)
    ensures NoSpace(s)
  {
    forall i | 0 <= i < |s|
      ensures !IsSpace(s[i])
    {
      if i < at {
        assert s[i] == s[..at][i];
      } else if at < i < dot {
        assert s[i] == s[at + 1..dot][i - at - 1];
      } else if dot < i {
        assert s[i] == s[dot + 1..][i - dot - 1];
      }
    }
  }

  lemma SplitOneAt(s: string, at: int, dot: int)
    requires SplitAt(s, at, dot)
    ensures multiset(s)['@'] == 1
  {
    var a, b, c := s[..at], s[at + 1..dot], s[dot + 1..];
    assert s == a + [s[at]] + b + [s[dot]] + c;
    assert '@' !in a && '@' !in b && '@' !in c;
    assert multiset(s) == multiset(a) + multiset{'@'} + multiset(b) + multiset{'.'} + multiset(c);
  }

  lemma PatternHasShape(s: string)
    requires IsValidEmail(s)
    ensures EmailShape(s)
  {
    var at, dot :| SplitAt(s, at, dot);
    SplitNoSpace(s, at, dot);
    SplitOneAt(s, at, dot);
    assert s[0] == s[..at][0];
    assert s[..dot - 1][at] == '@';
  }

  lemma ShapeIsPattern(s: string)
    requires EmailShape(s)
    ensures IsValidEmail(s)
  {
    var dot :| 1 < dot < |s| - 1 && s[dot] == '.' && '@' in s[..dot - 1];
    var at :| 0 <= at < dot - 1 && s[..dot - 1][at] == '@';
    assert s[at] == '@';
    forall j | 0 <= j < |s| && j != at
      ensures s[j] != '@'
    {
      if s[j] == '@' {
        if j < at { TwiceCounted(s, j, at); } else { TwiceCounted(s, at, j); }
      }
    }
    assert Segment(s[..at]);
    assert Segment(s[at + 1..dot]);
    assert Segment(s[dot + 1..]);
    assert SplitAt(s, at, dot);
  }

  /** Both descriptions of a valid address agree. */
  lemma EmailShapeIff(s: string)
    ensures IsValidEmail(s) <==> EmailShape(s)
  {
    if IsValidEmail(s) { PatternHasShape(s); }
    if EmailShape(s) { ShapeIsPattern(s); }
  }

  /** The placeholder address passes; texts missing a part fail. */
  lemma EmailExamples()
    ensures IsValidEmail("you@example.com")
    ensures !IsValidEmail("you@example")
    ensures !IsValidEmail("@example.com")
  {
    var s := "you@example.com";
    assert s[..3] == "you" && s[4..11] == "example" && s[12..] == "com";
    assert Segment(s[..3]) && Segment(s[4..11]) && Segment(s[12..]);
    assert s[3] == '@' && s[11] == '.';
    assert SplitAt(s, 3, 11);
    var t := "you@example";
    assert forall i :: 0 <= i < |t| ==> t[i] != '.';
    var u := "@example.com";
    assert forall at :: 0 < at <= |u| ==> u[..at][0] == '@';
  }

  /** The component state this model follows. */
  datatype Form = Form(email: string, submitted: bool, loading: bool)

  /** `onSubmit` (lines 23-39): an invalid address does nothing; otherwise
      the request is sent and, whether or not the write succeeded, the form
      ends submitted and not loading. */
  function Submit(f: Form, writeOk: bool): (r: Form)
    ensures r.email == f.email
    ensures !IsValidEmail(f.email) ==> r == f
    ensures IsValidEmail(f.email) ==> r.submitted && !r.loading
  {
    if !IsValidEmail(f.email) then f else f.(loading := false, submitted := true)
  }

  /** The submit button's `disabled` (line 60). */
  predicate ButtonDisabled(f: Form) {
    f.loading || !IsValidEmail(f.email)
  }

  /** `aria-invalid` (line 56). */
  predicate MarkedInvalid(f: Form) {
    |f.email| > 0 && !IsValidEmail(f.email)
  }

  /** Whenever the button can be pressed, pressing it shows the thank-you
      message; a field marked invalid keeps the button disabled. */
  lemma EnabledButtonSubmits(f: Form, writeOk: bool)
    ensures !ButtonDisabled(f) ==> Submit(f, writeOk).submitted
    ensures MarkedInvalid(f) ==> ButtonDisabled(f)
    ensures MarkedInvalid(f) ==> Submit(f, writeOk) == f
  {
  }
}

=== FILE: csv.dfy ===
/** The directory's lightweight CSV reader (src/lib/parseCsv.ts): a
    quote-aware comma splitter, a header search and a row builder. */
module Csv {
  import opened Common

  datatype CsvRow = CsvRow(
    service: string,
    cancelUrlHint: Option<string>,
    flow: Option<string>,
    region: Option<string>,
    supportHint: Option<string>,
    knownPaths: Option<string>)

  /** When two or more non-blank lines exist and none mentions "service", the
      header scan runs past the last line and `splitCsvLine(undefined)` throws
      a TypeError. */
  datatype CsvError = NoHeaderLine

  // ---------------------------------------------------------------------------
  // splitCsvLine

  function QuoteCount(s: string): nat {
    if |s| == 0 then 0
    else QuoteCount(s[..|s| - 1]) + (if s[|s| - 1] == '"' then 1 else 0)
  }

  /** After reading `s`, the splitter is inside a quoted section exactly when it
      has seen an odd number of quote characters. */
  predicate InQuotes(s: string) { QuoteCount(s) % 2 == 1 }

  /** The commas of `s` that are not inside a quoted section. */
  function SeparatorCount(s: string): nat {
    if |s| == 0 then 0
    else
      var p := s[..|s| - 1];
      SeparatorCount(p) + (if s[|s| - 1] == ',' && !InQuotes(p) then 1 else 0)
  }

  /** `s` with every quote character removed. */
  function Unquote(s: string): (r: string)
    ensures '"' !in r
  {
    if |s| == 0 then ""
    else Unquote(s[..|s| - 1]) + (if s[|s| - 1] == '"' then "" else [s[|s| - 1]])
  }

  /** `fields.join(',')`. */
  function Join(fields: seq<string>): string {
    if |fields| == 0 then ""
    else if |fields| == 1 then fields[0]
    else Join(fields[..|fields| - 1]) + "," + fields[|fields| - 1]
  }

  lemma JoinExtendLast(fields: seq<string>, c: char)
    requires |fields| > 0
    ensures Join(fields[..|fields| - 1] + [fields[|fields| - 1] + [c]]) == Join(fields) + [c]
  {
    var n := |fields|;
    var g := fields[..n - 1] + [fields[n - 1] + [c]];
    if n > 1 {
      assert g[..n - 1] == fields[..n - 1];
    }
  }

  lemma JoinAppendEmpty(fields: seq<string>)
    requires |fields| > 0
    ensures Join(fields + [""]) == Join(fields) + ","
  {
    assert (fields + [""])[..|fields|] == fields;
  }

  /** `splitCsvLine(line)`, read one character at a time: a quote toggles the
      quoted mode and is dropped, a comma outside quotes starts a new field,
      any other character extends the current (last) field. */
  function SplitCsvLine(line: string): (r: seq<string>)
    ensures |r| == 1 + SeparatorCount(line)
    ensures forall i :: 0 <= i < |r| ==> '"' !in r[i]
    ensures Join(r) == Unquote(line)
  {
    if |line| == 0 then [""]
    else
      var p, c := line[..|line| - 1], line[|line| - 1];
      var f := SplitCsvLine(p);
      if c == '"' then f
      else if c == ',' && !InQuotes(p) then
        JoinAppendEmpty(f);
        f + [""]
      else
        JoinExtendLast(f, c);
        f[..|f| - 1] + [f[|f| - 1] + [c]]
  }

  /** `line.split(',')`, the reference for a line without quotes. */
  function SplitOnComma(line: string): (r: seq<string>)
    ensures |r| > 0
  {
    if |line| == 0 then [""]
    else
      var p, c := line[..|line| - 1], line[|line| - 1];
      var f := SplitOnComma(p);
      if c == ',' then f + [""] else f[..|f| - 1] + [f[|f| - 1] + [c]]
  }

  lemma {:induction false} NoQuotesNoQuotedMode(line: string)
    requires '"' !in line
    ensures QuoteCount(line) == 0
  {
    if |line| > 0 {
      NoQuotesNoQuotedMode(line[..|line| - 1]);
    }
  }

  /** On a line without quote characters the splitter is a plain split on
      commas. */
  lemma {:induction false} QuoteFreeSplit(line: string)
    requires '"' !in line
    ensures SplitCsvLine(line) == SplitOnComma(line)
  {
    if |line| > 0 {
      var p := line[..|line| - 1];
      assert forall k :: 0 <= k < |p| ==> p[k] == line[k];
      QuoteFreeSplit(p);
      NoQuotesNoQuotedMode(p);
    }
  }

  // ---------------------------------------------------------------------------
  // Lines

  /** `text.split(/\r?\n/)`: split at every line feed, and drop one carriage
      return that immediately precedes a line feed. */
  function SplitLines(text: string): (r: seq<string>)
    ensures |r| > 0
  {
    if |text| == 0 then [""]
    else
      var p, c := text[..|text| - 1], text[|text| - 1];
      var f := SplitLines(p);
      var last := f[|f| - 1];
      if c == '\n' then
        var cut := if |last| > 0 && last[|last| - 1] == '\r' then last[..|last| - 1] else last;
        f[..|f| - 1] + [cut] + [""]
      else f[..|f| - 1] + [last + [c]]
  }

  predicate IsBlank(line: string) { Trim(line) == "" }

  /** `lines.filter((l) => l.trim().length > 0)`. */
  function NonBlank(lines: seq<string>): (r: seq<string>)
    ensures |r| <= |lines|
    ensures forall i :: 0 <= i < |r| ==> !IsBlank(r[i])
    ensures forall l :: l in r <==> l in lines && !IsBlank(l)
  {
    if |lines| == 0 then []
    else if IsBlank(lines[0]) then NonBlank(lines[1..])
    else [lines[0]] + NonBlank(lines[1..])
  }

  // ---------------------------------------------------------------------------
  // Header and rows

  /** `/service/i.test(line)`. */
  predicate MentionsService(line: string) { Contains(Lower(line), "service") }

  /** The index of the first line that mentions "service". */
  function HeaderIndex(lines: seq<string>): (r: Option<nat>)
    ensures r.Some? ==> r.value < |lines| && MentionsService(lines[r.value])
    ensures r.Some? ==> forall k :: 0 <= k < r.value ==> !MentionsService(lines[k])
    ensures r.None? ==> forall k :: 0 <= k < |lines| ==> !MentionsService(lines[k])
  {
    if |lines| == 0 then None
    else if MentionsService(lines[0]) then Some(0)
    else match HeaderIndex(lines[1..])
      case None => None
      case Some(k) => Some(k + 1)
  }

  /** The column name a header cell defines: trimmed and lower-cased. */
  function ColumnName(cell: string): string { Lower(Trim(cell)) }

  /** The column names a header line defines, position by position. */
  function ColumnNames(header: seq<string>): (r: seq<string>)
    ensures |r| == |header|
    ensures forall k :: 0 <= k < |header| ==> r[k] == ColumnName(header[k])
  {
    seq(|header|, k requires 0 <= k < |header| => ColumnName(header[k]))
  }

  /** `colIndex[name]`: the header is read left to right into an object, so a
      repeated column name maps to its LAST position. */
  function ColIndex(names: seq<string>, name: string): (r: Option<nat>)
    ensures r.Some? ==> r.value < |names| && names[r.value] == name
    ensures r.Some? ==> forall k :: r.value < k < |names| ==> names[k] != name
    ensures r.None? <==> name !in names
  {
    if |names| == 0 then None
    else if names[|names| - 1] == name then Some(|names| - 1)
    else ColIndex(names[..|names| - 1], name)
  }

  /** `cols[colIndex[name] ?? -1]?.trim()`: absent when the column is unknown
      or the row is too short. */
  function Cell(cols: seq<string>, names: seq<string>, name: string): (r: Option<string>)
    ensures r.Some? <==> ColIndex(names, name).Some? && ColIndex(names, name).value < |cols|
    ensures r.Some? ==> r.value == Trim(cols[ColIndex(names, name).value])
  {
    match ColIndex(names, name)
    case Some(i) => if i < |cols| then Some(Trim(cols[i])) else None
    case None => None
  }

  /** One data line: skipped (None) when its service cell is absent or empty. */
  function ParseRow(line: string, names: seq<string>): (r: Option<CsvRow>)
    ensures var service := Cell(SplitCsvLine(line), names, "service");
      r.Some? <==> service.Some? && service.value != ""
    ensures r.Some? ==> WellFormedRow(r.value)
    ensures r.Some? ==> var cols := SplitCsvLine(line);
      && r.value.service == Cell(cols, names, "service").value
      && r.value.cancelUrlHint == Cell(cols, names, "cancel_url_hint")
      && r.value.flow == Cell(cols, names, "flow")
      && r.value.region == Cell(cols, names, "region")
      && r.value.supportHint == Cell(cols, names, "support_hint")
      && r.value.knownPaths == Cell(cols, names, "known_paths")
  {
    var cols := SplitCsvLine(line);
    var service := Cell(cols, names, "service");
    if service.None? || service.value == "" then None
    else
      TrimIdempotent(cols[ColIndex(names, "service").value]);
      Some(CsvRow(
        service.value,
        Cell(cols, names, "cancel_url_hint"),
        Cell(cols, names, "flow"),
        Cell(cols, names, "region"),
        Cell(cols, names, "support_hint"),
        Cell(cols, names, "known_paths")))
  }

  predicate WellFormedRow(row: CsvRow) {
    row.service != "" && Trim(row.service) == row.service
  }

  /** The rows of the data lines, in order; skipped lines contribute nothing. */
  function ParseRows(lines: seq<string>, names: seq<string>): (r: seq<CsvRow>)
    ensures |r| <= |lines|
    ensures forall i :: 0 <= i < |lines| && ParseRow(lines[i], names).Some? ==> ParseRow(lines[i], names).value in r
  {
    FilterMapKeeps(lines, (l: string) => ParseRow(l, names));
    FilterMap(lines, (l: string) => ParseRow(l, names))
  }

  /** The non-blank lines of the text. */
  function Lines(text: string): seq<string> {
    NonBlank(SplitLines(text))
  }

  /** `parseCsv(text)`: the non-blank lines go to `ParseLines`. */
  function ParseCsv(text: string): (r: Result<seq<CsvRow>, CsvError>)
    ensures (forall l :: l in SplitLines(text) ==> IsBlank(l)) ==> r == Ok([])
  {
    ParseLines(Lines(text))
  }

  /** The parse of the non-blank lines: too few give no rows, and otherwise
      the rows after the header line are parsed. */
  function ParseLines(lines: seq<string>): (r: Result<seq<CsvRow>, CsvError>)
    ensures r.Ok? && |lines| > 0 ==> |r.value| < |lines|
  {
    if |lines| < 2 then Ok([])
    else
      match HeaderIndex(lines)
      case None => Err(NoHeaderLine)
      case Some(h) => Ok(ParseRows(lines[h + 1..], ColumnNames(SplitCsvLine(lines[h]))))
  }

  // ---------------------------------------------------------------------------
  // Properties

  lemma TrimIdempotent(s: string)
    ensures Trim(Trim(s)) == Trim(s)
  {
  }

  /** Every row the parser emits has a non-empty, trimmed service name. */
  lemma RowsWellFormed(lines: seq<string>, names: seq<string>)
    ensures forall row :: row in ParseRows(lines, names) ==> WellFormedRow(row)
  {
    forall row | row in ParseRows(lines, names)
      ensures WellFormedRow(row)
    {
      FilterMapSource(lines, (l: string) => ParseRow(l, names), row);
      var i :| 0 <= i < |lines| && ParseRow(lines[i], names) == Some(row);
      var cols := SplitCsvLine(lines[i]);
      TrimIdempotent(cols[ColIndex(names, "service").value]);
    }
  }

  /** Rows keep input order: parsing a concatenation concatenates the rows. */
  lemma RowsInOrder(a: seq<string>, b: seq<string>, names: seq<string>)
    ensures ParseRows(a + b, names) == ParseRows(a, names) + ParseRows(b, names)
  {
    FilterMapAppend(a, b, (l: string) => ParseRow(l, names));
  }

  /** One data line contributes its row, or nothing when it is skipped;
      with `RowsInOrder` this fixes the rows of any list of lines. */
  lemma RowsOfLine(line: string, names: seq<string>)
    ensures ParseRows([line], names) == if ParseRow(line, names).Some? then [ParseRow(line, names).value] else []
  {
    assert [line][1..] == [];
  }

  /** A row is emitted exactly when some data line parses to it. */
  lemma RowsComplete(lines: seq<string>, names: seq<string>, row: CsvRow)
    ensures row in ParseRows(lines, names) <==> exists i :: 0 <= i < |lines| && ParseRow(lines[i], names) == Some(row)
  {
    if row in ParseRows(lines, names) {
      FilterMapSource(lines, (l: string) => ParseRow(l, names), row);
    }
  }

  /** A header without a cell named exactly "service" makes every row skip. */
  lemma NoServiceColumnNoRows(lines: seq<string>, names: seq<string>)
    requires "service" !in names
    ensures ParseRows(lines, names) == []
  {
    FilterMapNone(lines, (l: string) => ParseRow(l, names));
  }

  /** Too few non-blank lines give no rows. */
  lemma ParseCsvShort(text: string)
    requires |Lines(text)| < 2
    ensures ParseCsv(text) == Ok([])
  {
  }

  /** With two or more non-blank lines and none mentioning "service", the
      header scan runs off the end and the parse fails; this is the only way
      it fails. */
  lemma ParseCsvFails(text: string)
    ensures ParseCsv(text).Err? <==>
      var lines := Lines(text);
      |lines| >= 2 && forall k :: 0 <= k < |lines| ==> !MentionsService(lines[k])
  {
    var lines := Lines(text);
    if |lines| >= 2 && HeaderIndex(lines).Some? {
      assert MentionsService(lines[HeaderIndex(lines).value]);
    }
  }

  /** The header is the first line that mentions "service", and only the lines
      after it are parsed into rows. */
  lemma ParseLinesHeader(lines: seq<string>, h: nat)
    requires |lines| >= 2 && h < |lines| && MentionsService(lines[h])
    requires forall k :: 0 <= k < h ==> !MentionsService(lines[k])
    ensures ParseLines(lines) == Ok(ParseRows(lines[h + 1..], ColumnNames(SplitCsvLine(lines[h]))))
  {
    HeaderIndexIs(lines, h);
    var names := ColumnNames(SplitCsvLine(lines[h]));
    assert ParseLines(lines) == Ok(ParseRows(lines[h + 1..], names));
  }

  /** The first line mentioning "service" is the header found. */
  lemma {:induction false} HeaderIndexIs(lines: seq<string>, h: nat)
    requires h < |lines| && MentionsService(lines[h])
    requires forall k :: 0 <= k < h ==> !MentionsService(lines[k])
    ensures HeaderIndex(lines) == Some(h)
  {
    if h > 0 {
      assert !MentionsService(lines[0]);
      HeaderIndexIs(lines[1..], h - 1);
    }
  }

  /** Every emitted row is well formed, and there are fewer rows than
      non-blank lines whenever there is one: the header line never becomes
      a row. */
  lemma ParseCsvRows(text: string)
    ensures ParseCsv(text).Ok? ==>
      && |ParseCsv(text).value| <= |Lines(text)|
      && (|Lines(text)| > 0 ==> |ParseCsv(text).value| < |Lines(text)|)
      && forall row :: row in ParseCsv(text).value ==> WellFormedRow(row)
  {
    var lines := Lines(text);
    if |lines| >= 2 && HeaderIndex(lines).Some? {
      var h := HeaderIndex(lines).value;
      RowsWellFormed(lines[h + 1..], ColumnNames(SplitCsvLine(lines[h])));
    }
  }
}

=== FILE: custom_local.dfy ===
/** The browser-local list of custom entries (src/lib/customLocal.ts): a JSON
    array under one `localStorage` key, upserted and filtered by `id`. */
module CustomLocal {
  import opened Common
  import opened Json

  const Key: string := "nomo.custom.v1"

  /** `getCustomLocal()`. */
  function GetCustomLocal(store: Storage): (r: seq<Value>)
    ensures store.None? ==> r == []
    ensures Parsed(store, Key).None? ==> r == []
    ensures r != [] ==> Parsed(store, Key) == Some(Arr(r))
  {
    StoredList(store, Key)
  }

  /** `setCustomLocal(list)`. */
  function SetCustomLocal(store: Storage, list: seq<Value>): (r: Storage)
    ensures store.None? <==> r.None?
    ensures r.Some? ==> forall k :: k in store.value && k != Key ==> k in r.value && r.value[k] == store.value[k]
  {
    SetItem(store, Key, Arr(list))
  }

  /** A JSON list written in the browser reads back unchanged. */
  lemma SetCustomRoundTrip(store: Storage, list: seq<Value>)
    requires store.Some? && IsJson(Arr(list))
    ensures GetCustomLocal(SetCustomLocal(store, list)) == list
  {
    StoredListRoundTrip(store, Key, list);
  }

  /** `upsertCustomLocal(entry)`; `Err` when the id search meets a `null`
      element before a match. */
  function UpsertCustomLocal(store: Storage, entry: map<string, Value>): (r: Result<Storage, Thrown>)
    ensures r.Err? <==> FindIndexChecked(GetCustomLocal(store), Prop(Obj(entry), "id")).Err?
    ensures r.Ok? ==> r.value == SetCustomLocal(store, UpsertById(GetCustomLocal(store), entry))
  {
    var list := GetCustomLocal(store);
    match FindIndexChecked(list, Prop(Obj(entry), "id"))
    case Err(e) => Err(e)
    case Ok(_) => Ok(SetCustomLocal(store, UpsertById(list, entry)))
  }

  /** `removeCustomLocal(id)`; `Err` when any element is `null`. */
  function RemoveCustomLocal(store: Storage, id: string): (r: Result<Storage, Thrown>)
    ensures r.Err? <==> exists i :: 0 <= i < |GetCustomLocal(store)| && Nullish(GetCustomLocal(store)[i])
    ensures r.Ok? ==> r.value == SetCustomLocal(store, RemoveById(GetCustomLocal(store), Str(id)))
  {
    match RemoveByIdChecked(GetCustomLocal(store), Str(id))
    case Err(e) => Err(e)
    case Ok(next) => Ok(SetCustomLocal(store, next))
  }

  /** A store holding JSON text whose custom list has no `null` element. */
  predicate Usable(store: Storage) {
    JsonStore(store) && forall i :: 0 <= i < |GetCustomLocal(store)| ==> !Nullish(GetCustomLocal(store)[i])
  }

  /** In the browser, an upsert of a JSON entry succeeds and reads back as the
      list upsert of what was stored: merged in place, or appended. */
  lemma UpsertCustomRoundTrip(store: Storage, entry: map<string, Value>)
    requires store.Some? && Usable(store) && IsJson(Obj(entry))
    ensures UpsertCustomLocal(store, entry).Ok?
    ensures GetCustomLocal(UpsertCustomLocal(store, entry).value) == UpsertById(GetCustomLocal(store), entry)
    ensures JsonStore(UpsertCustomLocal(store, entry).value)
  {
    var list := GetCustomLocal(store);
    StoredListJson(store, Key);
    UpsertKeepsJson(list, entry);
    SetCustomRoundTrip(store, UpsertById(list, entry));
  }

  /** Upserting the same entry twice leaves the same list as upserting it once. */
  lemma UpsertCustomIdempotent(store: Storage, entry: map<string, Value>)
    requires store.Some? && Usable(store) && IsJson(Obj(entry))
    requires !Prop(Obj(entry), "id").Arr? && !Prop(Obj(entry), "id").Obj?
    ensures var once := UpsertCustomLocal(store, entry).value;
      UpsertCustomLocal(once, entry).Ok?
      && GetCustomLocal(UpsertCustomLocal(once, entry).value) == GetCustomLocal(once)
  {
    var list := GetCustomLocal(store);
    UpsertCustomRoundTrip(store, entry);
    var once := UpsertCustomLocal(store, entry).value;
    var next := UpsertById(list, entry);
    assert GetCustomLocal(once) == next;
    UpsertIdempotent(list, entry);
    StoredListJson(once, Key);
    assert IsJson(Arr(next));
    assert forall i :: 0 <= i < |next| ==> !Nullish(next[i]);
    UpsertCustomRoundTrip(once, entry);
  }

  /** Removing an id kept by no entry leaves the list as it was. */
  lemma RemoveAbsentCustom(store: Storage, id: string)
    requires store.Some? && Usable(store)
    requires forall i :: 0 <= i < |GetCustomLocal(store)| ==> !HasId(GetCustomLocal(store)[i], Str(id))
    ensures RemoveCustomLocal(store, id).Ok?
    ensures GetCustomLocal(RemoveCustomLocal(store, id).value) == GetCustomLocal(store)
  {
    StoredListJson(store, Key);
    RemoveAbsent(GetCustomLocal(store), Str(id));
    SetCustomRoundTrip(store, GetCustomLocal(store));
  }

  /** After a remove no entry has the id, and every other entry remains. */
  lemma RemoveCustomContents(store: Storage, id: string)
    requires store.Some? && Usable(store)
    ensures RemoveCustomLocal(store, id).Ok?
    ensures forall x :: x in GetCustomLocal(RemoveCustomLocal(store, id).value) <==>
      x in GetCustomLocal(store) && !HasId(x, Str(id))
  {
    StoredListJson(store, Key);
    RemoveKeepsJson(GetCustomLocal(store), Str(id));
    SetCustomRoundTrip(store, RemoveById(GetCustomLocal(store), Str(id)));
  }

  /** Without a window nothing is read or written. */
  lemma NoWindowCustom(entry: map<string, Value>, id: string)
    ensures GetCustomLocal(None) == []
    ensures UpsertCustomLocal(None, entry) == Ok(None)
    ensures RemoveCustomLocal(None, id) == Ok(None)
  {
  }
}

=== FILE: data.dfy ===
/** The subscription record and the built-in default list (src/lib/data.ts). */
module Data {
  import opened Common

  datatype Cadence = Month | Year

  /** `Subscription`; `pricePerMonthUsd` is a real number (NaN is not
      modelled), the optional fields are `Option`s. */
  datatype Subscription = Subscription(
    id: string,
    name: string,
    price: real,
    cancelUrl: string,
    websiteUrl: Option<string>,
    renewsInDays: Option<int>,
    cadence: Option<Cadence>,
    nextChargeAt: Option<string>)

  /** A record with only the four required fields set. */
  function Basic(id: string, name: string, price: real, cancelUrl: string): Subscription {
    Subscription(id, name, price, cancelUrl, None, None, None, None)
  }

  /** `subscriptions`, the built-in defaults (lines 12-35). */
  const Defaults: seq<Subscription> := [
    Subscription("netflix", "Netflix", 15.49, "https://www.netflix.com/cancelplan",
      Some("https://www.netflix.com"), Some(5), None, None),
    Subscription("spotify", "Spotify", 9.99, "https://www.spotify.com/account/subscription/",
      Some("https://www.spotify.com"), None, None, None),
    Subscription("adobe-cc", "Adobe Creative Cloud", 52.99, "https://account.adobe.com/plans",
      Some("https://www.adobe.com"), None, None, None)
  ]

  /** The default ids are pairwise distinct and every default price is
      strictly positive. */
  lemma DefaultsWellFormed()
    ensures forall i, j :: 0 <= i < j < |Defaults| ==> Defaults[i].id != Defaults[j].id
    ensures forall i :: 0 <= i < |Defaults| ==> Defaults[i].price > 0.0
  {
  }
}

=== FILE: directory.dfy ===
/** The directory route (src/app/api/directory/route.ts): parse the CSV, key
    every row by the slug of its service name with last-row-wins, and sort the
    surviving entries by name. */
module Directory {
  import opened Common
  import Csv
  import Slugs
  import opened OrderedMaps
  import opened Sorting

  datatype DirOption = DirOption(id: string, name: string, cancelUrl: string, flow: string, region: string)

  /** `value || ''` for an optional CSV cell. */
  function OrEmpty(cell: Option<string>): string {
    match cell
    case Some(s) => s
    case None => ""
  }

  /** The entry a single row produces (lines 20-26). */
  function OptionOf(row: Csv.CsvRow): DirOption {
    DirOption(Slugs.Slug(row.service), row.service, OrEmpty(row.cancelUrlHint), OrEmpty(row.flow), OrEmpty(row.region))
  }

  /** The `byId.set(id, entry)` calls, in row order. */
  function Pairs(rows: seq<Csv.CsvRow>): (r: seq<(string, DirOption)>)
    ensures |r| == |rows|
    ensures forall i :: 0 <= i < |rows| ==> r[i] == (Slugs.Slug(rows[i].service), OptionOf(rows[i]))
  {
    seq(|rows|, i requires 0 <= i < |rows| => (Slugs.Slug(rows[i].service), OptionOf(rows[i])))
  }

  /** The last row whose service name slugs to `id`. */
  function LastRowFor(rows: seq<Csv.CsvRow>, id: string): (r: Option<Csv.CsvRow>)
    ensures r.Some? ==> r.value in rows && Slugs.Slug(r.value.service) == id
  {
    if |rows| == 0 then None
    else if Slugs.Slug(rows[|rows| - 1].service) == id then Some(rows[|rows| - 1])
    else LastRowFor(rows[..|rows| - 1], id)
  }

  /** Compare entries by name under the locale order `nameLe`. */
  function ByName(nameLe: (string, string) -> bool): (DirOption, DirOption) -> bool {
    (a: DirOption, b: DirOption) => nameLe(a.name, b.name)
  }

  /** Lines 17-28: dedupe by slug (last row wins, first position kept), then
      sort by name. */
  function Canonicalize(rows: seq<Csv.CsvRow>, nameLe: (string, string) -> bool): (r: seq<DirOption>)
    ensures forall i, j :: 0 <= i < j < |r| ==> r[i].id != r[j].id
    ensures forall o :: o in r ==> LastRowFor(rows, o.id).Some? && o == OptionOf(LastRowFor(rows, o.id).value)
    ensures forall row :: row in rows ==> exists o :: o in r && o.id == Slugs.Slug(row.service)
    ensures TotalPreorder(nameLe) ==> SortedBy(r, ByName(nameLe))
  {
    var r := Sort(Values(FromPairs(Pairs(rows))), ByName(nameLe));
    SortedEntriesDistinct(rows, r);
    SortedEntriesFromLastRows(rows, r);
    SortedEntriesCoverRows(rows, r);
    ByNamePreorder(nameLe);
    r
  }

  /** Every entry's id is its key. */
  predicate Keyed(m: Entries<string, DirOption>) {
    forall i :: 0 <= i < |m| ==> m[i].1.id == m[i].0
  }

  lemma KeyedEntriesDistinct(m: Entries<string, DirOption>, r: seq<DirOption>)
    requires Keyed(m) && DistinctKeys(m)
    requires multiset(r) == multiset(Values(m))
    ensures forall i, j :: 0 <= i < j < |r| ==> r[i].id != r[j].id
  {
    assert Distinct(Values(m));
    DistinctPermutation(r, Values(m));
    forall i, j | 0 <= i < j < |r|
      ensures r[i].id != r[j].id
    {
      assert r[i] in multiset(Values(m)) && r[j] in multiset(Values(m));
      var p :| 0 <= p < |m| && m[p].1 == r[i];
      var q :| 0 <= q < |m| && m[q].1 == r[j];
      assert p != q;
    }
  }

  lemma KeyedEntriesCoverKeys(m: Entries<string, DirOption>, r: seq<DirOption>)
    requires Keyed(m)
    requires multiset(r) == multiset(Values(m))
    ensures forall k :: k in Keys(m) ==> exists o :: o in r && o.id == k
  {
    forall k | k in Keys(m)
      ensures exists o :: o in r && o.id == k
    {
      var p :| 0 <= p < |m| && m[p].0 == k;
      assert Values(m)[p] in multiset(r);
    }
  }

  lemma SortedEntriesDistinct(rows: seq<Csv.CsvRow>, r: seq<DirOption>)
    requires multiset(r) == multiset(Values(FromPairs(Pairs(rows))))
    ensures forall i, j :: 0 <= i < j < |r| ==> r[i].id != r[j].id
  {
    CanonicalEntries(rows);
    KeyedEntriesDistinct(FromPairs(Pairs(rows)), r);
  }

  lemma SortedEntriesFromLastRows(rows: seq<Csv.CsvRow>, r: seq<DirOption>)
    requires multiset(r) == multiset(Values(FromPairs(Pairs(rows))))
    ensures forall o :: o in r ==> LastRowFor(rows, o.id).Some? && o == OptionOf(LastRowFor(rows, o.id).value)
  {
    var m := FromPairs(Pairs(rows));
    CanonicalEntries(rows);
    forall o | o in r
      ensures LastRowFor(rows, o.id).Some? && o == OptionOf(LastRowFor(rows, o.id).value)
    {
      assert o in multiset(Values(m));
      var p :| 0 <= p < |m| && m[p].1 == o;
    }
  }

  lemma SortedEntriesCoverRows(rows: seq<Csv.CsvRow>, r: seq<DirOption>)
    requires multiset(r) == multiset(Values(FromPairs(Pairs(rows))))
    ensures forall row :: row in rows ==> exists o :: o in r && o.id == Slugs.Slug(row.service)
  {
    CanonicalEntries(rows);
    KeyedEntriesCoverKeys(FromPairs(Pairs(rows)), r);
    RowKeysKept(rows);
  }

  lemma RowKeysKept(rows: seq<Csv.CsvRow>)
    ensures forall row :: row in rows ==> Slugs.Slug(row.service) in Keys(FromPairs(Pairs(rows)))
  {
    forall row | row in rows
      ensures Slugs.Slug(row.service) in Keys(Pairs(rows))
    {
      var i :| 0 <= i < |rows| && rows[i] == row;
      assert Keys(Pairs(rows))[i] == Slugs.Slug(row.service);
    }
  }

  lemma ByNamePreorder(nameLe: (string, string) -> bool)
    ensures TotalPreorder(nameLe) ==> TotalPreorder(ByName(nameLe))
  {
    if TotalPreorder(nameLe) {
      var le := ByName(nameLe);
      forall a: DirOption, b: DirOption
        ensures le(a, b) || le(b, a)
      {
        assert nameLe(a.name, b.name) || nameLe(b.name, a.name);
      }
      forall a: DirOption, b: DirOption, c: DirOption | le(a, b) && le(b, c)
        ensures le(a, c)
      {
        assert nameLe(a.name, b.name) && nameLe(b.name, c.name);
      }
    }
  }

  lemma {:induction false} LastValueOfPairs(rows: seq<Csv.CsvRow>, id: string)
    ensures LastValue(Pairs(rows), id) ==
      match LastRowFor(rows, id)
      case Some(row) => Some(OptionOf(row))
      case None => None
  {
    if |rows| > 0 {
      var init := rows[..|rows| - 1];
      assert Pairs(init) == Pairs(rows)[..|rows| - 1];
      LastValueOfPairs(init, id);
    }
  }

  /** Every entry of the map is the entry of the last row with its key, and
      its id is its key; hence the entries are pairwise distinct by id. */
  lemma CanonicalEntries(rows: seq<Csv.CsvRow>)
    ensures var m := FromPairs(Pairs(rows));
      && Keyed(m)
      && (forall i :: 0 <= i < |m| ==>
            LastRowFor(rows, m[i].0).Some? && m[i].1 == OptionOf(LastRowFor(rows, m[i].0).value))
  {
    var m := FromPairs(Pairs(rows));
    forall i | 0 <= i < |m|
      ensures LastRowFor(rows, m[i].0).Some? && m[i].1 == OptionOf(LastRowFor(rows, m[i].0).value)
      ensures m[i].1.id == m[i].0
    {
      CanonicalEntry(rows, i);
    }
  }

  /** One entry of the map is the entry of the last row with its key. */
  lemma CanonicalEntry(rows: seq<Csv.CsvRow>, i: nat)
    ensures var m := FromPairs(Pairs(rows));
      i < |m| ==>
        && LastRowFor(rows, m[i].0).Some? && m[i].1 == OptionOf(LastRowFor(rows, m[i].0).value)
        && m[i].1.id == m[i].0
  {
    var m := FromPairs(Pairs(rows));
    if i < |m| {
      FromPairsLastWins(Pairs(rows), m[i].0);
      LastValueOfPairs(rows, m[i].0);
      GetDistinct(m, m[i].0, i);
    }
  }

  /** `GET /api/directory`: the file's text when it could be read; any thrown
      error, including the parser's missing-header failure, answers with an
      empty option list. */
  function DirectoryGet(file: Option<string>, nameLe: (string, string) -> bool): (r: seq<DirOption>)
    ensures file.None? ==> r == []
    ensures file.Some? && Csv.ParseCsv(file.value).Err? ==> r == []
    ensures file.Some? && Csv.ParseCsv(file.value).Ok? ==>
      r == Canonicalize(Csv.ParseCsv(file.value).value, nameLe)
  {
    match file
    case None => []
    case Some(text) =>
      match Csv.ParseCsv(text)
      case Err(_) => []
      case Ok(rows) => Canonicalize(rows, nameLe)
  }
}

=== FILE: edit_price.dfy ===
/** The price editor (src/app/components/EditPriceModal.tsx): which text is a
    valid monthly price, what blur, close and save do with it, and what the
    dialog shows on opening.  `number` is `Number`, `fixed2` is
    `toFixed(2)` and `show` is `String` on numbers. */
module EditPrice {
  import opened Common
  import opened JsNumber
  import Data

  const MaxPrice: real := 100000.0

  /** `numeric` (lines 19-22): the finite value, else `NaN`. */
  function Numeric(value: string, number: string -> JsNum): (r: JsNum)
    ensures r.Finite? || r.NaN?
    ensures r.Finite? <==> number(value).Finite?
    ensures r.Finite? ==> r == number(value)
  {
    var n := number(value);
    if n.Finite? then n else NaN
  }

  /** `invalid` (lines 24-30). */
  predicate Invalid(value: string, number: string -> JsNum) {
    var n := Numeric(value, number);
    Trim(value) == "" || !n.Finite? || n.value <= 0.0 || n.value > MaxPrice
  }

  /** A valid text is non-blank and denotes a finite price in (0, 100000]. */
  lemma ValidMeansInRange(value: string, number: string -> JsNum)
    ensures !Invalid(value, number) <==>
      Trim(value) != "" && number(value).Finite? && 0.0 < number(value).value <= MaxPrice
  {
  }

  /** The boundary cases: 0.01 and 100000 pass; 0, -1, 100001 and text that
      is not a number do not. */
  lemma InvalidExamples(number: string -> JsNum)
    requires ParsesDecimals(number)
    requires number("abc") == NaN
    ensures !Invalid("0.01", number) && !Invalid("100000", number)
    ensures Invalid("0", number) && Invalid("-1", number) && Invalid("100001", number) && Invalid("abc", number)
  {
    ValidExamples(number);
    AboveBoundInvalid(number);
    SignsInvalid(number);
  }

  lemma ValidExamples(number: string -> JsNum)
    requires ParsesDecimals(number)
    ensures !Invalid("0.01", number) && !Invalid("100000", number)
  {
    DecimalCent();
    DecimalBound();
    ValidNumber(number, "0.01", 0.01);
    ValidNumber(number, "100000", 100000.0);
  }

  /** A decimal text with no surrounding space whose value is in range is
      valid. */
  lemma ValidNumber(number: string -> JsNum, value: string, v: real)
    requires ParsesDecimals(number) && IsDecimal(value) && DecimalValue(value) == v
    requires |value| > 0 && !IsSpace(value[0]) && !IsSpace(value[|value| - 1])
    requires 0.0 < v <= MaxPrice
    ensures !Invalid(value, number)
  {
    TrimKeeps(value);
  }

  lemma DecimalCent()
    ensures IsDecimal("0.01") && DecimalValue("0.01") == 0.01
  {
    assert DotIndex("0.01") == Some(1);
    assert "0.01"[..1] == "0" && "0.01"[2..] == "01";
    assert DigitsValue("01") == 1 by { assert "01"[..1] == "0"; }
    assert Pow10(2) == 100;
  }

  lemma DigitsTenThousand()
    ensures AllDigits("10000") && DigitsValue("10000") == 10000
  {
    assert "10000"[..4] == "1000" && "1000"[..3] == "100" && "100"[..2] == "10" && "10"[..1] == "1";
  }

  lemma DecimalBound()
    ensures IsDecimal("100000") && DecimalValue("100000") == 100000.0
  {
    assert DotIndex("100000") == None;
    DigitsTenThousand();
    assert "100000"[..5] == "10000";
  }

  lemma DecimalAboveBound()
    ensures IsDecimal("100001") && DecimalValue("100001") == 100001.0
  {
    assert DotIndex("100001") == None;
    DigitsTenThousand();
    assert "100001"[..5] == "10000";
  }

  lemma DecimalSigns()
    ensures IsDecimal("0") && DecimalValue("0") == 0.0
    ensures IsDecimal("-1") && DecimalValue("-1") == -1.0
  {
    assert Magnitude("-1") == "1";
  }

  /** `handleBlur` (lines 32-34): only valid text is reformatted. */
  function Blur(value: string, number: string -> JsNum, fixed2: real -> string): (r: string)
    ensures Invalid(value, number) ==> r == value
    ensures !Invalid(value, number) ==> r == fixed2(number(value).value)
  {
    if Invalid(value, number) then value else fixed2(Numeric(value, number).value)
  }

  /** The callbacks a handler invokes, in order. */
  datatype Callback = OnDiscard | OnClose | OnSave(price: JsNum, cadence: Data.Cadence, nextChargeAt: Option<string>)

  /** `handleRequestClose` (lines 36-43); `confirmed` is the answer to the
      confirmation dialog, asked only when a required price is invalid. */
  function RequestClose(requirePrice: bool, invalid: bool, confirmed: bool): (r: seq<Callback>)
    ensures OnDiscard in r <==> requirePrice && invalid && confirmed
    ensures OnClose in r <==> !(requirePrice && invalid) || confirmed
    ensures OnDiscard in r ==> r == [OnDiscard, OnClose]
    ensures |r| <= 2
  {
    if requirePrice && invalid then (if confirmed then [OnDiscard, OnClose] else [])
    else [OnClose]
  }

  /** `date || undefined`. */
  function ChargeDate(date: string): (r: Option<string>)
    ensures r.None? <==> date == ""
    ensures r.Some? ==> r.value == date
  {
    if date == "" then None else Some(date)
  }

  /** The Save button (line 89): disabled while a required price is invalid;
      otherwise it saves any number that is not `NaN` and is above 0, with no
      upper bound, then closes. */
  function SaveClick(requirePrice: bool, value: string, number: string -> JsNum, cadence: Data.Cadence, date: string): (r: seq<Callback>)
    ensures r == [] || (|r| == 2 && r[0].OnSave? && r[1] == OnClose)
    ensures r != [] ==> r[0].price == number(value) && Above(r[0].price, 0.0)
    ensures r != [] ==> r[0].cadence == cadence && r[0].nextChargeAt == ChargeDate(date)
    ensures r != [] <==> !(requirePrice && Invalid(value, number)) && Above(number(value), 0.0)
  {
    if requirePrice && Invalid(value, number) then []
    else
      var v := number(value);
      if v != NaN && Above(v, 0.0) then [OnSave(v, cadence, ChargeDate(date)), OnClose] else []
  }

  /** When a price is required, whatever is saved is a finite price in
      (0, 100000]. */
  lemma RequiredSaveInRange(value: string, number: string -> JsNum, cadence: Data.Cadence, date: string)
    requires SaveClick(true, value, number, cadence, date) != []
    ensures var p := SaveClick(true, value, number, cadence, date)[0].price;
      p.Finite? && 0.0 < p.value <= MaxPrice
  {
  }

  /** Without `requirePrice`, a price above the editor's bound still reaches
      `onSave`. */
  lemma SaveAboveBound(number: string -> JsNum, cadence: Data.Cadence)
    requires ParsesDecimals(number)
    ensures SaveClick(false, "100001", number, cadence, "") == [OnSave(Finite(100001.0), cadence, None), OnClose]
    ensures Invalid("100001", number)
  {
    AboveBoundInvalid(number);
  }

  /** A decimal whose value is not in (0, 100000] is invalid. */
  lemma DecimalOutOfRange(number: string -> JsNum, value: string)
    requires ParsesDecimals(number) && IsDecimal(value)
    requires DecimalValue(value) <= 0.0 || DecimalValue(value) > MaxPrice
    ensures number(value) == Finite(DecimalValue(value)) && Invalid(value, number)
  {
  }

  lemma AboveBoundInvalid(number: string -> JsNum)
    requires ParsesDecimals(number)
    ensures number("100001") == Finite(100001.0) && Invalid("100001", number)
  {
    DecimalAboveBound();
    DecimalOutOfRange(number, "100001");
  }

  lemma SignsInvalid(number: string -> JsNum)
    requires ParsesDecimals(number)
    ensures Invalid("0", number) && Invalid("-1", number)
  {
    DecimalSigns();
    DecimalOutOfRange(number, "0");
    DecimalOutOfRange(number, "-1");
  }

  /** The text shown on opening (lines 12-14). */
  function OpenValue(price: real, show: real -> string): (r: string)
    ensures price > 0.0 ==> r == show(price)
    ensures price <= 0.0 ==> r == ""
  {
    if price > 0.0 then show(price) else ""
  }
}

=== FILE: firestore_subs.dfy ===
/** The signed-in user's subscription document in Firestore
    (src/lib/firestoreSubs.ts): `{ items, updatedAt }`, read with a default,
    written with `merge: true`, and upserted or filtered by `id`. */
module FirestoreSubs {
  import opened Common
  import opened Json

  /** The document's data, `None` when it does not exist. */
  type Doc = Option<map<string, Value>>

  /** `getUserSubs`: `items` when it is an array, otherwise `[]`; a missing
      document reads as `{ items: [] }`. */
  function GetUserSubs(doc: Doc): (r: seq<Value>)
    ensures doc.None? ==> r == []
    ensures doc.Some? && "items" in doc.value && doc.value["items"].Arr? ==> r == doc.value["items"].items
    ensures r != [] ==> doc.Some? && "items" in doc.value && doc.value["items"] == Arr(r)
  {
    var data := if doc.Some? then Obj(doc.value) else Obj(map["items" := Arr([])]);
    match Prop(data, "items")
    case Arr(items) => items
    case _ => []
  }

  /** `setUserSubs(items)` at time `now`: a merge that replaces `items` and
      `updatedAt` and keeps every other field.  Firestore rejects data holding
      `undefined`. */
  function SetUserSubs(doc: Doc, items: seq<Value>, now: real): (r: Result<Doc, Thrown>)
    ensures r.Err? <==> !IsJson(Arr(items))
    ensures r.Ok? ==> (r.value.Some? && "items" in r.value.value && r.value.value["items"] == Arr(items)
                       && "updatedAt" in r.value.value && r.value.value["updatedAt"] == Num(now))
    ensures r.Ok? && doc.Some? ==> forall k :: k in doc.value && k != "items" && k != "updatedAt" ==>
      k in r.value.value && r.value.value[k] == doc.value[k]
  {
    if !IsJson(Arr(items)) then Err(Rejected)
    else
      var prior := if doc.Some? then doc.value else map[];
      Ok(Some(prior + map["items" := Arr(items), "updatedAt" := Num(now)]))
  }

  /** Whatever `setUserSubs` accepted, `getUserSubs` reads back. */
  lemma SetGetUserSubs(doc: Doc, items: seq<Value>, now: real)
    requires SetUserSubs(doc, items, now).Ok?
    ensures GetUserSubs(SetUserSubs(doc, items, now).value) == items
  {
  }

  /** `upsertUserSub(sub)`. */
  function UpsertUserSub(doc: Doc, sub: map<string, Value>, now: real): (r: Result<Doc, Thrown>)
    ensures r.Err? <==> FindIndexChecked(GetUserSubs(doc), Prop(Obj(sub), "id")).Err?
                        || !IsJson(Arr(UpsertById(GetUserSubs(doc), sub)))
    ensures r.Ok? ==> GetUserSubs(r.value) == UpsertById(GetUserSubs(doc), sub)
  {
    var current := GetUserSubs(doc);
    match FindIndexChecked(current, Prop(Obj(sub), "id"))
    case Err(e) => Err(e)
    case Ok(_) =>
      var next := UpsertById(current, sub);
      var r := SetUserSubs(doc, next, now);
      if r.Ok? then SetGetUserSubs(doc, next, now); r else r
  }

  /** `removeUserSub(id)`. */
  function RemoveUserSub(doc: Doc, id: string, now: real): (r: Result<Doc, Thrown>)
    ensures r.Err? <==> (exists i :: 0 <= i < |GetUserSubs(doc)| && Nullish(GetUserSubs(doc)[i]))
                        || !IsJson(Arr(RemoveById(GetUserSubs(doc), Str(id))))
    ensures r.Ok? ==> GetUserSubs(r.value) == RemoveById(GetUserSubs(doc), Str(id))
    ensures r.Ok? ==> forall x :: x in GetUserSubs(r.value) <==> x in GetUserSubs(doc) && !HasId(x, Str(id))
  {
    match RemoveByIdChecked(GetUserSubs(doc), Str(id))
    case Err(e) => Err(e)
    case Ok(next) =>
      var r := SetUserSubs(doc, next, now);
      if r.Ok? then SetGetUserSubs(doc, next, now); r else r
  }

  /** Data read from Firestore holds no `undefined` and no `null` entries in
      `items`. */
  predicate Stored(doc: Doc) {
    (doc.Some? ==> forall k :: k in doc.value ==> IsJson(doc.value[k]))
    && forall i :: 0 <= i < |GetUserSubs(doc)| ==> !Nullish(GetUserSubs(doc)[i])
  }

  /** On such a document an upsert of JSON data succeeds: it merges into the
      entry with the same id in place, keeping the others, or appends. */
  lemma UpsertUserSubSucceeds(doc: Doc, sub: map<string, Value>, now: real)
    requires Stored(doc) && IsJson(Obj(sub))
    ensures UpsertUserSub(doc, sub, now).Ok?
    ensures var before := GetUserSubs(doc);
      var after := GetUserSubs(UpsertUserSub(doc, sub, now).value);
      |before| <= |after| <= |before| + 1 && forall j :: 0 <= j < |before| && !HasId(before[j], Prop(Obj(sub), "id")) ==> after[j] == before[j]
  {
    var current := GetUserSubs(doc);
    assert IsJson(Arr(current)) by {
      if doc.Some? && "items" in doc.value && doc.value["items"].Arr? {
        assert IsJson(doc.value["items"]);
      }
    }
    UpsertKeepsJson(current, sub);
  }

  /** An upsert followed by a remove of the same id leaves no entry with it. */
  lemma UpsertThenRemoveUserSub(doc: Doc, sub: map<string, Value>, id: string, now: real, later: real)
    requires Prop(Obj(sub), "id") == Str(id)
    requires UpsertUserSub(doc, sub, now).Ok?
    requires RemoveUserSub(UpsertUserSub(doc, sub, now).value, id, later).Ok?
    ensures forall x :: x in GetUserSubs(RemoveUserSub(UpsertUserSub(doc, sub, now).value, id, later).value) ==> !HasId(x, Str(id))
  {
  }
}

=== FILE: js_number.dfy ===
/** JavaScript numbers as the forms read them: `Number(text)` yields a finite
    value, `NaN` or an infinity.  The conversion itself is a parameter of the
    members that use it; `ParsesDecimals` pins it down on plain decimal text. */
module JsNumber {
  import opened Common
  import Json

  datatype JsNum = Finite(value: real) | NaN | PosInf | NegInf

  /** `n > x` for a real `x`: false for `NaN`. */
  predicate Above(n: JsNum, x: real) {
    (n.Finite? && n.value > x) || n.PosInf?
  }

  /** `JSON.stringify` writes `null` for `NaN` and the infinities. */
  function ToJson(n: JsNum): (r: Json.Value)
    ensures Json.IsJson(r)
    ensures n.Finite? <==> r.Num?
  {
    if n.Finite? then Json.Num(n.value) else Json.Null
  }

  predicate AllDigits(s: string) {
    forall i :: 0 <= i < |s| ==> IsDigit(s[i])
  }

  /** The value of a run of decimal digits. */
  function DigitsValue(s: string): (r: nat)
    requires AllDigits(s)
  {
    if |s| == 0 then 0 else DigitsValue(s[..|s| - 1]) * 10 + (s[|s| - 1] as int - '0' as int)
  }

  function Pow10(n: nat): (r: nat)
    ensures r >= 1
  {
    if n == 0 then 1 else 10 * Pow10(n - 1)
  }

  /** The index of the first `.`. */
  function DotIndex(s: string): (r: Option<nat>)
    ensures r.Some? ==> r.value < |s| && s[r.value] == '.' && forall i :: 0 <= i < r.value ==> s[i] != '.'
    ensures r.None? ==> forall i :: 0 <= i < |s| ==> s[i] != '.'
  {
    if |s| == 0 then None
    else if s[0] == '.' then Some(0)
    else match DotIndex(s[1..])
      case None => None
      case Some(k) => Some(k + 1)
  }

  /** The text without a leading `-`. */
  function Magnitude(s: string): string {
    if |s| > 0 && s[0] == '-' then s[1..] else s
  }

  /** Plain decimal text: an optional `-`, digits, and at most one `.`, with at
      least one digit. */
  predicate IsDecimal(s: string) {
    var m := Magnitude(s);
    match DotIndex(m)
    case None => |m| > 0 && AllDigits(m)
    case Some(k) => |m| >= 2 && AllDigits(m[..k]) && AllDigits(m[k + 1..])
  }

  /** The real number plain decimal text denotes. */
  function DecimalValue(s: string): (r: real)
    requires IsDecimal(s)
    ensures !(|s| > 0 && s[0] == '-') ==> r >= 0.0
    ensures |s| > 0 && s[0] == '-' ==> r <= 0.0
  {
    var v := UnsignedValue(Magnitude(s));
    if |s| > 0 && s[0] == '-' then -v else v
  }

  /** The value of unsigned decimal text: the integer part plus the
      fraction's digits over a power of ten. */
  function UnsignedValue(m: string): (r: real)
    requires match DotIndex(m)
      case None => AllDigits(m)
      case Some(k) => AllDigits(m[..k]) && AllDigits(m[k + 1..])
    ensures r >= 0.0
  {
    match DotIndex(m)
    case None => DigitsValue(m) as real
    case Some(k) =>
      var frac := DigitsValue(m[k + 1..]) as real;
      var scale := Pow10(|m| - k - 1) as real;
      DivNonNeg(frac, scale);
      DigitsValue(m[..k]) as real + frac / scale
  }

  lemma DivNonNeg(a: real, b: real)
    requires a >= 0.0 && b > 0.0
    ensures a / b >= 0.0
  {
  }

  /** A conversion that agrees with `Number` on plain decimal text. */
  ghost predicate ParsesDecimals(number: string -> JsNum) {
    forall s {:trigger number(s)} :: IsDecimal(s) ==> number(s) == Finite(DecimalValue(s))
  }
}

=== FILE: json_values.dfy ===
/** JavaScript values as the stores see them: what `JSON.parse` produces, plus
    `undefined` for in-memory objects, and the few operations the store code
    applies to them (truthiness, `x?.k`, `===`, `??`, object spread, and the
    `JSON.stringify` / `JSON.parse` round trip). */
module Json {
  import opened Common

  datatype Value =
    | Undefined
    | Null
    | Bool(b: bool)
    | Num(n: real)
    | Str(s: string)
    | Arr(items: seq<Value>)
    | Obj(fields: map<string, Value>)

  /** JavaScript truthiness (numbers are finite reals here, so NaN is not a
      case). */
  predicate Truthy(v: Value) {
    match v
    case Undefined => false
    case Null => false
    case Bool(b) => b
    case Num(n) => n != 0.0
    case Str(s) => s != ""
    case Arr(_) => true
    case Obj(_) => true
  }

  /** `v?.k`: the own property of an object, `undefined` for anything else. */
  function Prop(v: Value, k: string): (r: Value)
    ensures r != Undefined ==> v.Obj? && k in v.fields && v.fields[k] == r
  {
    if v.Obj? && k in v.fields then v.fields[k] else Undefined
  }

  /** `a === b`.  Two arrays or objects from different places are never the
      same reference, so only primitives can be strictly equal. */
  predicate StrictEq(a: Value, b: Value) {
    !a.Arr? && !a.Obj? && a == b
  }

  /** `v ?? d`. */
  function OrElse(v: Value, d: Value): (r: Value)
    ensures v != Undefined && v != Null ==> r == v
    ensures v == Undefined || v == Null ==> r == d
  {
    if v == Undefined || v == Null then d else v
  }

  /** The property name of an array or string index: `String(i)`. */
  function IndexKey(i: nat): (r: string)
    ensures |r| > 0 && IsDigit(r[0])
  {
    if i < 10 then [('0' as int + i) as char]
    else IndexKey(i / 10) + [('0' as int + i % 10) as char]
  }

  /** Reads a property name back as the number whose digits it holds. */
  function IndexOf(key: string): int {
    if |key| == 0 then 0 else IndexOf(key[..|key| - 1]) * 10 + (key[|key| - 1] as int - '0' as int)
  }

  /** Reading an index's property name back yields the index. */
  lemma {:induction false} IndexKeyDecodes(i: nat)
    ensures IndexOf(IndexKey(i)) == i
  {
    if i >= 10 {
      var r := IndexKey(i);
      assert r[..|r| - 1] == IndexKey(i / 10);
      IndexKeyDecodes(i / 10);
    }
  }

  /** Distinct indices have distinct property names. */
  lemma IndexKeyInjective()
    ensures forall i: nat, j: nat :: IndexKey(i) == IndexKey(j) ==> i == j
  {
    forall i: nat, j: nat | IndexKey(i) == IndexKey(j)
      ensures i == j
    {
      IndexKeyDecodes(i);
      IndexKeyDecodes(j);
    }
  }

  /** The index properties of a string or an array: its elements under the
      names `"0"`, `"1"`, ... */
  function Indexed(items: seq<Value>): (r: map<string, Value>)
    ensures forall k :: k in r ==> |k| > 0 && IsDigit(k[0])
  {
    IndexKeyInjective();
    map i | 0 <= i < |items| :: IndexKey(i) := items[i]
  }

  /** Index `i` is stored under `String(i)`, and nothing else is stored. */
  lemma IndexedFields(items: seq<Value>)
    ensures forall i :: 0 <= i < |items| ==> IndexKey(i) in Indexed(items) && Indexed(items)[IndexKey(i)] == items[i]
    ensures forall k :: k in Indexed(items) ==> 0 <= IndexOf(k) < |items| && k == IndexKey(IndexOf(k))
  {
    forall i | 0 <= i < |items|
      ensures IndexKey(i) in Indexed(items) && Indexed(items)[IndexKey(i)] == items[i]
    {
      IndexedAt(items, i);
    }
    forall k | k in Indexed(items)
      ensures 0 <= IndexOf(k) < |items| && k == IndexKey(IndexOf(k))
    {
      IndexedKey(items, k);
    }
  }

  /** Index `i` is stored under `String(i)`. */
  lemma IndexedAt(items: seq<Value>, i: nat)
    requires i < |items|
    ensures IndexKey(i) in Indexed(items) && Indexed(items)[IndexKey(i)] == items[i]
  {
    IndexKeyInjective();
  }

  /** A key of an index map names an index in range. */
  lemma IndexedKey(items: seq<Value>, k: string)
    requires k in Indexed(items)
    ensures 0 <= IndexOf(k) < |items| && k == IndexKey(IndexOf(k))
  {
    var i :| 0 <= i < |items| && k == IndexKey(i);
    IndexKeyDecodes(i);
  }

  /** The characters of a string as one-character strings. */
  function Chars(s: string): (r: seq<Value>)
    ensures |r| == |s| && forall i :: 0 <= i < |s| ==> r[i] == Str([s[i]])
  {
    seq(|s|, i requires 0 <= i < |s| => Str([s[i]]))
  }

  /** The own enumerable properties an object spread copies: an object's
      fields, the indices of a string or an array, nothing for a primitive. */
  function FieldsOf(v: Value): (r: map<string, Value>)
    ensures v.Obj? ==> r == v.fields
    ensures !v.Obj? ==> forall k :: k in r ==> |k| > 0 && IsDigit(k[0])
  {
    match v
    case Obj(f) => f
    case Str(s) => Indexed(Chars(s))
    case Arr(items) => Indexed(items)
    case _ => map[]
  }

  /** Object spread copies one index per UTF-16 unit of a string.  For a
      string with no character above U+FFFF each character is one unit, so
      the spread fields are exactly the units, in order. */
  lemma SpreadStringUnits(s: string)
    requires forall i :: 0 <= i < |s| ==> s[i] as int < 0x1_0000
    ensures |Utf16(s)| == |s|
    ensures forall i :: 0 <= i < |s| ==>
      && IndexKey(i) in FieldsOf(Str(s))
      && FieldsOf(Str(s))[IndexKey(i)] == Str([s[i]])
      && Utf16(s)[i] == s[i] as int
    ensures forall k :: k in FieldsOf(Str(s)) ==> 0 <= IndexOf(k) < |Utf16(s)| && k == IndexKey(IndexOf(k))
  {
    BmpUnits(s);
    var items := Chars(s);
    IndexedFields(items);
    assert FieldsOf(Str(s)) == Indexed(items);
  }

  lemma {:induction false} BmpUnits(s: string)
    requires forall i :: 0 <= i < |s| ==> s[i] as int < 0x1_0000
    ensures |Utf16(s)| == |s| && forall i :: 0 <= i < |s| ==> Utf16(s)[i] == s[i] as int
  {
    if |s| > 0 {
      BmpUnits(s[1..]);
      assert Utf16(s) == [s[0] as int] + Utf16(s[1..]);
    }
  }

  /** `{ ...a, ...b }`: a shallow merge in which `b`'s fields win. */
  function Spread(a: Value, b: map<string, Value>): (r: Value)
    ensures r.Obj?
    ensures forall k :: k in b ==> k in r.fields && r.fields[k] == b[k]
    ensures forall k :: k in FieldsOf(a) && k !in b ==> k in r.fields && r.fields[k] == FieldsOf(a)[k]
    ensures forall k :: k in r.fields ==> k in b || k in FieldsOf(a)
  {
    Obj(FieldsOf(a) + b)
  }

  /** A value `JSON.parse` can produce: no `undefined` anywhere. */
  predicate IsJson(v: Value) {
    match v
    case Undefined => false
    case Arr(items) => forall i :: 0 <= i < |items| ==> IsJson(items[i])
    case Obj(f) => forall k :: k in f ==> IsJson(f[k])
    case _ => true
  }

  /** `JSON.parse(JSON.stringify(v))` for a value that is not itself
      `undefined`: object fields holding `undefined` are dropped, array
      elements holding `undefined` become `null`. */
  function Clean(v: Value): (r: Value)
    ensures v != Undefined ==> IsJson(r)
  {
    match v
    case Undefined => Null
    case Arr(items) => Arr(seq(|items|, i requires 0 <= i < |items| => Clean(items[i])))
    case Obj(f) => Obj(map k | k in f && f[k] != Undefined :: Clean(f[k]))
    case _ => v
  }

  /** A value that is already JSON survives the round trip unchanged. */
  lemma {:induction false} CleanFixesJson(v: Value)
    requires IsJson(v)
    ensures Clean(v) == v
  {
    match v
    case Arr(items) =>
      forall i | 0 <= i < |items|
        ensures Clean(items[i]) == items[i]
      {
        CleanFixesJson(items[i]);
      }
    case Obj(f) =>
      forall k | k in f
        ensures Clean(f[k]) == f[k]
      {
        CleanFixesJson(f[k]);
      }
    case _ =>
  }

  /** What `localStorage` holds under a key: text that parses to a value, or
      text that makes `JSON.parse` throw. */
  datatype Raw = Text(value: Value) | Unparsable

  /** `localStorage`; `None` stands for "no `window`" (server rendering). */
  type Storage = Option<map<string, Raw>>

  /** `localStorage.setItem(key, JSON.stringify(v))` for an array or an
      object `v`; without a window nothing happens. */
  function SetItem(store: Storage, key: string, v: Value): (r: Storage)
    ensures store.None? <==> r.None?
    ensures r.Some? ==> key in r.value && r.value[key] == Text(Clean(v))
    ensures r.Some? ==> forall k :: k in store.value && k != key ==> k in r.value && r.value[k] == store.value[k]
  {
    match store
    case None => None
    case Some(m) => Some(m[key := Text(Clean(v))])
  }

  /** `JSON.parse(localStorage.getItem(key))` under `try`, where a missing or
      empty item and a parse error all land in the same fallback. */
  function Parsed(store: Storage, key: string): (r: Option<Value>)
    ensures r.Some? ==> store.Some? && key in store.value && store.value[key] == Text(r.value)
  {
    match store
    case None => None
    case Some(m) =>
      if key in m && m[key].Text? then Some(m[key].value) else None
  }

  /** Every item that parses holds a JSON value (no `undefined` inside). */
  predicate JsonStore(store: Storage) {
    store.Some? ==> forall k :: k in store.value && store.value[k].Text? ==> IsJson(store.value[k].value)
  }

  /** Writing through `SetItem` keeps a store of JSON text. */
  lemma SetItemKeepsJson(store: Storage, key: string, v: Value)
    requires JsonStore(store) && v != Undefined
    ensures JsonStore(SetItem(store, key, v))
  {
  }

  /** The read shared by the list stores: the parsed item when it is an array,
      `[]` for a missing item, a parse error, any other JSON, or no window. */
  function StoredList(store: Storage, key: string): (r: seq<Value>)
    ensures store.None? ==> r == []
    ensures Parsed(store, key).Some? && Parsed(store, key).value.Arr? ==> r == Parsed(store, key).value.items
    ensures !(Parsed(store, key).Some? && Parsed(store, key).value.Arr?) ==> r == []
  {
    match Parsed(store, key)
    case Some(Arr(items)) => items
    case _ => []
  }

  /** A list of JSON values written under a key reads back unchanged. */
  lemma StoredListRoundTrip(store: Storage, key: string, list: seq<Value>)
    requires store.Some? && IsJson(Arr(list))
    ensures StoredList(SetItem(store, key, Arr(list)), key) == list
  {
    CleanFixesJson(Arr(list));
  }

  /** A list read from a store of JSON text is itself JSON. */
  lemma StoredListJson(store: Storage, key: string)
    requires JsonStore(store)
    ensures IsJson(Arr(StoredList(store, key)))
  {
  }

  // ---------------------------------------------------------------------------
  // Lists of records keyed by their `id` property

  /** `x.id === id`. */
  predicate HasId(x: Value, id: Value) {
    StrictEq(Prop(x, "id"), id)
  }

  /** `list.findIndex((x) => x.id === id)`, with -1 as `None`. */
  function FindIndex(list: seq<Value>, id: Value): (r: Option<nat>)
    ensures r.Some? ==> r.value < |list| && HasId(list[r.value], id)
    ensures r.Some? ==> forall i :: 0 <= i < r.value ==> !HasId(list[i], id)
    ensures r.None? <==> forall i :: 0 <= i < |list| ==> !HasId(list[i], id)
  {
    if |list| == 0 then None
    else if HasId(list[0], id) then Some(0)
    else match FindIndex(list[1..], id)
      case None => None
      case Some(i) => Some(i + 1)
  }

  /** `null` and `undefined`: the values whose `.id` throws a `TypeError`. */
  predicate Nullish(v: Value) {
    v == Null || v == Undefined
  }

  /** An exception a store operation can raise. */
  datatype Thrown = TypeError | Rejected

  /** `list.findIndex((x) => x.id === id)` where the callback reads `x.id`
      without `?.`: the search throws on the first nullish element it visits
      before a match. */
  function FindIndexChecked(list: seq<Value>, id: Value): (r: Result<Option<nat>, Thrown>)
    ensures r.Ok? ==> r.value == FindIndex(list, id)
    ensures r.Err? <==> exists i :: 0 <= i < |list| && Nullish(list[i]) && forall j :: 0 <= j < i ==> !HasId(list[j], id)
  {
    if |list| == 0 then Ok(None)
    else if Nullish(list[0]) then Err(TypeError)
    else if HasId(list[0], id) then Ok(Some(0))
    else match FindIndexChecked(list[1..], id)
      case Err(e) =>
        ghost var i :| 0 <= i < |list[1..]| && Nullish(list[1..][i]) && forall j :: 0 <= j < i ==> !HasId(list[1..][j], id);
        assert Nullish(list[i + 1]) && forall j :: 0 <= j < i + 1 ==> !HasId(list[j], id);
        Err(e)
      case Ok(None) => Ok(None)
      case Ok(Some(i)) => Ok(Some(i + 1))
  }

  /** `idx >= 0 ? list[idx] = { ...list[idx], ...entry } : list.push(entry)`. */
  function UpsertById(list: seq<Value>, entry: map<string, Value>): (r: seq<Value>)
    ensures |list| <= |r| <= |list| + 1
    ensures FindIndex(list, Prop(Obj(entry), "id")).None? ==> r == list + [Obj(entry)]
    ensures FindIndex(list, Prop(Obj(entry), "id")).Some? ==>
      var i := FindIndex(list, Prop(Obj(entry), "id")).value;
      |r| == |list| && r[i] == Spread(list[i], entry)
      && forall j :: 0 <= j < |list| && j != i ==> r[j] == list[j]
  {
    match FindIndex(list, Prop(Obj(entry), "id"))
    case Some(i) => list[i := Spread(list[i], entry)]
    case None => list + [Obj(entry)]
  }

  /** The callback `(x) => x.id !== id`. */
  function KeepsOther(id: Value): Value -> bool {
    (x: Value) => !HasId(x, id)
  }

  /** `list.filter((x) => x.id !== id)`: the entries without the id, in their
      order and with their repetitions. */
  function RemoveById(list: seq<Value>, id: Value): (r: seq<Value>)
    ensures |r| <= |list|
    ensures forall x :: x in r <==> x in list && !HasId(x, id)
    ensures r == Filter(list, KeepsOther(id))
  {
    if |list| == 0 then []
    else
      assert list == [list[0]] + list[1..];
      FilterCons(list[0], list[1..], KeepsOther(id));
      (if HasId(list[0], id) then [] else [list[0]]) + RemoveById(list[1..], id)
  }

  /** `list.filter((x) => x.id !== id)` with the same unguarded read: it
      throws when any element is nullish. */
  function RemoveByIdChecked(list: seq<Value>, id: Value): (r: Result<seq<Value>, Thrown>)
    ensures r.Err? <==> exists i :: 0 <= i < |list| && Nullish(list[i])
    ensures r.Ok? ==> r.value == RemoveById(list, id)
  {
    if exists i :: 0 <= i < |list| && Nullish(list[i]) then Err(TypeError) else Ok(RemoveById(list, id))
  }

  /** Upserting JSON into JSON gives JSON. */
  lemma UpsertKeepsJson(list: seq<Value>, entry: map<string, Value>)
    requires IsJson(Arr(list)) && IsJson(Obj(entry))
    ensures IsJson(Arr(UpsertById(list, entry)))
  {
    var r := UpsertById(list, entry);
    forall i | 0 <= i < |r|
      ensures IsJson(r[i])
    {
      if i < |list| && r[i] != list[i] {
        assert r[i] == Spread(list[i], entry);
        SpreadKeepsJson(list[i], entry);
      }
    }
  }

  /** Spreading JSON over JSON gives JSON, whatever the left side is. */
  lemma SpreadKeepsJson(a: Value, entry: map<string, Value>)
    requires IsJson(a) && IsJson(Obj(entry))
    ensures IsJson(Spread(a, entry))
  {
    var f := FieldsOf(a);
    forall k | k in f
      ensures IsJson(f[k])
    {
      match a
      case Str(s) =>
        IndexedKey(Chars(s), k);
        IndexedAt(Chars(s), IndexOf(k));
      case Arr(items) =>
        IndexedKey(items, k);
        IndexedAt(items, IndexOf(k));
      case _ =>
    }
  }

  /** Removing from JSON gives JSON. */
  lemma RemoveKeepsJson(list: seq<Value>, id: Value)
    requires IsJson(Arr(list))
    ensures IsJson(Arr(RemoveById(list, id)))
  {
    var r := RemoveById(list, id);
    forall i | 0 <= i < |r|
      ensures IsJson(r[i])
    {
      assert r[i] in list;
    }
  }

  /** After an upsert the first record with the entry's id carries every
      field of the entry. */
  lemma UpsertFinds(list: seq<Value>, entry: map<string, Value>)
    requires !Prop(Obj(entry), "id").Arr? && !Prop(Obj(entry), "id").Obj?
    ensures var id := Prop(Obj(entry), "id");
      var r := UpsertById(list, entry);
      FindIndex(r, id).Some? && entry.Items <= r[FindIndex(r, id).value].fields.Items
  {
    var id := Prop(Obj(entry), "id");
    var r := UpsertById(list, entry);
    match FindIndex(list, id)
    case Some(i) =>
      assert FindIndex(r, id) == Some(i) by {
        assert HasId(r[i], id);
        assert forall j :: 0 <= j < i ==> r[j] == list[j];
      }
    case None =>
      assert HasId(r[|list|], id);
      assert forall j :: 0 <= j < |list| ==> r[j] == list[j];
      assert FindIndex(r, id) == Some(|list|);
  }

  /** Upserting the same entry twice is the same as upserting it once. */
  lemma UpsertIdempotent(list: seq<Value>, entry: map<string, Value>)
    requires !Prop(Obj(entry), "id").Arr? && !Prop(Obj(entry), "id").Obj?
    ensures UpsertById(UpsertById(list, entry), entry) == UpsertById(list, entry)
  {
    var id := Prop(Obj(entry), "id");
    var r := UpsertById(list, entry);
    UpsertFinds(list, entry);
    var i := FindIndex(r, id).value;
    assert FieldsOf(r[i]) + entry == FieldsOf(r[i]);
  }

  /** Ids that are pairwise distinct stay distinct after an upsert. */
  lemma UpsertKeepsIdsUnique(list: seq<Value>, entry: map<string, Value>)
    requires !Prop(Obj(entry), "id").Arr? && !Prop(Obj(entry), "id").Obj?
    requires forall i, j :: 0 <= i < j < |list| ==> Prop(list[i], "id") != Prop(list[j], "id")
    ensures var r := UpsertById(list, entry);
      forall i, j :: 0 <= i < j < |r| ==> Prop(r[i], "id") != Prop(r[j], "id")
  {
    var id := Prop(Obj(entry), "id");
    var r := UpsertById(list, entry);
    match FindIndex(list, id)
    case Some(k) =>
      assert Prop(r[k], "id") == Prop(list[k], "id");
      forall i | 0 <= i < |r|
        ensures Prop(r[i], "id") == Prop(list[i], "id")
      {
      }
    case None =>
      forall i | 0 <= i < |list|
        ensures Prop(r[i], "id") != Prop(r[|list|], "id")
      {
        assert !HasId(list[i], id);
      }
  }

  /** Removing an id that no record has changes nothing. */
  lemma RemoveAbsent(list: seq<Value>, id: Value)
    requires forall i :: 0 <= i < |list| ==> !HasId(list[i], id)
    ensures RemoveById(list, id) == list
  {
    FilterAll(list, KeepsOther(id));
  }

  /** An upsert followed by a remove of the same id leaves no record with
      that id. */
  lemma UpsertThenRemove(list: seq<Value>, entry: map<string, Value>)
    ensures var id := Prop(Obj(entry), "id");
      forall x :: x in RemoveById(UpsertById(list, entry), id) ==> !HasId(x, id)
  {
  }
}

=== FILE: local_subs.dfy ===
/** The onboarding list of manually added subscriptions (src/lib/localSubs.ts):
    a JSON array under one `localStorage` key that only ever grows. */
module LocalSubs {
  import opened Common
  import opened Json
  import JsNumber

  const StorageKey: string := "nomo.local.subscriptions"

  /** `LocalSubscription`; the price is whatever `Number` produced, NaN
      included. */
  datatype LocalSubscription = LocalSubscription(id: string, name: string, price: JsNumber.JsNum, cancelUrl: string)

  /** The object `JSON.stringify` writes for an entry (a NaN or infinite
      price is written as `null`). */
  function ToValue(sub: LocalSubscription): (r: Value)
    ensures IsJson(r) && Prop(r, "id") == Str(sub.id)
    ensures Prop(r, "pricePerMonthUsd").Num? <==> sub.price.Finite?
  {
    Obj(map["id" := Str(sub.id), "name" := Str(sub.name), "pricePerMonthUsd" := JsNumber.ToJson(sub.price),
            "cancelUrl" := Str(sub.cancelUrl)])
  }

  /** `getLocalSubscriptions()`. */
  function GetLocalSubscriptions(store: Storage): (r: seq<Value>)
    ensures store.None? ==> r == []
    ensures Parsed(store, StorageKey).None? ==> r == []
    ensures r != [] ==> Parsed(store, StorageKey) == Some(Arr(r))
  {
    StoredList(store, StorageKey)
  }

  /** `addLocalSubscription(sub)`: rewrite the stored list with `sub` at the
      end; without a window nothing happens. */
  function AddLocalSubscription(store: Storage, sub: LocalSubscription): (r: Storage)
    ensures store.None? <==> r.None?
    ensures r.Some? ==> forall k :: k in store.value && k != StorageKey ==> k in r.value && r.value[k] == store.value[k]
  {
    SetItem(store, StorageKey, Arr(GetLocalSubscriptions(store) + [ToValue(sub)]))
  }

  /** In the browser an add keeps every stored entry in order and puts the
      new one last, so the list grows by exactly one. */
  lemma AddAppends(store: Storage, sub: LocalSubscription)
    requires store.Some? && JsonStore(store)
    ensures GetLocalSubscriptions(AddLocalSubscription(store, sub)) == GetLocalSubscriptions(store) + [ToValue(sub)]
    ensures |GetLocalSubscriptions(AddLocalSubscription(store, sub))| == |GetLocalSubscriptions(store)| + 1
    ensures JsonStore(AddLocalSubscription(store, sub))
  {
    var next := GetLocalSubscriptions(store) + [ToValue(sub)];
    StoredListJson(store, StorageKey);
    assert IsJson(Arr(next)) by {
      assert forall i :: 0 <= i < |next| - 1 ==> next[i] == GetLocalSubscriptions(store)[i];
    }
    StoredListRoundTrip(store, StorageKey, next);
  }

  /** There is no dedupe: adding an id that is already stored leaves two
      entries with that id. */
  lemma AddKeepsDuplicates(store: Storage, sub: LocalSubscription)
    requires store.Some? && JsonStore(store)
    requires exists i :: 0 <= i < |GetLocalSubscriptions(store)| && Prop(GetLocalSubscriptions(store)[i], "id") == Str(sub.id)
    ensures var after := GetLocalSubscriptions(AddLocalSubscription(store, sub));
      exists i, j :: 0 <= i < j < |after| && Prop(after[i], "id") == Str(sub.id) && Prop(after[j], "id") == Str(sub.id)
  {
    var before := GetLocalSubscriptions(store);
    AddAppends(store, sub);
    var after := GetLocalSubscriptions(AddLocalSubscription(store, sub));
    var i :| 0 <= i < |before| && Prop(before[i], "id") == Str(sub.id);
    assert after[i] == before[i];
    assert after[|before|] == ToValue(sub);
  }

  /** Without a window the list reads empty and an add changes nothing. */
  lemma NoWindowLocal(sub: LocalSubscription)
    ensures GetLocalSubscriptions(None) == [] && AddLocalSubscription(None, sub) == None
  {
  }
}

=== FILE: manual_add.dfy ===
/** The manual add page of onboarding (src/app/onboarding/manual/page.tsx):
    the form's submit handler turns the typed text into a local entry. */
module ManualAdd {
  import opened Common
  import opened Json
  import JsNumber
  import LocalSubs

  const FallbackCancelUrl: string := "https://example.com"

  /** `replace(/\s+/g, '-')`: every maximal run of white space becomes one
      dash. */
  function Dashed(s: string): (r: string)
    ensures |r| <= |s|
    ensures forall i :: 0 <= i < |r| ==> !IsSpace(r[i])
    decreases |s|
  {
    if |s| == 0 then []
    else if IsSpace(s[0]) then "-" + Dashed(TrimStart(s[1..]))
    else [s[0]] + Dashed(s[1..])
  }

  /** The id made from the name (line 18); it is not trimmed. */
  function ManualId(name: string): (r: string)
    ensures |r| <= |name|
    ensures forall i :: 0 <= i < |r| ==> !IsSpace(r[i])
  {
    Dashed(Lower(name))
  }

  predicate NotDash(c: char) { c != '-' }
  predicate Kept(c: char) { !IsSpace(c) && c != '-' }

  /** Leading white space carries no kept character. */
  lemma {:induction false} KeptAfterTrim(s: string)
    ensures Filter(TrimStart(s), Kept) == Filter(s, Kept)
    decreases |s|
  {
    if |s| > 0 && IsSpace(s[0]) {
      assert s == [s[0]] + s[1..];
      FilterCons(s[0], s[1..], Kept);
      KeptAfterTrim(s[1..]);
    }
  }

  /** Text without white space is left alone. */
  lemma {:induction false} DashedKeeps(s: string)
    requires forall i :: 0 <= i < |s| ==> !IsSpace(s[i])
    ensures Dashed(s) == s
    decreases |s|
  {
    if |s| > 0 {
      DashedKeeps(s[1..]);
      assert s == [s[0]] + s[1..];
    }
  }

  /** Dashing twice is dashing once. */
  lemma DashedIdempotent(s: string)
    ensures Dashed(Dashed(s)) == Dashed(s)
  {
    DashedKeeps(Dashed(s));
  }

  /** Apart from dashes, the result holds exactly the text's characters
      other than white space and dashes, in order. */
  lemma {:induction false} DashedKeepsText(s: string)
    ensures Filter(Dashed(s), NotDash) == Filter(s, Kept)
    decreases |s|
  {
    if |s| > 0 {
      assert s == [s[0]] + s[1..];
      FilterCons(s[0], s[1..], Kept);
      if IsSpace(s[0]) {
        FilterCons('-', Dashed(TrimStart(s[1..])), NotDash);
        DashedKeepsText(TrimStart(s[1..]));
        KeptAfterTrim(s[1..]);
      } else {
        FilterCons(s[0], Dashed(s[1..]), NotDash);
        DashedKeepsText(s[1..]);
      }
    }
  }

  /** A leading part without white space is copied unchanged. */
  lemma {:induction false} DashedAppend(a: string, b: string)
    requires forall i :: 0 <= i < |a| ==> !IsSpace(a[i])
    ensures Dashed(a + b) == a + Dashed(b)
    decreases |a|
  {
    if |a| > 0 {
      assert (a + b)[0] == a[0] && !IsSpace(a[0]);
      assert (a + b)[1..] == a[1..] + b;
      DashedAppend(a[1..], b);
      assert a == [a[0]] + a[1..];
    } else {
      assert a + b == b;
    }
  }

  /** A white-space character opens a run that becomes one dash. */
  lemma DashedSpace(c: char, s: string)
    requires IsSpace(c)
    ensures Dashed([c] + s) == "-" + Dashed(TrimStart(s))
  {
    assert ([c] + s)[1..] == s;
  }

  lemma TrimStartSpace(c: char, s: string)
    requires IsSpace(c)
    ensures TrimStart([c] + s) == TrimStart(s)
  {
    assert ([c] + s)[1..] == s;
  }

  lemma LowerDisneyPlus()
    ensures Lower("Disney Plus") == "disney" + ([' '] + "plus")
  {
    var lowered := Lower("Disney Plus");
    assert lowered[0] == 'd' && lowered[6] == ' ' && lowered[7] == 'p';
  }

  /** Two words joined by one space are joined by one dash. */
  lemma DashedJoin(a: string, b: string)
    requires forall i :: 0 <= i < |a| ==> !IsSpace(a[i])
    requires forall i :: 0 <= i < |b| ==> !IsSpace(b[i])
    requires |b| > 0
    ensures Dashed(a + ([' '] + b)) == a + ("-" + b)
  {
    DashedAppend(a, [' '] + b);
    DashedSpaceWord(b);
  }

  /** One space before a word becomes one dash. */
  lemma DashedSpaceWord(b: string)
    requires forall i :: 0 <= i < |b| ==> !IsSpace(b[i])
    requires |b| > 0
    ensures Dashed([' '] + b) == "-" + b
  {
    DashedSpace(' ', b);
    assert TrimStart(b) == b by { assert !IsSpace(b[0]); }
    DashedKeeps(b);
  }

  /** Leading white space before a word becomes one leading dash. */
  lemma DashedLeading(b: string)
    requires forall i :: 0 <= i < |b| ==> !IsSpace(b[i])
    requires |b| > 0
    ensures Dashed([' '] + ([' '] + b)) == "-" + b
  {
    DashedSpace(' ', [' '] + b);
    TrimStartSpace(' ', b);
    assert TrimStart(b) == b by { assert !IsSpace(b[0]); }
    DashedKeeps(b);
  }

  /** Inner white space becomes a dash. */
  lemma ManualIdDashes()
    ensures ManualId("Disney Plus") == "disney-plus"
  {
    var a, b := "disney", "plus";
    assert forall i :: 0 <= i < |a| ==> !IsSpace(a[i]);
    assert forall i :: 0 <= i < |b| ==> !IsSpace(b[i]);
    LowerDisneyPlus();
    DashedJoin(a, b);
    assert a + ("-" + b) == "disney-plus";
  }

  lemma LowerHulu()
    ensures Lower("  Hulu") == [' '] + ([' '] + "hulu")
  {
    var lowered := Lower("  Hulu");
    assert lowered[0] == ' ' && lowered[1] == ' ' && lowered[2] == 'h';
  }

  /** The name is not trimmed first: leading white space gives a leading
      dash. */
  lemma ManualIdUntrimmed()
    ensures ManualId("  Hulu") == "-hulu"
  {
    var b := "hulu";
    assert forall i :: 0 <= i < |b| ==> !IsSpace(b[i]);
    LowerHulu();
    DashedLeading(b);
    assert "-" + b == "-hulu";
  }

  /** The entry written for the form's fields; `number` is the page's
      `Number` conversion. */
  function Entry(name: string, price: string, cancelUrl: string, number: string -> JsNumber.JsNum): (r: LocalSubs.LocalSubscription)
    ensures r.name == name && r.price == number(price)
    ensures r.cancelUrl != []
  {
    LocalSubs.LocalSubscription(ManualId(name), name, number(price),
      if cancelUrl == [] then FallbackCancelUrl else cancelUrl)
  }

  /** `onSubmit` (lines 13-27): an empty name or price does nothing;
      otherwise one entry is added to the local list. */
  function Submit(store: Storage, name: string, price: string, cancelUrl: string, number: string -> JsNumber.JsNum): (r: Storage)
    ensures name == [] || price == [] ==> r == store
    ensures store.None? ==> r == None
  {
    if name == [] || price == [] then store
    else LocalSubs.AddLocalSubscription(store, Entry(name, price, cancelUrl, number))
  }

  /** An accepted submit appends exactly one entry, whose id is the dashed
      lower-case name, whose cancel link falls back to the placeholder and
      whose price is the decimal typed when it is one. */
  lemma SubmitAppends(store: Storage, name: string, price: string, cancelUrl: string, number: string -> JsNumber.JsNum)
    requires store.Some? && JsonStore(store)
    requires name != [] && price != []
    ensures var after := LocalSubs.GetLocalSubscriptions(Submit(store, name, price, cancelUrl, number));
      && after[..|after| - 1] == LocalSubs.GetLocalSubscriptions(store)
      && Prop(after[|after| - 1], "id") == Str(ManualId(name))
      && Prop(after[|after| - 1], "cancelUrl") == Str(if cancelUrl == [] then FallbackCancelUrl else cancelUrl)
      && (JsNumber.ParsesDecimals(number) && JsNumber.IsDecimal(price) ==>
            Prop(after[|after| - 1], "pricePerMonthUsd") == Num(JsNumber.DecimalValue(price)))
  {
    var e := Entry(name, price, cancelUrl, number);
    LocalSubs.AddAppends(store, e);
  }
}

=== FILE: middleware.dfy ===
/** The onboarding gate (src/app/middleware.ts): requests without a session
    cookie are sent to `/onboarding`, except onboarding and API paths. */
module Middleware {
  import opened Common

  const SessionCookie: string := "next-auth.session-token"
  const SecureSessionCookie: string := "__Secure-next-auth.session-token"
  const OnboardingPath: string := "/onboarding"

  datatype Request = Request(pathname: string, search: string, cookies: set<string>)

  /** `NextResponse.next()`, or a redirect to the cloned URL with a new path. */
  datatype Decision = Pass | Redirect(pathname: string, search: string)

  predicate HasSession(req: Request) {
    SessionCookie in req.cookies || SecureSessionCookie in req.cookies
  }

  /** `middleware(req)` (lines 11-30). */
  function Gate(req: Request): (r: Decision)
    ensures StartsWith(req.pathname, OnboardingPath) ==> r == Pass
    ensures StartsWith(req.pathname, "/api") ==> r == Pass
    ensures HasSession(req) ==> r == Pass
    ensures r.Redirect? <==> !StartsWith(req.pathname, OnboardingPath) && !StartsWith(req.pathname, "/api") && !HasSession(req)
    ensures r.Redirect? ==> r == Redirect(OnboardingPath, req.search)
  {
    if StartsWith(req.pathname, OnboardingPath) then Pass
    else if StartsWith(req.pathname, "/api") then Pass
    else if !HasSession(req) then Redirect(OnboardingPath, req.search)
    else Pass
  }

  /** The redirect target always passes, so there is no redirect loop. */
  lemma NoRedirectLoop(req: Request)
    requires Gate(req).Redirect?
    ensures Gate(req.(pathname := Gate(req).pathname)) == Pass
  {
    assert StartsWith(OnboardingPath, OnboardingPath);
  }
}

=== FILE: ordered_maps.dfy ===
/** JavaScript `Map` semantics: entries kept in insertion order, `set` on an
    existing key replaces the value in place, `set` on a new key appends. */
module OrderedMaps {
  import opened Common

  type Entries<K, V> = seq<(K, V)>

  function Keys<K, V>(m: Entries<K, V>): (r: seq<K>)
    ensures |r| == |m|
    ensures forall i :: 0 <= i < |m| ==> r[i] == m[i].0
  {
    seq(|m|, i requires 0 <= i < |m| => m[i].0)
  }

  /** `Array.from(map.values())`. */
  function Values<K, V>(m: Entries<K, V>): (r: seq<V>)
    ensures |r| == |m|
    ensures forall i :: 0 <= i < |m| ==> r[i] == m[i].1
  {
    seq(|m|, i requires 0 <= i < |m| => m[i].1)
  }

  predicate Distinct<T(==)>(xs: seq<T>) {
    forall i, j :: 0 <= i < j < |xs| ==> xs[i] != xs[j]
  }

  predicate DistinctKeys<K(==), V>(m: Entries<K, V>) {
    forall i, j :: 0 <= i < j < |m| ==> m[i].0 != m[j].0
  }

  function IndexOfKey<K(==), V>(m: Entries<K, V>, k: K): (r: Option<nat>)
    ensures r.Some? ==> r.value < |m| && m[r.value].0 == k
    ensures r.Some? ==> forall i :: 0 <= i < r.value ==> m[i].0 != k
    ensures r.None? <==> k !in Keys(m)
  {
    if |m| == 0 then None
    else if m[0].0 == k then Some(0)
    else match IndexOfKey(m[1..], k)
      case None => None
      case Some(i) => Some(i + 1)
  }

  /** `map.get(k)`. */
  function Get<K(==), V>(m: Entries<K, V>, k: K): Option<V> {
    match IndexOfKey(m, k)
    case Some(i) => Some(m[i].1)
    case None => None
  }

  /** `map.set(k, v)`. */
  function Set<K(==,!new), V>(m: Entries<K, V>, k: K, v: V): (r: Entries<K, V>)
    ensures DistinctKeys(m) ==> DistinctKeys(r)
    ensures k in Keys(m) ==> |r| == |m|
    ensures k in Keys(m) && DistinctKeys(m) ==> forall i :: 0 <= i < |m| ==> r[i] == (if m[i].0 == k then (k, v) else m[i])
    ensures k !in Keys(m) ==> r == m + [(k, v)]
    ensures forall x :: x in Keys(r) <==> x in Keys(m) || x == k
  {
    match IndexOfKey(m, k)
    case Some(i) =>
      var r := m[i := (k, v)];
      assert DistinctKeys(m) ==> forall j :: 0 <= j < |m| && m[j].0 == k ==> j == i;
      assert Keys(r) == Keys(m);
      r
    case None =>
      var r := m + [(k, v)];
      assert Keys(r) == Keys(m) + [k];
      r
  }

  /** `for (const [k, v] of pairs) map.set(k, v)`, starting from an empty map. */
  function FromPairs<K(==,!new), V>(pairs: seq<(K, V)>): (r: Entries<K, V>)
    ensures DistinctKeys(r)
    ensures forall x :: x in Keys(r) <==> x in Keys(pairs)
  {
    if |pairs| == 0 then []
    else
      var init := pairs[..|pairs| - 1];
      assert Keys(pairs) == Keys(init) + [pairs[|pairs| - 1].0];
      Set(FromPairs(init), pairs[|pairs| - 1].0, pairs[|pairs| - 1].1)
  }

  /** The value of the last pair with key `k`. */
  function LastValue<K(==), V>(pairs: seq<(K, V)>, k: K): Option<V> {
    if |pairs| == 0 then None
    else if pairs[|pairs| - 1].0 == k then Some(pairs[|pairs| - 1].1)
    else LastValue(pairs[..|pairs| - 1], k)
  }

  lemma GetSet<K(!new), V>(m: Entries<K, V>, k: K, v: V, x: K)
    requires DistinctKeys(m)
    ensures Get(Set(m, k, v), x) == if x == k then Some(v) else Get(m, x)
  {
    var r := Set(m, k, v);
    if x == k {
      var i := if k in Keys(m) then IndexOfKey(m, k).value else |m|;
      assert r[i] == (k, v);
      GetDistinct(r, k, i);
    } else if x in Keys(m) {
      var i := IndexOfKey(m, x).value;
      assert r[i] == m[i];
      GetDistinct(r, x, i);
    }
  }

  /** With distinct keys, `get` finds the one entry holding the key. */
  lemma GetDistinct<K(!new), V>(m: Entries<K, V>, x: K, i: nat)
    requires DistinctKeys(m) && i < |m| && m[i].0 == x
    ensures Get(m, x) == Some(m[i].1)
  {
    assert Keys(m)[i] == x;
  }

  /** Last write wins: the value a key ends up with is the value of its last
      pair. */
  lemma {:induction false} FromPairsLastWins<K(!new), V>(pairs: seq<(K, V)>, k: K)
    ensures Get(FromPairs(pairs), k) == LastValue(pairs, k)
  {
    if |pairs| > 0 {
      var init := pairs[..|pairs| - 1];
      FromPairsLastWins(init, k);
      GetSet(FromPairs(init), pairs[|pairs| - 1].0, pairs[|pairs| - 1].1, k);
    }
  }

  /** Keys stay where they were first inserted: the key order is the order of
      first occurrence in the pairs. */
  lemma {:induction false} FromPairsKeyOrder<K(!new), V>(pairs: seq<(K, V)>)
    ensures Keys(FromPairs(pairs)) == Dedupe(Keys(pairs))
  {
    if |pairs| > 0 {
      var init := pairs[..|pairs| - 1];
      var (k, v) := pairs[|pairs| - 1];
      FromPairsKeyOrder(init);
      var ks := Keys(pairs);
      assert ks == Keys(init) + [k];
      assert ks[..|ks| - 1] == Keys(init) && ks[|ks| - 1] == k;
      SetKeys(FromPairs(init), k, v);
    }
  }

  /** `set` keeps the key order and appends a new key. */
  lemma SetKeys<K(!new), V>(m: Entries<K, V>, k: K, v: V)
    ensures Keys(Set(m, k, v)) == if k in Keys(m) then Keys(m) else Keys(m) + [k]
  {
    var r := Set(m, k, v);
    if k in Keys(m) {
      assert |r| == |m|;
      forall i | 0 <= i < |m|
        ensures r[i].0 == m[i].0
      {
        assert r[i] == m[i] || (r[i] == (k, v) && m[i].0 == k) by {
          var j := IndexOfKey(m, k).value;
          assert r == m[j := (k, v)];
        }
      }
    } else {
      assert r == m + [(k, v)];
    }
  }

  /** `Array.from(new Set(xs))`: the first occurrence of each element, in
      order. */
  function Dedupe<T(==,!new)>(xs: seq<T>): (r: seq<T>)
    ensures Distinct(r)
    ensures forall x :: x in r <==> x in xs
    ensures |r| <= |xs|
  {
    if |xs| == 0 then []
    else
      var init := Dedupe(xs[..|xs| - 1]);
      assert forall x :: x in xs <==> x in xs[..|xs| - 1] || x == xs[|xs| - 1];
      if xs[|xs| - 1] in init then init else init + [xs[|xs| - 1]]
  }

  /** `new Set(xs)` keeps first occurrences: the result is a subsequence of
      the input, and each of its elements occurs in the input before any
      occurrence of a later one. */
  lemma DedupeFirstOccurrence<T(!new)>(xs: seq<T>)
    ensures Subseq(Dedupe(xs), xs) && InFirstOrder(Dedupe(xs), xs)
  {
    DedupeSubseq(xs);
    DedupeOrdered(xs);
  }

  lemma {:induction false} DedupeSubseq<T(!new)>(xs: seq<T>)
    ensures Subseq(Dedupe(xs), xs)
  {
    if |xs| > 0 {
      var init := xs[..|xs| - 1];
      DedupeSubseq(init);
      var r0 := Dedupe(init);
      assert (r0 + [xs[|xs| - 1]])[..|r0|] == r0;
    }
  }

  /** The elements are in the order of their first occurrences in `xs`:
      an element is met before every occurrence of any later element. */
  predicate InFirstOrder<T(==)>(r: seq<T>, xs: seq<T>) {
    forall i, j, k :: 0 <= i < j < |r| && 0 <= k < |xs| && xs[k] == r[j] ==> r[i] in xs[..k]
  }

  lemma {:induction false} DedupeOrdered<T(!new)>(xs: seq<T>)
    ensures InFirstOrder(Dedupe(xs), xs)
  {
    if |xs| > 0 {
      var n := |xs| - 1;
      var init := xs[..n];
      var r0 := Dedupe(init);
      var r := Dedupe(xs);
      DedupeOrdered(init);
      assert r == r0 || r == r0 + [xs[n]];
      forall i, j, k | 0 <= i < j < |r| && 0 <= k < |xs| && xs[k] == r[j]
        ensures r[i] in xs[..k]
      {
        assert r[i] == r0[i] && r0[i] in init;
        if j < |r0| && k < n {
          assert r[j] == r0[j] && init[k] == xs[k];
          assert init[..k] == xs[..k];
        } else {
          assert k >= n;
          InPrefix(xs, n, k, r[i]);
        }
      }
    }
  }

  lemma InPrefix<T>(xs: seq<T>, n: nat, k: nat, y: T)
    requires n <= k <= |xs| && y in xs[..n]
    ensures y in xs[..k]
  {
    assert xs[..k][..n] == xs[..n];
  }

  lemma {:induction false} DedupeDistinct<T(!new)>(xs: seq<T>)
    requires Distinct(xs)
    ensures Dedupe(xs) == xs
  {
    if |xs| > 0 {
      DedupeDistinct(xs[..|xs| - 1]);
    }
  }

  lemma {:induction false} DistinctCount<T(!new)>(xs: seq<T>, x: T)
    requires Distinct(xs)
    ensures multiset(xs)[x] <= 1
  {
    if |xs| > 0 {
      var init := xs[..|xs| - 1];
      assert xs == init + [xs[|xs| - 1]];
      DistinctCount(init, x);
      if x == xs[|xs| - 1] {
        assert x !in init;
      }
    }
  }

  /** A permutation of a list of distinct elements has distinct elements. */
  lemma DistinctPermutation<T(!new)>(a: seq<T>, b: seq<T>)
    requires multiset(a) == multiset(b)
    requires Distinct(b)
    ensures Distinct(a)
  {
    forall i, j | 0 <= i < j < |a|
      ensures a[i] != a[j]
    {
      if a[i] == a[j] {
        assert a == a[..j] + a[j..];
        assert a[i] in multiset(a[..j]);
        assert a[j] in multiset(a[j..]);
        assert multiset(a)[a[i]] >= 2;
        DistinctCount(b, a[i]);
      }
    }
  }

  // ---------------------------------------------------------------------------
  // Indexing a list by a key of its elements

  /** `xs.map((x) => [key(x), x])`. */
  function PairsBy<K, V>(xs: seq<V>, key: V -> K): (r: seq<(K, V)>)
    ensures |r| == |xs|
    ensures forall i :: 0 <= i < |xs| ==> r[i] == (key(xs[i]), xs[i])
  {
    seq(|xs|, i requires 0 <= i < |xs| => (key(xs[i]), xs[i]))
  }

  /** The last element of `xs` whose key is `k`. */
  function LastBy<K(==), V>(xs: seq<V>, key: V -> K, k: K): (r: Option<V>)
    ensures r.Some? ==> r.value in xs && key(r.value) == k
    ensures r.None? <==> forall i :: 0 <= i < |xs| ==> key(xs[i]) != k
  {
    if |xs| == 0 then None
    else if key(xs[|xs| - 1]) == k then Some(xs[|xs| - 1])
    else
      var init := xs[..|xs| - 1];
      assert forall i :: 0 <= i < |init| ==> init[i] == xs[i];
      LastBy(init, key, k)
  }

  /** A later list overrides an earlier one for every key it has. */
  lemma {:induction false} LastByAppend<K(!new), V>(a: seq<V>, b: seq<V>, key: V -> K, k: K)
    ensures LastBy(a + b, key, k) == if LastBy(b, key, k).Some? then LastBy(b, key, k) else LastBy(a, key, k)
  {
    if |b| == 0 {
      assert a + b == a;
    } else {
      assert (a + b)[..|a + b| - 1] == a + b[..|b| - 1];
      LastByAppend(a, b[..|b| - 1], key, k);
    }
  }

  lemma {:induction false} LastValuePairsBy<K(!new), V>(xs: seq<V>, key: V -> K, k: K)
    ensures LastValue(PairsBy(xs, key), k) == LastBy(xs, key, k)
  {
    if |xs| > 0 {
      var init := xs[..|xs| - 1];
      assert PairsBy(init, key) == PairsBy(xs, key)[..|xs| - 1];
      LastValuePairsBy(init, key, k);
    }
  }

  /** Building a map from `xs` keyed by `key`: keys in order of first
      occurrence, each stored under its own key, each the last element with
      that key. */
  lemma IndexBy<K(!new), V>(xs: seq<V>, key: V -> K)
    ensures var m := FromPairs(PairsBy(xs, key));
      && Keys(m) == Dedupe(Keys(PairsBy(xs, key)))
      && forall i :: 0 <= i < |m| ==> key(m[i].1) == m[i].0 && LastBy(xs, key, m[i].0) == Some(m[i].1)
  {
    var m := FromPairs(PairsBy(xs, key));
    FromPairsKeyOrder(PairsBy(xs, key));
    forall i | 0 <= i < |m|
      ensures key(m[i].1) == m[i].0 && LastBy(xs, key, m[i].0) == Some(m[i].1)
    {
      FromPairsLastWins(PairsBy(xs, key), m[i].0);
      LastValuePairsBy(xs, key, m[i].0);
      assert IndexOfKey(m, m[i].0) == Some(i);
    }
  }
}

=== FILE: overview.dfy ===
/** The overview chips (src/app/components/OverviewWidgets.tsx): the monthly
    total of the positive prices and the number of items. */
module Overview {
  import opened Common
  import opened Data

  datatype Figures = Figures(total: real, count: nat)

  function Sum(xs: seq<real>): real {
    if |xs| == 0 then 0.0 else Sum(xs[..|xs| - 1]) + xs[|xs| - 1]
  }

  function Positive(): real -> bool {
    (n: real) => n > 0.0
  }

  /** `items.map((s) => s.pricePerMonthUsd || 0).filter((n) => n > 0)`. */
  function Prices(items: seq<Subscription>): (r: seq<real>)
    ensures forall i :: 0 <= i < |r| ==> r[i] > 0.0
  {
    Filter(seq(|items|, i requires 0 <= i < |items| => items[i].price), Positive())
  }

  /** The figures (lines 6-11). */
  function Summary(items: seq<Subscription>): (r: Figures)
    ensures r.count == |items|
    ensures r.total >= 0.0
  {
    PositiveSum(Prices(items));
    Figures(Sum(Prices(items)), |items|)
  }

  lemma {:induction false} PositiveSum(xs: seq<real>)
    requires forall i :: 0 <= i < |xs| ==> xs[i] > 0.0
    ensures Sum(xs) >= 0.0
  {
    if |xs| > 0 {
      PositiveSum(xs[..|xs| - 1]);
    }
  }

  /** What one item adds to the total. */
  function Share(s: Subscription): real {
    if s.price > 0.0 then s.price else 0.0
  }

  /** The total, item by item. */
  function ShareSum(items: seq<Subscription>): real {
    if |items| == 0 then 0.0 else ShareSum(items[..|items| - 1]) + Share(items[|items| - 1])
  }

  /** The total is the sum of the strictly positive prices: zero and negative
      prices add nothing. */
  lemma {:induction false} TotalIsShareSum(items: seq<Subscription>)
    ensures Summary(items).total == ShareSum(items)
  {
    if |items| > 0 {
      var init := items[..|items| - 1];
      TotalIsShareSum(init);
      var ps := seq(|items|, i requires 0 <= i < |items| => items[i].price);
      assert ps[..|ps| - 1] == seq(|init|, i requires 0 <= i < |init| => init[i].price);
      if items[|items| - 1].price > 0.0 {
        assert Prices(items) == Prices(init) + [items[|items| - 1].price];
        assert (Prices(init) + [items[|items| - 1].price])[..|Prices(init)|] == Prices(init);
      }
    }
  }

  lemma {:induction false} ShareSumAppend(a: seq<Subscription>, b: seq<Subscription>)
    ensures ShareSum(a + b) == ShareSum(a) + ShareSum(b)
    decreases |b|
  {
    if |b| == 0 {
      assert a + b == a;
    } else {
      assert (a + b)[..|a + b| - 1] == a + b[..|b| - 1];
      ShareSumAppend(a, b[..|b| - 1]);
    }
  }

  lemma {:induction false} ShareSumPermutation(a: seq<Subscription>, b: seq<Subscription>)
    requires multiset(a) == multiset(b)
    ensures ShareSum(a) == ShareSum(b)
    decreases |a|
  {
    if |a| > 0 {
      var x := a[|a| - 1];
      assert x in multiset(b);
      var j :| 0 <= j < |b| && b[j] == x;
      var rest := b[..j] + b[j + 1..];
      assert b == b[..j] + [x] + b[j + 1..];
      assert multiset(a[..|a| - 1]) == multiset(rest) by {
        assert a == a[..|a| - 1] + [x];
        assert multiset(a) == multiset(a[..|a| - 1]) + multiset{x};
        assert multiset(b) == multiset(b[..j] + [x] + b[j + 1..]);
        assert multiset(b) == multiset(b[..j]) + multiset{x} + multiset(b[j + 1..]);
        assert multiset(rest) == multiset(b[..j]) + multiset(b[j + 1..]);
        assert multiset(a[..|a| - 1]) == multiset(a) - multiset{x};
        assert multiset(rest) == multiset(b) - multiset{x};
      }
      ShareSumPermutation(a[..|a| - 1], rest);
      ShareSumAppend(b[..j] + [x], b[j + 1..]);
      ShareSumAppend(b[..j], [x]);
      ShareSumAppend(b[..j], b[j + 1..]);
      assert ShareSum([x]) == Share(x) by { assert [x][..0] == []; }
    }
  }

  /** Reordering the items changes neither the total nor the count. */
  lemma FiguresPermutation(a: seq<Subscription>, b: seq<Subscription>)
    requires multiset(a) == multiset(b)
    ensures Summary(a) == Summary(b)
  {
    TotalIsShareSum(a);
    TotalIsShareSum(b);
    ShareSumPermutation(a, b);
    assert |a| == |multiset(a)| == |multiset(b)| == |b|;
  }
}

=== FILE: prefs.dfy ===
/** Display preferences kept in `localStorage` (src/lib/prefs.ts). */
module Prefs {
  import opened Common
  import opened Json

  datatype SortOrder = ByName | ByPrice

  /** `Preferences`; `hiddenIds` is whatever array was stored (the source
      casts it to `string[]` without checking the elements). */
  datatype Preferences = Preferences(hiddenIds: seq<Value>, showSuggestions: bool, sort: SortOrder)

  const PrefsKey: string := "nomo.prefs.v1"

  const DefaultPrefs: Preferences := Preferences([], true, ByName)

  /** Lines 17-21: normalise whatever was parsed. */
  function Normalise(data: Value): (r: Preferences)
    ensures r.sort == ByPrice <==> Prop(data, "sort") == Str("price")
    ensures r.hiddenIds != [] ==> Prop(data, "hiddenIds").Arr?
    ensures Prop(data, "hiddenIds").Arr? ==> r.hiddenIds == Prop(data, "hiddenIds").items
    ensures !r.showSuggestions <==> Prop(data, "showSuggestions") == Bool(false)
    ensures Prop(data, "showSuggestions").Bool? ==> r.showSuggestions == Prop(data, "showSuggestions").b
  {
    var hidden := Prop(data, "hiddenIds");
    var show := Prop(data, "showSuggestions");
    Preferences(
      if hidden.Arr? then hidden.items else [],
      if show.Bool? then show.b else true,
      if Prop(data, "sort") == Str("price") then ByPrice else ByName)
  }

  /** `getPrefs()`. */
  function GetPrefs(store: Storage): (r: Preferences)
    ensures Parsed(store, PrefsKey).None? ==> r == DefaultPrefs
  {
    match Parsed(store, PrefsKey)
    case None => DefaultPrefs
    case Some(data) => Normalise(data)
  }

  /** The object `JSON.stringify(next)` serialises. */
  function ToValue(p: Preferences): Value {
    Obj(map[
      "hiddenIds" := Arr(p.hiddenIds),
      "showSuggestions" := Bool(p.showSuggestions),
      "sort" := Str(if p.sort == ByPrice then "price" else "name")])
  }

  /** `setPrefs(next)`. */
  function SetPrefs(store: Storage, p: Preferences): (r: Storage)
    ensures store.None? <==> r.None?
    ensures r.Some? ==> PrefsKey in r.value && r.value[PrefsKey].Text?
    ensures r.Some? ==> forall k :: k in store.value && k != PrefsKey ==> k in r.value && r.value[k] == store.value[k]
  {
    SetItem(store, PrefsKey, ToValue(p))
  }

  /** `prefsExists()`. */
  predicate PrefsExists(store: Storage) {
    store.Some? && PrefsKey in store.value
  }

  /** Preferences whose hidden ids are strings, as the type promises. */
  predicate WellFormed(p: Preferences) {
    forall i :: 0 <= i < |p.hiddenIds| ==> p.hiddenIds[i].Str?
  }

  /** Reading back what was written gives the same preferences. */
  lemma PrefsRoundTrip(store: Storage, p: Preferences)
    requires store.Some? && WellFormed(p)
    ensures GetPrefs(SetPrefs(store, p)) == p
  {
    var v := ToValue(p);
    assert IsJson(v);
    CleanFixesJson(v);
    assert Parsed(SetPrefs(store, p), PrefsKey) == Some(v);
  }

  /** The flag is set after any write in the browser, and never without a
      window. */
  lemma SetPrefsExists(store: Storage, p: Preferences)
    ensures PrefsExists(SetPrefs(store, p)) <==> store.Some?
  {
  }

  /** Without a window everything falls back to the defaults. */
  lemma NoWindowPrefs(p: Preferences)
    ensures GetPrefs(None) == DefaultPrefs && !PrefsExists(None) && SetPrefs(None, p) == None
  {
  }

  /** An item that does not parse, or parses to something without the
      fields, yields the defaults. */
  lemma GarbageGivesDefaults(store: Storage)
    requires store.Some? && PrefsKey in store.value
    requires store.value[PrefsKey] == Unparsable || store.value[PrefsKey] == Text(Null)
    ensures GetPrefs(store) == DefaultPrefs
  {
  }
}

=== FILE: reconciler.dfy ===
/** The subscription list (src/app/components/SubscriptionList.tsx): how the
    base list and the user's custom entries are merged, filtered into the
    active and canceled views and sorted, and how the list's handlers change
    its state.  The handlers' persistence calls are modelled by the store
    modules, not chained here. */
module Reconciler {
  import opened Common
  import opened Data
  import Slugs
  import Scan
  import Directory
  import Prefs
  import opened OrderedMaps
  import opened Sorting

  // ---------------------------------------------------------------------------
  // Keys

  /** `s.id || s.name`. */
  function KeyText(s: Subscription): string {
    if s.id != "" then s.id else s.name
  }

  /** `normalizeKey` (lines 133-135): trim, lower-case, and turn each run of
      characters outside `[a-z0-9]` into one `-`; edge hyphens stay. */
  function NormalizeKey(s: Subscription): (r: string)
    ensures Slugs.Hyphenated(r)
    ensures |r| <= |KeyText(s)|
    ensures r == "" <==> Trim(KeyText(s)) == ""
    ensures var t := Trim(KeyText(s)); |t| > 0 ==>
      && (r[0] == '-' <==> !IsAlnum(t[0]))
      && (r[|r| - 1] == '-' <==> !IsAlnum(t[|t| - 1]))
  {
    var t := Trim(KeyText(s));
    var l := Lower(t);
    if |t| > 0 then
      Slugs.LowerSlugChar(t[0]);
      Slugs.LowerSlugChar(t[|t| - 1]);
      assert l[0] == LowerChar(t[0]) && l[|l| - 1] == LowerChar(t[|t| - 1]);
      Slugs.Hyphenate(l)
    else Slugs.Hyphenate(l)
  }

  /** With the hyphens at its edges stripped, the key is the directory slug
      of the same text: the two normalisations differ only at the edges,
      which the ensures of `NormalizeKey` fix. */
  lemma NormalizeKeyStripsToSlug(s: Subscription)
    ensures Slugs.StripHyphens(NormalizeKey(s)) == Slugs.Slug(KeyText(s))
  {
    var t := Trim(KeyText(s));
    var lead, trail := TrimParts(KeyText(s));
    SpacesNoAlnum(lead);
    SpacesNoAlnum(trail);
    AppendAssoc(lead, t, trail);
    Slugs.SlugPadLeft(lead, t + trail);
    Slugs.SlugPadRight(t, trail);
  }

  lemma SpacesNoAlnum(w: string)
    requires forall i :: 0 <= i < |w| ==> IsSpace(w[i])
    ensures Slugs.NoAlnum(w)
  {
  }

  lemma TrimSpaceless(s: string)
    requires forall i :: 0 <= i < |s| ==> !IsSpace(s[i])
    ensures Trim(s) == s
  {
  }

  /** An id that is already lower-case hyphenated text is its own key. */
  lemma NormalizeKeyFixesHyphenated(s: Subscription)
    requires s.id != "" && Slugs.Hyphenated(s.id)
    ensures NormalizeKey(s) == s.id
  {
    TrimSpaceless(s.id);
    Slugs.LowerFixesSlugText(s.id);
    Slugs.HyphenateFixesHyphenated(s.id);
  }

  /** Unlike the directory slug, the key keeps a hyphen at either edge. */
  lemma NormalizeKeyKeepsEdgeHyphens(s: Subscription)
    requires s.id != "" && Slugs.Hyphenated(s.id)
    requires s.id[0] == '-' || s.id[|s.id| - 1] == '-'
    ensures NormalizeKey(s) == s.id
    ensures NormalizeKey(s) != Slugs.Slug(s.id)
  {
    NormalizeKeyFixesHyphenated(s);
  }

  // ---------------------------------------------------------------------------
  // Merging and views

  function IdOf(s: Subscription): string { s.id }

  function Ids(xs: seq<Subscription>): (r: seq<string>)
    ensures |r| == |xs|
    ensures forall i :: 0 <= i < |xs| ==> r[i] == xs[i].id
  {
    seq(|xs|, i requires 0 <= i < |xs| => xs[i].id)
  }

  /** `mergeByName` (lines 137-142): a `Map` keyed by id, base entries first,
      then custom entries; a later entry replaces an earlier one with the
      same id but keeps its position. */
  function MergeByName(base: seq<Subscription>, custom: seq<Subscription>): (r: seq<Subscription>)
    ensures Ids(r) == Dedupe(Ids(base + custom))
    ensures forall s :: s in r ==> LastBy(base + custom, IdOf, s.id) == Some(s)
  {
    var all := base + custom;
    IndexBy(all, IdOf);
    var m := FromPairs(PairsBy(all, IdOf));
    assert Keys(PairsBy(all, IdOf)) == Ids(all);
    var r := Values(m);
    assert Ids(r) == Keys(m);
    r
  }

  /** Merged ids are unique and cover every base and custom id; on a
      collision the (last) custom entry wins, otherwise the last base entry
      does. */
  lemma MergeByNameContents(base: seq<Subscription>, custom: seq<Subscription>)
    ensures var r := MergeByName(base, custom);
      && Distinct(Ids(r))
      && (forall id :: id in Ids(r) <==> id in Ids(base) || id in Ids(custom))
      && (forall s :: s in r && s.id in Ids(custom) ==> LastBy(custom, IdOf, s.id) == Some(s))
      && (forall s :: s in r && s.id !in Ids(custom) ==> LastBy(base, IdOf, s.id) == Some(s))
  {
    var r := MergeByName(base, custom);
    assert Ids(base + custom) == Ids(base) + Ids(custom);
    forall s | s in r
      ensures s.id in Ids(custom) ==> LastBy(custom, IdOf, s.id) == Some(s)
      ensures s.id !in Ids(custom) ==> LastBy(base, IdOf, s.id) == Some(s)
    {
      LastByAppend(base, custom, IdOf, s.id);
      if s.id in Ids(custom) {
        var i :| 0 <= i < |custom| && Ids(custom)[i] == s.id;
        assert IdOf(custom[i]) == s.id;
      } else {
        assert forall i :: 0 <= i < |custom| ==> IdOf(custom[i]) != s.id;
      }
    }
  }

  function NotListed(ids: seq<string>): Subscription -> bool {
    (s: Subscription) => s.id !in ids
  }

  function Listed(ids: seq<string>): Subscription -> bool {
    (s: Subscription) => s.id in ids
  }

  /** The active view (lines 147-149, 259-261): drop canceled, then removed
      ids. */
  function ActiveView(merged: seq<Subscription>, canceled: seq<string>, removed: seq<string>): (r: seq<Subscription>)
    ensures forall s :: s in r <==> s in merged && s.id !in canceled && s.id !in removed
  {
    Filter(Filter(merged, NotListed(canceled)), NotListed(removed))
  }

  /** The order of the two filters does not matter. */
  lemma ActiveViewOrderFree(merged: seq<Subscription>, canceled: seq<string>, removed: seq<string>)
    ensures Filter(Filter(merged, NotListed(removed)), NotListed(canceled)) == ActiveView(merged, canceled, removed)
  {
    FilterCommutes(merged, NotListed(canceled), NotListed(removed));
  }

  /** The canceled view (line 486): not filtered by the removed ids. */
  function CanceledView(merged: seq<Subscription>, canceled: seq<string>): (r: seq<Subscription>)
    ensures forall s :: s in r <==> s in merged && s.id in canceled
  {
    Filter(merged, Listed(canceled))
  }

  /** Every merged entry is active, canceled, or hidden. */
  lemma EveryEntryShown(merged: seq<Subscription>, canceled: seq<string>, removed: seq<string>, s: Subscription)
    requires s in merged
    ensures s in ActiveView(merged, canceled, removed) || s in CanceledView(merged, canceled) || s.id in removed
  {
  }

  // ---------------------------------------------------------------------------
  // Sorting (lines 223-228)

  /** `(a.pricePerMonthUsd ?? 0) - (b.pricePerMonthUsd ?? 0) <= 0`. */
  function PriceLe(): (Subscription, Subscription) -> bool {
    (a: Subscription, b: Subscription) => a.price <= b.price
  }

  /** `a.name.localeCompare(b.name) <= 0` under the locale order `nameLe`. */
  function NameOrder(nameLe: (string, string) -> bool): (Subscription, Subscription) -> bool {
    (a: Subscription, b: Subscription) => nameLe(a.name, b.name)
  }

  lemma PriceLeTotal()
    ensures TotalPreorder(PriceLe())
  {
  }

  lemma NameOrderPreorder(nameLe: (string, string) -> bool)
    ensures TotalPreorder(nameLe) ==> TotalPreorder(NameOrder(nameLe))
  {
    if TotalPreorder(nameLe) {
      var le := NameOrder(nameLe);
      forall a: Subscription, b: Subscription
        ensures le(a, b) || le(b, a)
      {
        assert nameLe(a.name, b.name) || nameLe(b.name, a.name);
      }
      forall a: Subscription, b: Subscription, c: Subscription | le(a, b) && le(b, c)
        ensures le(a, c)
      {
        assert nameLe(a.name, b.name) && nameLe(b.name, c.name);
      }
    }
  }

  /** `sortItems`: a permutation, by non-decreasing price for `'price'` and by
      name otherwise. */
  function SortItems(list: seq<Subscription>, order: Prefs.SortOrder, nameLe: (string, string) -> bool): (r: seq<Subscription>)
    ensures multiset(r) == multiset(list)
    ensures order == Prefs.ByPrice ==> SortedBy(r, PriceLe())
    ensures order == Prefs.ByName && TotalPreorder(nameLe) ==> SortedBy(r, NameOrder(nameLe))
  {
    PriceLeTotal();
    NameOrderPreorder(nameLe);
    if order == Prefs.ByPrice then Sort(list, PriceLe()) else Sort(list, NameOrder(nameLe))
  }

  // ---------------------------------------------------------------------------
  // State and transitions

  /** The component state the handlers change. */
  datatype ListState = ListState(
    customItems: seq<Subscription>,
    canceledIds: seq<string>,
    removedIds: seq<string>,
    detectedIds: seq<string>,
    monthlySavings: real,
    pendingNewId: Option<string>,
    editTarget: Option<Subscription>,
    sort: Prefs.SortOrder)

  /** The state on mount (lines 41-54). */
  const Initial: ListState := ListState([], [], [], [], 0.0, None, None, Prefs.ByName)

  /** The rendered list (lines 259-261): sort the merged list, then drop
      canceled and removed ids. */
  function VisibleList(items: seq<Subscription>, st: ListState, nameLe: (string, string) -> bool): (r: seq<Subscription>)
    ensures forall s :: s in r <==> s in ActiveView(MergeByName(items, st.customItems), st.canceledIds, st.removedIds)
    ensures st.sort == Prefs.ByPrice ==> SortedBy(r, PriceLe())
    ensures st.sort == Prefs.ByName && TotalPreorder(nameLe) ==> SortedBy(r, NameOrder(nameLe))
  {
    var merged := MergeByName(items, st.customItems);
    var sorted := SortItems(merged, st.sort, nameLe);
    var le := if st.sort == Prefs.ByPrice then PriceLe() else NameOrder(nameLe);
    FilteredView(sorted, merged, st.canceledIds, st.removedIds, le);
    Filter(Filter(sorted, NotListed(st.canceledIds)), NotListed(st.removedIds))
  }

  /** Filtering a sorted permutation of the merged list gives the active
      view's entries, still sorted. */
  lemma FilteredView(sorted: seq<Subscription>, merged: seq<Subscription>, canceled: seq<string>, removed: seq<string>,
                     le: (Subscription, Subscription) -> bool)
    requires multiset(sorted) == multiset(merged)
    ensures var r := Filter(Filter(sorted, NotListed(canceled)), NotListed(removed));
      && (forall s :: s in r <==> s in ActiveView(merged, canceled, removed))
      && (SortedBy(sorted, le) ==> SortedBy(r, le))
  {
    var once := Filter(sorted, NotListed(canceled));
    assert forall s :: s in sorted <==> s in merged by {
      forall s ensures s in sorted <==> s in merged {
        assert s in sorted <==> s in multiset(sorted);
        assert s in merged <==> s in multiset(merged);
      }
    }
    if SortedBy(sorted, le) {
      FilterKeepsSorted(sorted, NotListed(canceled), le);
      FilterKeepsSorted(once, NotListed(removed), le);
    }
  }

  /** "Yes, I Canceled It" (lines 444-458): record the id once and add the
      price to the savings, even when the id was already canceled. */
  function ConfirmCancel(st: ListState, sub: Subscription): (r: ListState)
    ensures sub.id in r.canceledIds
    ensures forall x :: x in r.canceledIds <==> x in st.canceledIds || x == sub.id
    ensures Distinct(st.canceledIds) ==> Distinct(r.canceledIds)
    ensures sub.id in st.canceledIds ==> r.canceledIds == st.canceledIds
    ensures r.monthlySavings == st.monthlySavings + sub.price
    ensures r == st.(canceledIds := r.canceledIds, monthlySavings := r.monthlySavings)
  {
    st.(canceledIds := if sub.id in st.canceledIds then st.canceledIds else st.canceledIds + [sub.id],
        monthlySavings := st.monthlySavings + sub.price)
  }

  /** "Restore" (lines 501-508): drop the id; the savings stay. */
  function Restore(st: ListState, id: string): (r: ListState)
    ensures id !in r.canceledIds
    ensures forall x :: x in r.canceledIds <==> x in st.canceledIds && x != id
    ensures r == st.(canceledIds := r.canceledIds)
  {
    st.(canceledIds := Without(st.canceledIds, id))
  }

  /** Restoring a freshly canceled entry gives back the canceled ids, but
      not the savings. */
  lemma CancelThenRestore(st: ListState, sub: Subscription)
    requires sub.id !in st.canceledIds
    ensures var r := Restore(ConfirmCancel(st, sub), sub.id);
      r.canceledIds == st.canceledIds && r.monthlySavings == st.monthlySavings + sub.price
  {
    WithoutAppended(st.canceledIds, sub.id);
  }

  function NotSameKey(sub: Subscription): Subscription -> bool {
    (x: Subscription) => NormalizeKey(x) != NormalizeKey(sub)
  }

  /** "No, Just Hide It" (lines 459-476). */
  function Hide(st: ListState, sub: Subscription): (r: ListState)
    ensures sub.id in r.removedIds && Distinct(r.removedIds)
    ensures forall x :: x in r.removedIds <==> x in st.removedIds || x == sub.id
    ensures forall c :: c in r.customItems <==> c in st.customItems && NormalizeKey(c) != NormalizeKey(sub)
    ensures sub.id !in r.detectedIds
    ensures forall x :: x in r.detectedIds <==> x in st.detectedIds && x != sub.id
    ensures r == st.(customItems := r.customItems, removedIds := r.removedIds, detectedIds := r.detectedIds)
  {
    st.(customItems := Filter(st.customItems, NotSameKey(sub)),
        removedIds := Dedupe(st.removedIds + [sub.id]),
        detectedIds := Without(st.detectedIds, sub.id))
  }

  /** "Unhide" (line 317): drop only that id. */
  function Unhide(st: ListState, id: string): (r: ListState)
    ensures id !in r.removedIds
    ensures forall x :: x in r.removedIds <==> x in st.removedIds && x != id
    ensures r == st.(removedIds := r.removedIds)
  {
    st.(removedIds := Without(st.removedIds, id))
  }

  /** Unhiding a freshly hidden id gives back the removed ids. */
  lemma HideThenUnhide(st: ListState, sub: Subscription)
    requires Distinct(st.removedIds) && sub.id !in st.removedIds
    ensures Unhide(Hide(st, sub), sub.id).removedIds == st.removedIds
  {
    var ext := st.removedIds + [sub.id];
    assert Distinct(ext);
    DedupeDistinct(ext);
    WithoutAppended(st.removedIds, sub.id);
  }

  /** The new custom entry a directory pick creates (lines 535-536). */
  function PickedItem(opt: Directory.DirOption): (r: Subscription)
    ensures r.price == 0.0 && r.name == opt.name
    ensures r.cancelUrl != ""
  {
    Basic(Lower(if opt.id != "" then opt.id else opt.name), opt.name, 0.0,
          if opt.cancelUrl != "" then opt.cancelUrl else "#")
  }

  predicate HasKey(list: seq<Subscription>, key: string) {
    exists p :: p in list && NormalizeKey(p) == key
  }

  /** Line 533: the picked id is appended unless it is already detected. */
  function AddOnce(ids: seq<string>, id: string): (r: seq<string>)
    ensures forall x :: x in r <==> x in ids || x == id
    ensures Distinct(ids) ==> Distinct(r)
    ensures id in ids ==> r == ids
  {
    if id in ids then ids else ids + [id]
  }

  /** Picking a directory entry (lines 532-557). */
  function Select(st: ListState, opt: Directory.DirOption): (r: ListState)
    ensures opt.id in r.detectedIds
    ensures forall x :: x in r.detectedIds <==> x in st.detectedIds || x == opt.id
    ensures Distinct(st.detectedIds) ==> Distinct(r.detectedIds)
    ensures opt.id in st.detectedIds ==> r.detectedIds == st.detectedIds
    ensures r.editTarget == Some(PickedItem(opt)) && r.pendingNewId == Some(PickedItem(opt).id)
    ensures HasKey(r.customItems, NormalizeKey(PickedItem(opt)))
    ensures HasKey(st.customItems, NormalizeKey(PickedItem(opt))) ==> r.customItems == st.customItems
    ensures !HasKey(st.customItems, NormalizeKey(PickedItem(opt))) ==> r.customItems == st.customItems + [PickedItem(opt)]
    ensures forall x :: x in r.removedIds <==> x in st.removedIds && x != PickedItem(opt).id
    ensures r == st.(detectedIds := r.detectedIds, customItems := r.customItems, removedIds := r.removedIds,
                     editTarget := r.editTarget, pendingNewId := r.pendingNewId)
  {
    var item := PickedItem(opt);
    st.(detectedIds := AddOnce(st.detectedIds, opt.id),
        customItems := if HasKey(st.customItems, NormalizeKey(item)) then st.customItems else st.customItems + [item],
        removedIds := Without(st.removedIds, item.id),
        editTarget := Some(item),
        pendingNewId := Some(item.id))
  }

  function NotId(id: string): Subscription -> bool {
    (x: Subscription) => x.id != id
  }

  /** `!!pendingNewId`: a pending id that is present and not empty. */
  predicate HasPending(st: ListState) {
    st.pendingNewId.Some? && st.pendingNewId.value != ""
  }

  /** Discarding a pick without a price (lines 591-595): a missing or empty
      pending id is falsy and changes nothing. */
  function Discard(st: ListState): (r: ListState)
    ensures !HasPending(st) ==> r == st
    ensures HasPending(st) ==>
      && (forall c :: c in r.customItems <==> c in st.customItems && c.id != st.pendingNewId.value)
      && r == st.(customItems := r.customItems, pendingNewId := None)
  {
    match st.pendingNewId
    case None => st
    case Some(id) =>
      if id == "" then st
      else st.(customItems := Filter(st.customItems, NotId(id)), pendingNewId := None)
  }

  /** When no custom entry holds the picked id, discarding the pick restores
      the custom list, whether or not the pick added an entry.  A pick whose
      id and name are both empty leaves an empty pending id, and discarding
      then changes nothing. */
  lemma SelectThenDiscard(st: ListState, opt: Directory.DirOption)
    requires forall c :: c in st.customItems ==> c.id != PickedItem(opt).id
    ensures PickedItem(opt).id != "" ==> Discard(Select(st, opt)).customItems == st.customItems
    ensures PickedItem(opt).id == "" ==> Discard(Select(st, opt)) == Select(st, opt)
  {
    if PickedItem(opt).id != "" {
      DiscardPending(Select(st, opt), st.customItems, PickedItem(opt));
    }
  }

  /** Discarding a pending entry whose id nothing else holds leaves the list
      as it was before the entry was (or was not) appended. */
  lemma DiscardPending(picked: ListState, xs: seq<Subscription>, item: Subscription)
    requires picked.pendingNewId == Some(item.id) && item.id != ""
    requires picked.customItems == xs || picked.customItems == xs + [item]
    requires forall c :: c in xs ==> c.id != item.id
    ensures Discard(picked).customItems == xs
  {
    if picked.customItems == xs {
      FilterAll(xs, NotId(item.id));
    } else {
      DropAppended(xs, item);
    }
  }

  /** Filtering out an id held only by the appended entry removes just it. */
  lemma DropAppended(xs: seq<Subscription>, item: Subscription)
    requires forall c :: c in xs ==> c.id != item.id
    ensures Filter(xs + [item], NotId(item.id)) == xs
  {
    FilterAppend(xs, [item], NotId(item.id));
    assert Filter([item], NotId(item.id)) == [];
    FilterAll(xs, NotId(item.id));
  }

  /** Closing the price editor (line 596). */
  function CloseEdit(st: ListState): (r: ListState)
    ensures r.editTarget.None? && r.pendingNewId.None?
    ensures r == st.(editTarget := None, pendingNewId := None)
  {
    st.(editTarget := None, pendingNewId := None)
  }

  /** `{ ...x, pricePerMonthUsd: price, cadence, nextChargeAt }`. */
  function Repriced(x: Subscription, price: real, cadence: Cadence, nextChargeAt: Option<string>): Subscription {
    x.(price := price, cadence := Some(cadence), nextChargeAt := nextChargeAt)
  }

  /** Saving the price editor (lines 597-607). */
  function EditSave(st: ListState, price: real, cadence: Cadence, nextChargeAt: Option<string>): (r: ListState)
    ensures st.editTarget.None? ==> r == st
    ensures |r.customItems| == |st.customItems|
    ensures forall i :: 0 <= i < |st.customItems| ==>
      var (prior, saved) := (st.customItems[i], r.customItems[i]);
      saved.id == prior.id && saved.name == prior.name && saved.cancelUrl == prior.cancelUrl
      && saved.websiteUrl == prior.websiteUrl && saved.renewsInDays == prior.renewsInDays
    ensures st.editTarget.Some? ==> forall i :: 0 <= i < |st.customItems| ==>
      if st.customItems[i].id == st.editTarget.value.id
      then r.customItems[i].price == price && r.customItems[i].cadence == Some(cadence)
           && r.customItems[i].nextChargeAt == nextChargeAt
      else r.customItems[i] == st.customItems[i]
    ensures st.editTarget.Some? && (forall c :: c in st.customItems ==> c.id != st.editTarget.value.id) ==>
      r.customItems == st.customItems
    ensures st.editTarget.Some? ==> r == st.(customItems := r.customItems, pendingNewId := None)
  {
    match st.editTarget
    case None => st
    case Some(t) =>
      var items := seq(|st.customItems|, i requires 0 <= i < |st.customItems| =>
        if st.customItems[i].id == t.id then Repriced(st.customItems[i], price, cadence, nextChargeAt)
        else st.customItems[i]);
      assert (forall c :: c in st.customItems ==> c.id != t.id) ==> items == st.customItems;
      st.(customItems := items, pendingNewId := None)
  }

  /** Saving the same values twice is the same as saving them once. */
  lemma EditSaveIdempotent(st: ListState, price: real, cadence: Cadence, nextChargeAt: Option<string>)
    ensures EditSave(EditSave(st, price, cadence, nextChargeAt), price, cadence, nextChargeAt)
         == EditSave(st, price, cadence, nextChargeAt)
  {
    var once := EditSave(st, price, cadence, nextChargeAt);
    var twice := EditSave(once, price, cadence, nextChargeAt);
    if st.editTarget.Some? {
      assert twice.customItems == once.customItems;
    }
  }

  /** The manual tracker's save (lines 567-581): always append a fresh
      `custom-<time>` entry; `stamp` is the decimal text of `Date.now()`. */
  function TrackSave(st: ListState, stamp: string, name: string, price: real): (r: ListState)
    ensures |r.customItems| == |st.customItems| + 1 && r.customItems[..|st.customItems|] == st.customItems
    ensures var added := r.customItems[|st.customItems|];
      added.id == "custom-" + stamp && added.price == price && added.cancelUrl == "#"
      && added.name != "" && (Trim(name) != "" ==> added.name == Trim(name))
    ensures r == st.(customItems := r.customItems)
  {
    var finalName := if Trim(name) != "" then Trim(name) else "Custom service";
    st.(customItems := st.customItems + [Basic("custom-" + stamp, finalName, 0.0, "#").(price := price)])
  }

  /** "Reset All" (lines 404-414).  `confirmed` is the answer to
      `window.confirm`: declined, the handler returns at once.  `posted` says
      whether the awaited `fetch` resolved: a rejected `fetch` throws before
      any state is set.  Otherwise every list empties and the sort returns to
      name; the savings counter, the pending entry and the editor are kept. */
  function ResetAll(st: ListState, confirmed: bool, posted: bool): (r: ListState)
    ensures !(confirmed && posted) ==> r == st
    ensures confirmed && posted ==>
      && r.customItems == [] && r.canceledIds == [] && r.removedIds == [] && r.detectedIds == []
      && r.sort == Prefs.ByName
    ensures r.monthlySavings == st.monthlySavings
    ensures r.pendingNewId == st.pendingNewId && r.editTarget == st.editTarget
  {
    if !confirmed || !posted then st
    else st.(customItems := [], canceledIds := [], removedIds := [], detectedIds := [], sort := Prefs.ByName)
  }

  // ---------------------------------------------------------------------------
  // The built-in defaults against the key and the scanner

  /** Every default id is already its own normalised key. */
  lemma DefaultIdsNormalized()
    ensures forall i :: 0 <= i < |Defaults| ==> NormalizeKey(Defaults[i]) == Defaults[i].id
  {
    forall i | 0 <= i < |Defaults|
      ensures NormalizeKey(Defaults[i]) == Defaults[i].id
    {
      NormalizeKeyFixesHyphenated(Defaults[i]);
    }
  }

  /** Every default id is the id of a vendor the scanner can detect. */
  lemma DefaultIdsDetectable()
    ensures forall i :: 0 <= i < |Defaults| ==> exists j :: 0 <= j < |Scan.Vendors| && Scan.Vendors[j].id == Defaults[i].id
  {
    assert Scan.Vendors[1].id == Defaults[0].id;
    assert Scan.Vendors[2].id == Defaults[1].id;
    assert Scan.Vendors[3].id == Defaults[2].id;
  }
}

=== FILE: scan.dfy ===
/** The inbox scan route (src/app/api/scan/route.ts): collect at most 400
    message ids, fetch their metadata, and match every message against a
    fixed, ordered vendor table. */
module Scan {
  import opened Common

  /** A vendor and its pattern.  Every pattern of the source is a
      case-insensitive alternation of literals, so it is kept as the list of
      lower-case literals; the regular expression matches a text exactly when
      one literal occurs in the text, ASCII case ignored. */
  datatype Vendor = Vendor(id: string, name: string, literals: seq<string>)

  datatype Message = Message(from: string, subject: string, snippet: string, listId: string)

  datatype Detected = Detected(id: string, name: string)

  /** The vendor table of lines 56-64, in order.  `adobe( creative| cc)?`
      matches wherever `adobe` occurs, so its literal is just "adobe". */
  const Vendors: seq<Vendor> := [
    Vendor("amazon-prime", "Amazon Prime", ["amazon.com", "amazon prime", "prime video", "amazon digital"]),
    Vendor("netflix", "Netflix", ["netflix"]),
    Vendor("spotify", "Spotify", ["spotify"]),
    Vendor("adobe-cc", "Adobe Creative Cloud", ["adobe"]),
    Vendor("chatgpt", "ChatGPT", ["openai", "chatgpt"]),
    Vendor("youtube-premium", "YouTube Premium", ["youtube premium", "youtube music"]),
    Vendor("apple", "Apple", ["apple.com/bill", "apple receipt", "itunes", "app store"])
  ]

  /** Cap on the message ids examined (lines 38 and 42). */
  const MaxMessages: nat := 400

  predicate DistinctIds(table: seq<Vendor>) {
    forall i, j :: 0 <= i < j < |table| ==> table[i].id != table[j].id
  }

  /** `v.rx.test(text)`. */
  predicate MatchesText(v: Vendor, text: string) {
    exists lit :: lit in v.literals && Contains(Lower(text), lit)
  }

  /** Line 69: the pattern is tried on `from`, `subject`, `snippet`, `listId`. */
  predicate Matches(v: Vendor, m: Message) {
    MatchesText(v, m.from) || MatchesText(v, m.subject) || MatchesText(v, m.snippet) || MatchesText(v, m.listId)
  }

  function Entry(v: Vendor): Detected { Detected(v.id, v.name) }

  /** `found.find((f) => f.id === id)` is truthy. */
  predicate HasId(found: seq<Detected>, id: string) {
    exists k :: 0 <= k < |found| && found[k].id == id
  }

  /** The inner loop of lines 68-72 over the first `|table|` vendors. */
  function ScanMessage(found: seq<Detected>, m: Message, table: seq<Vendor>): (r: seq<Detected>)
    ensures found <= r && |r| <= |found| + |table|
  {
    if |table| == 0 then found
    else
      var f := ScanMessage(found, m, table[..|table| - 1]);
      var v := table[|table| - 1];
      if Matches(v, m) && !HasId(f, v.id) then f + [Entry(v)] else f
  }

  /** Lines 66-73: the outer loop over the batch, in order. */
  function Detect(batch: seq<Message>, table: seq<Vendor>): (r: seq<Detected>)
    ensures |r| <= |batch| * |table|
  {
    if |batch| == 0 then []
    else
      var init := Detect(batch[..|batch| - 1], table);
      assert |init| + |table| <= |batch| * |table| by {
        assert (|batch| - 1) * |table| + |table| == |batch| * |table|;
      }
      ScanMessage(init, batch[|batch| - 1], table)
  }

  // ---------------------------------------------------------------------------
  // A declarative reading of the detector

  /** The index of the earliest message that matches `v`. */
  function FirstMatch(batch: seq<Message>, v: Vendor): (r: Option<nat>)
    ensures r.Some? ==> r.value < |batch| && Matches(v, batch[r.value])
    ensures r.Some? ==> forall k :: 0 <= k < r.value ==> !Matches(v, batch[k])
    ensures r.None? <==> forall k :: 0 <= k < |batch| ==> !Matches(v, batch[k])
  {
    if |batch| == 0 then None
    else
      var init := batch[..|batch| - 1];
      assert forall k :: 0 <= k < |init| ==> init[k] == batch[k];
      match FirstMatch(init, v)
      case Some(k) => Some(k)
      case None => if Matches(v, batch[|batch| - 1]) then Some(|batch| - 1) else None
  }

  /** The vendors, in table order, that match `m` and have no entry in `found`
      yet. */
  function Fresh(found: seq<Detected>, m: Message, table: seq<Vendor>): seq<Detected> {
    if |table| == 0 then []
    else
      var v := table[|table| - 1];
      Fresh(found, m, table[..|table| - 1]) + (if Matches(v, m) && !HasId(found, v.id) then [Entry(v)] else [])
  }

  lemma {:induction false} FreshIds(found: seq<Detected>, m: Message, table: seq<Vendor>, id: string)
    requires DistinctIds(table)
    ensures HasId(Fresh(found, m, table), id) <==>
      exists i :: 0 <= i < |table| && table[i].id == id && Matches(table[i], m) && !HasId(found, id)
  {
    if |table| > 0 {
      var init := table[..|table| - 1];
      FreshIds(found, m, init, id);
      var v := table[|table| - 1];
      var tail: seq<Detected> := if Matches(v, m) && !HasId(found, v.id) then [Entry(v)] else [];
      var fr := Fresh(found, m, init);
      if HasId(fr + tail, id) {
        var k :| 0 <= k < |fr + tail| && (fr + tail)[k].id == id;
        if k < |fr| {
          assert fr[k].id == id;
        } else {
          assert Matches(table[|table| - 1], m) && table[|table| - 1].id == id;
        }
      }
      if exists i :: 0 <= i < |table| && table[i].id == id && Matches(table[i], m) && !HasId(found, id) {
        var i :| 0 <= i < |table| && table[i].id == id && Matches(table[i], m) && !HasId(found, id);
        if i < |init| {
          assert init[i] == table[i];
          var k :| 0 <= k < |fr| && fr[k].id == id;
          assert (fr + tail)[k].id == id;
        } else {
          assert (fr + tail)[|fr|].id == id;
        }
      }
    }
  }

  lemma HasIdAppend(a: seq<Detected>, b: seq<Detected>, id: string)
    ensures HasId(a + b, id) <==> HasId(a, id) || HasId(b, id)
  {
    if HasId(a + b, id) {
      var k :| 0 <= k < |a + b| && (a + b)[k].id == id;
      if k >= |a| {
        assert b[k - |a|].id == id;
      }
    }
    if HasId(b, id) {
      var k :| 0 <= k < |b| && b[k].id == id;
      assert (a + b)[k + |a|].id == id;
    }
    if HasId(a, id) {
      var k :| 0 <= k < |a| && a[k].id == id;
      assert (a + b)[k].id == id;
    }
  }

  /** The inner loop appends exactly the fresh vendors of the message. */
  lemma {:induction false} ScanMessageAppendsFresh(found: seq<Detected>, m: Message, table: seq<Vendor>)
    requires DistinctIds(table)
    ensures ScanMessage(found, m, table) == found + Fresh(found, m, table)
  {
    if |table| > 0 {
      var init := table[..|table| - 1];
      var v := table[|table| - 1];
      ScanMessageAppendsFresh(found, m, init);
      HasIdAppend(found, Fresh(found, m, init), v.id);
      FreshIds(found, m, init, v.id);
    }
  }

  /** Completeness: a vendor of the table has an entry iff one of the messages
      matches it. */
  lemma {:induction false} DetectComplete(batch: seq<Message>, table: seq<Vendor>, i: nat)
    requires DistinctIds(table) && i < |table|
    ensures HasId(Detect(batch, table), table[i].id) <==> FirstMatch(batch, table[i]).Some?
  {
    if |batch| > 0 {
      var init := batch[..|batch| - 1];
      var d := Detect(init, table);
      var m := batch[|batch| - 1];
      DetectComplete(init, table, i);
      ScanMessageAppendsFresh(d, m, table);
      HasIdAppend(d, Fresh(d, m, table), table[i].id);
      FreshIds(d, m, table, table[i].id);
      if HasId(Fresh(d, m, table), table[i].id) {
        var j :| 0 <= j < |table| && table[j].id == table[i].id && Matches(table[j], m) && !HasId(d, table[i].id);
        assert i == j;
      }
    }
  }

  /** Every entry is exactly an entry of the table. */
  lemma {:induction false} DetectFromTable(batch: seq<Message>, table: seq<Vendor>)
    requires DistinctIds(table)
    ensures forall d :: d in Detect(batch, table) ==> exists i :: 0 <= i < |table| && d == Entry(table[i])
  {
    if |batch| > 0 {
      var init := batch[..|batch| - 1];
      var d := Detect(init, table);
      DetectFromTable(init, table);
      ScanMessageAppendsFresh(d, batch[|batch| - 1], table);
      FreshFromTable(d, batch[|batch| - 1], table);
    }
  }

  lemma {:induction false} FreshFromTable(found: seq<Detected>, m: Message, table: seq<Vendor>)
    ensures forall d :: d in Fresh(found, m, table) ==> exists i :: 0 <= i < |table| && d == Entry(table[i])
  {
    if |table| > 0 {
      var init := table[..|table| - 1];
      FreshFromTable(found, m, init);
      forall d | d in Fresh(found, m, table)
        ensures exists i :: 0 <= i < |table| && d == Entry(table[i])
      {
        if d in Fresh(found, m, init) {
          var i :| 0 <= i < |init| && d == Entry(init[i]);
          assert d == Entry(table[i]);
        } else {
          assert d == Entry(table[|table| - 1]);
        }
      }
    }
  }

  predicate DistinctEntryIds(r: seq<Detected>) {
    forall p, q :: 0 <= p < q < |r| ==> r[p].id != r[q].id
  }

  lemma {:induction false} FreshDistinct(found: seq<Detected>, m: Message, table: seq<Vendor>)
    requires DistinctIds(table)
    ensures DistinctEntryIds(Fresh(found, m, table))
    ensures forall d :: d in Fresh(found, m, table) ==> !HasId(found, d.id)
  {
    if |table| > 0 {
      var init := table[..|table| - 1];
      var v := table[|table| - 1];
      FreshDistinct(found, m, init);
      FreshIds(found, m, init, v.id);
      var fr := Fresh(found, m, init);
      if Matches(v, m) && !HasId(found, v.id) {
        assert !HasId(fr, v.id);
      }
    }
  }

  /** Returned vendor ids are pairwise distinct. */
  lemma {:induction false} DetectDistinct(batch: seq<Message>, table: seq<Vendor>)
    requires DistinctIds(table)
    ensures DistinctEntryIds(Detect(batch, table))
  {
    if |batch| > 0 {
      var init := batch[..|batch| - 1];
      var d := Detect(init, table);
      var m := batch[|batch| - 1];
      DetectDistinct(init, table);
      ScanMessageAppendsFresh(d, m, table);
      FreshDistinct(d, m, table);
      var fr := Fresh(d, m, table);
      forall p, q | 0 <= p < q < |d + fr|
        ensures (d + fr)[p].id != (d + fr)[q].id
      {
        if p < |d| && q >= |d| {
          assert fr[q - |d|] in fr;
          assert d[p].id == (d + fr)[p].id;
        } else if p >= |d| {
          assert (d + fr)[p] == fr[p - |d|] && (d + fr)[q] == fr[q - |d|];
        }
      }
    }
  }

  /** A list with distinct ids, all of them ids of the table, is no longer
      than the table. */
  lemma {:induction false} DistinctWithinTable(r: seq<Detected>, table: seq<Vendor>)
    requires DistinctEntryIds(r)
    requires forall d :: d in r ==> exists i :: 0 <= i < |table| && d.id == table[i].id
    ensures |r| <= |table|
    decreases |r|
  {
    if |r| > 0 {
      var last := r[|r| - 1];
      assert last in r;
      var i :| 0 <= i < |table| && last.id == table[i].id;
      var rest := table[..i] + table[i + 1..];
      var init := r[..|r| - 1];
      forall d | d in init
        ensures exists j :: 0 <= j < |rest| && d.id == rest[j].id
      {
        var p :| 0 <= p < |init| && init[p] == d;
        assert r[p].id != last.id;
        var j :| 0 <= j < |table| && d.id == table[j].id;
        if j < i {
          assert rest[j] == table[j];
        } else {
          assert j != i;
          assert rest[j - 1] == table[j];
        }
      }
      DistinctWithinTable(init, rest);
    }
  }

  /** The vendor ids of the table are pairwise distinct. */
  lemma VendorIdsDistinct()
    ensures DistinctIds(Vendors)
  {
  }

  /** Every returned `{id, name}` is an entry of the vendor table, ids are
      distinct, and a vendor is returned iff some message matches it. */
  lemma {:induction false} DetectContents(batch: seq<Message>, table: seq<Vendor>)
    requires DistinctIds(table)
    ensures var r := Detect(batch, table);
      && DistinctEntryIds(r)
      && (forall d :: d in r ==> exists i :: 0 <= i < |table| && d == Entry(table[i]))
      && |r| <= |table|
      && (forall i :: 0 <= i < |table| ==>
            (Entry(table[i]) in r <==> exists k :: 0 <= k < |batch| && Matches(table[i], batch[k])))
  {
    var r := Detect(batch, table);
    DetectDistinct(batch, table);
    DetectFromTable(batch, table);
    DistinctWithinTable(r, table);
    forall i | 0 <= i < |table|
      ensures Entry(table[i]) in r <==> exists k :: 0 <= k < |batch| && Matches(table[i], batch[k])
    {
      DetectComplete(batch, table, i);
      if HasId(r, table[i].id) {
        var k :| 0 <= k < |r| && r[k].id == table[i].id;
        assert r[k] in r;
        var j :| 0 <= j < |table| && r[k] == Entry(table[j]);
        assert j == i;
      }
      if Entry(table[i]) in r {
        var k :| 0 <= k < |r| && r[k] == Entry(table[i]);
        assert HasId(r, table[i].id);
      }
    }
  }

  // ---------------------------------------------------------------------------
  // Order

  /** Table entry `i` is reported before table entry `j`: its first matching
      message is earlier, or it is the same message and `i` comes first in the
      table. */
  predicate Before(batch: seq<Message>, table: seq<Vendor>, i: nat, j: nat)
    requires i < |table| && j < |table|
  {
    var a, b := FirstMatch(batch, table[i]), FirstMatch(batch, table[j]);
    a.Some? && b.Some? && (a.value < b.value || (a.value == b.value && i < j))
  }

  /** The position in the table of a reported entry. */
  predicate At(r: seq<Detected>, p: int, table: seq<Vendor>, i: int) {
    0 <= p < |r| && 0 <= i < |table| && r[p] == Entry(table[i])
  }

  ghost predicate Ordered(r: seq<Detected>, batch: seq<Message>, table: seq<Vendor>) {
    forall p, q, i, j :: p < q && At(r, p, table, i) && At(r, q, table, j) ==> Before(batch, table, i, j)
  }

  lemma FirstMatchPrefix(batch: seq<Message>, v: Vendor)
    requires |batch| > 0
    ensures var init := batch[..|batch| - 1];
      FirstMatch(init, v).Some? ==> FirstMatch(batch, v) == FirstMatch(init, v)
  {
  }

  lemma {:induction false} FreshOrdered(found: seq<Detected>, m: Message, table: seq<Vendor>)
    requires DistinctIds(table)
    ensures forall p, q, i, j ::
      (p < q && At(Fresh(found, m, table), p, table, i) && At(Fresh(found, m, table), q, table, j)) ==> i < j
    ensures forall p, i :: At(Fresh(found, m, table), p, table, i) ==> Matches(table[i], m) && !HasId(found, table[i].id)
  {
    if |table| > 0 {
      var init := table[..|table| - 1];
      var fr := Fresh(found, m, init);
      var r := Fresh(found, m, table);
      var v := table[|table| - 1];
      FreshOrdered(found, m, init);
      FreshFromTable(found, m, init);
      assert r[..|fr|] == fr;
      forall p, i | At(r, p, table, i)
        ensures i < |init| ==> At(fr, p, init, i)
        ensures i == |init| ==> p == |fr| && Matches(v, m) && !HasId(found, v.id)
        ensures Matches(table[i], m) && !HasId(found, table[i].id)
      {
        if p < |fr| {
          assert r[p] == fr[p] && fr[p] in fr;
          var k :| 0 <= k < |init| && fr[p] == Entry(init[k]);
          assert table[k] == init[k];
          assert k == i;
          assert At(fr, p, init, i);
        } else {
          assert r[p] == Entry(v);
          assert table[i].id == table[|table| - 1].id;
          assert i == |init|;
        }
      }
    }
  }

  /** Vendors appear by earliest matching message and, within one message, in
      table order. */
  lemma {:induction false} DetectOrdered(batch: seq<Message>, table: seq<Vendor>)
    requires DistinctIds(table)
    ensures Ordered(Detect(batch, table), batch, table)
  {
    if |batch| > 0 {
      var init := batch[..|batch| - 1];
      var d := Detect(init, table);
      var m := batch[|batch| - 1];
      var n := |batch| - 1;
      DetectOrdered(init, table);
      ScanMessageAppendsFresh(d, m, table);
      FreshOrdered(d, m, table);
      DetectFromTable(init, table);
      var fr := Fresh(d, m, table);
      var r := d + fr;
      forall p, q, i, j | p < q && At(r, p, table, i) && At(r, q, table, j)
        ensures Before(batch, table, i, j)
      {
        FirstMatchPrefix(batch, table[i]);
        FirstMatchPrefix(batch, table[j]);
        if q < |d| {
          assert At(d, p, table, i) && At(d, q, table, j);
        } else if p < |d| {
          assert At(d, p, table, i) && At(fr, q - |d|, table, j);
          DetectComplete(init, table, i);
          DetectComplete(init, table, j);
          assert HasId(d, table[i].id);
          assert FirstMatch(init, table[i]).Some?;
          assert !HasId(d, table[j].id);
          assert FirstMatch(init, table[j]).None?;
          assert Matches(table[j], m);
          assert FirstMatch(batch, table[j]) == Some(n);
        } else {
          assert At(fr, p - |d|, table, i) && At(fr, q - |d|, table, j);
          DetectComplete(init, table, i);
          DetectComplete(init, table, j);
          assert FirstMatch(batch, table[i]) == Some(n);
          assert FirstMatch(batch, table[j]) == Some(n);
        }
      }
    }
  }

  // ---------------------------------------------------------------------------
  // Case-insensitivity

  /** Two messages whose fields agree up to ASCII case. */
  predicate SameUpToCase(m1: Message, m2: Message) {
    && Lower(m1.from) == Lower(m2.from) && Lower(m1.subject) == Lower(m2.subject)
    && Lower(m1.snippet) == Lower(m2.snippet) && Lower(m1.listId) == Lower(m2.listId)
  }

  lemma {:induction false} ScanMessageCaseBlind(found: seq<Detected>, m1: Message, m2: Message, table: seq<Vendor>)
    requires SameUpToCase(m1, m2)
    ensures ScanMessage(found, m1, table) == ScanMessage(found, m2, table)
  {
    if |table| > 0 {
      ScanMessageCaseBlind(found, m1, m2, table[..|table| - 1]);
      var v := table[|table| - 1];
      assert Matches(v, m1) == Matches(v, m2);
    }
  }

  /** Changing the case of any message field never changes the result. */
  lemma {:induction false} DetectCaseBlind(b1: seq<Message>, b2: seq<Message>, table: seq<Vendor>)
    requires |b1| == |b2|
    requires forall k :: 0 <= k < |b1| ==> SameUpToCase(b1[k], b2[k])
    ensures Detect(b1, table) == Detect(b2, table)
  {
    if |b1| > 0 {
      DetectCaseBlind(b1[..|b1| - 1], b2[..|b2| - 1], table);
      ScanMessageCaseBlind(Detect(b1[..|b1| - 1], table), b1[|b1| - 1], b2[|b2| - 1], table);
    }
  }

  // ---------------------------------------------------------------------------
  // Paging (lines 32-42)

  /** `m.id && ids.push(m.id)`: messages without an id are skipped. */
  function PresentIds(page: seq<string>): (r: seq<string>)
    ensures forall k :: 0 <= k < |r| ==> r[k] != ""
  {
    if |page| == 0 then []
    else (if page[0] == "" then [] else [page[0]]) + PresentIds(page[1..])
  }

  /** Every id the listing could deliver, page after page. */
  function AllIds(pages: seq<seq<string>>): seq<string> {
    if |pages| == 0 then [] else AllIds(pages[..|pages| - 1]) + PresentIds(pages[|pages| - 1])
  }

  /** The do-while loop from page `k` on: push the page's ids, stop once more
      than 400 are collected or no page follows. */
  function CollectFrom(pages: seq<seq<string>>, k: nat, acc: seq<string>): (r: seq<string>)
    requires k <= |pages|
    ensures acc <= r
    decreases |pages| - k
  {
    if k == |pages| then acc
    else
      var acc' := acc + PresentIds(pages[k]);
      if |acc'| > MaxMessages then acc' else CollectFrom(pages, k + 1, acc')
  }

  /** `ids.slice(0, 400)` after the loop.  `pages` are the listing's answers
      in order; a next-page token exists exactly while pages remain. */
  function MessageIds(pages: seq<seq<string>>): (r: seq<string>)
    ensures |r| <= MaxMessages
    ensures r == AllIds(pages)[..if |AllIds(pages)| < MaxMessages then |AllIds(pages)| else MaxMessages]
  {
    var ids := CollectFrom(pages, 0, []);
    assert pages[..0] == [];
    CollectFromPrefix(pages, 0, []);
    if |ids| < MaxMessages then ids else ids[..MaxMessages]
  }

  lemma {:induction false} AllIdsPrefix(pages: seq<seq<string>>, k: nat)
    requires k < |pages|
    ensures AllIds(pages[..k + 1]) == AllIds(pages[..k]) + PresentIds(pages[k])
  {
    assert pages[..k + 1][..k] == pages[..k];
  }

  lemma {:induction false} AllIdsGrow(pages: seq<seq<string>>, k: nat)
    requires k <= |pages|
    ensures AllIds(pages[..k]) <= AllIds(pages)
    decreases |pages| - k
  {
    if k < |pages| {
      AllIdsGrow(pages, k + 1);
      AllIdsPrefix(pages, k);
    } else {
      assert pages[..k] == pages;
    }
  }

  /** Stopping early loses nothing that the cap would keep: the collected ids
      are a prefix of all ids, and either all of them or more than 400. */
  lemma {:induction false} CollectFromPrefix(pages: seq<seq<string>>, k: nat, acc: seq<string>)
    requires k <= |pages|
    requires acc == AllIds(pages[..k])
    ensures var r := CollectFrom(pages, k, acc);
      r <= AllIds(pages) && (r == AllIds(pages) || |r| > MaxMessages)
    decreases |pages| - k
  {
    if k == |pages| {
      assert pages[..k] == pages;
    } else {
      AllIdsPrefix(pages, k);
      var acc' := acc + PresentIds(pages[k]);
      if |acc'| > MaxMessages {
        AllIdsGrow(pages, k + 1);
      } else {
        CollectFromPrefix(pages, k + 1, acc');
      }
    }
  }

  // ---------------------------------------------------------------------------
  // The route

  datatype GmailError = AuthError | OtherError

  datatype Session = Session(accessToken: Option<string>)

  datatype ScanResponse = Unauthorized401 | NoToken400 | Failed500 | Ok200(subscriptions: seq<Detected>)

  /** `Promise.all` over the capped ids: any failed fetch rejects the batch. */
  function FetchAll(ids: seq<string>, fetch: string -> Result<Message, GmailError>): (r: Result<seq<Message>, GmailError>)
    ensures r.Ok? ==> |r.value| == |ids| && forall k :: 0 <= k < |ids| ==> fetch(ids[k]) == Ok(r.value[k])
    ensures r.Err? <==> exists k :: 0 <= k < |ids| && fetch(ids[k]).Err?
  {
    if |ids| == 0 then Ok([])
    else
      match fetch(ids[0])
      case Err(e) => Err(e)
      case Ok(m) =>
        match FetchAll(ids[1..], fetch)
        case Err(e) => Err(e)
        case Ok(ms) => Ok([m] + ms)
  }

  /** `POST /api/scan`.  `session` is None when there is no session; `listing`
      is the sequence of list answers, or the error the listing threw;
      `stored` says whether persisting the detected list succeeded. */
  function ScanPost(session: Option<Session>, listing: Result<seq<seq<string>>, GmailError>,
                    fetch: string -> Result<Message, GmailError>, stored: bool): (r: ScanResponse)
    ensures session.None? <==> r == Unauthorized401
    ensures session.Some? && (session.value.accessToken.None? || session.value.accessToken == Some("")) <==> r == NoToken400
    ensures session.Some? && r != NoToken400 && listing.Err? ==> r == Failed500
    ensures session.Some? && r != NoToken400 && listing.Ok? && FetchAll(MessageIds(listing.value), fetch).Err? ==> r == Failed500
    ensures session.Some? && r != NoToken400 && !stored ==> r == Failed500
    ensures r.Ok200? ==>
      && stored && listing.Ok? && FetchAll(MessageIds(listing.value), fetch).Ok?
      && r.subscriptions == Detect(FetchAll(MessageIds(listing.value), fetch).value, Vendors)
    ensures (session.Some? && session.value.accessToken.Some? && session.value.accessToken.value != ""
      && listing.Ok? && stored && (forall id :: id in MessageIds(listing.value) ==> fetch(id).Ok?)) ==> r.Ok200?
  {
    match session
    case None => Unauthorized401
    case Some(s) =>
      if s.accessToken.None? || s.accessToken.value == "" then NoToken400
      else
        match listing
        case Err(_) => Failed500
        case Ok(pages) =>
          match FetchAll(MessageIds(pages), fetch)
          case Err(_) => Failed500
          case Ok(batch) => if stored then Ok200(Detect(batch, Vendors)) else Failed500
  }

  /** A successful scan reports a vendor of the table exactly when one of the
      messages fetched for the examined ids matches it. */
  lemma ScanPostReports(session: Option<Session>, listing: Result<seq<seq<string>>, GmailError>,
                        fetch: string -> Result<Message, GmailError>, stored: bool, i: nat)
    requires i < |Vendors|
    ensures var r := ScanPost(session, listing, fetch, stored);
      r.Ok200? ==>
        (HasId(r.subscriptions, Vendors[i].id) <==>
          exists k :: 0 <= k < |MessageIds(listing.value)| && fetch(MessageIds(listing.value)[k]).Ok?
            && Matches(Vendors[i], fetch(MessageIds(listing.value)[k]).value))
  {
    var r := ScanPost(session, listing, fetch, stored);
    if r.Ok200? {
      var ids := MessageIds(listing.value);
      var batch := FetchAll(ids, fetch).value;
      VendorIdsDistinct();
      DetectComplete(batch, Vendors, i);
      if FirstMatch(batch, Vendors[i]).Some? {
        var k := FirstMatch(batch, Vendors[i]).value;
        assert fetch(ids[k]) == Ok(batch[k]);
      }
      if exists k :: 0 <= k < |ids| && fetch(ids[k]).Ok? && Matches(Vendors[i], fetch(ids[k]).value) {
        var k :| 0 <= k < |ids| && fetch(ids[k]).Ok? && Matches(Vendors[i], fetch(ids[k]).value);
        assert fetch(ids[k]) == Ok(batch[k]);
      }
    }
  }
}

=== FILE: slugs.dfy ===
/** The two id-normalisations of the application.  Both lower-case the text and
    replace each maximal run of characters outside `[a-z0-9]` by one `-`
    (`replace(/[^a-z0-9]+/g, '-')`); the directory slug also strips the
    hyphens left at either edge (`replace(/^-+|-+$/g, '')`). */
module Slugs {
  import opened Common

  predicate IsSlugChar(c: char) { IsLower(c) || IsDigit(c) }

  /** Every character is in `[a-z0-9-]` and no two hyphens are adjacent. */
  predicate Hyphenated(s: string) {
    && (forall i :: 0 <= i < |s| ==> IsSlugChar(s[i]) || s[i] == '-')
    && (forall i :: 0 <= i < |s| - 1 ==> s[i] != '-' || s[i + 1] != '-')
  }

  /** A directory slug: hyphenated, and no hyphen at either edge. */
  predicate IsSlug(s: string) {
    Hyphenated(s) && (|s| > 0 ==> s[0] != '-' && s[|s| - 1] != '-')
  }

  /** `replace(/[^a-z0-9]+/g, '-')`: a slug character is kept; the first
      character of a run of other characters becomes `-`, the rest of the
      run disappears. */
  function Hyphenate(s: string): (r: string)
    ensures Hyphenated(r)
    ensures |r| <= |s|
    ensures |s| == 0 <==> |r| == 0
    ensures |s| > 0 ==> (r[|r| - 1] == '-' <==> !IsSlugChar(s[|s| - 1]))
    ensures |s| > 0 ==> (r[0] == '-' <==> !IsSlugChar(s[0]))
  {
    if |s| == 0 then ""
    else
      var p, c := s[..|s| - 1], s[|s| - 1];
      if IsSlugChar(c) then Hyphenate(p) + [c]
      else if |p| > 0 && !IsSlugChar(p[|p| - 1]) then Hyphenate(p)
      else Hyphenate(p) + ['-']
  }

  predicate AllHyphens(s: string) {
    forall i :: 0 <= i < |s| ==> s[i] == '-'
  }

  /** No character of `s` is in `[a-z0-9]`. */
  predicate NoSlugChar(s: string) {
    forall i :: 0 <= i < |s| ==> !IsSlugChar(s[i])
  }

  /** No character of `s` is an ASCII letter or digit. */
  predicate NoAlnum(s: string) {
    forall i :: 0 <= i < |s| ==> !IsAlnum(s[i])
  }

  function DropLeadingHyphens(s: string): (r: string)
    ensures |r| <= |s| && r == s[|s| - |r|..]
    ensures |r| > 0 ==> r[0] != '-'
  {
    if |s| > 0 && s[0] == '-' then DropLeadingHyphens(s[1..]) else s
  }

  function DropTrailingHyphens(s: string): (r: string)
    ensures |r| <= |s| && r == s[..|r|]
    ensures |r| > 0 ==> r[|r| - 1] != '-'
  {
    if |s| > 0 && s[|s| - 1] == '-' then DropTrailingHyphens(s[..|s| - 1]) else s
  }

  /** What `DropLeadingHyphens` drops is hyphens only. */
  lemma {:induction false} DropLeadingPart(s: string) returns (lead: string)
    ensures s == lead + DropLeadingHyphens(s) && AllHyphens(lead)
    decreases |s|
  {
    if |s| > 0 && s[0] == '-' {
      var l := DropLeadingPart(s[1..]);
      lead := "-" + l;
      assert s == "-" + s[1..];
      AppendAssoc("-", l, DropLeadingHyphens(s[1..]));
    } else {
      lead := "";
    }
  }

  /** What `DropTrailingHyphens` drops is hyphens only. */
  lemma {:induction false} DropTrailingPart(s: string) returns (trail: string)
    ensures s == DropTrailingHyphens(s) + trail && AllHyphens(trail)
    decreases |s|
  {
    if |s| > 0 && s[|s| - 1] == '-' {
      var p := s[..|s| - 1];
      var t := DropTrailingPart(p);
      trail := t + "-";
      assert s == p + "-";
      AppendAssoc(DropTrailingHyphens(p), t, "-");
    } else {
      trail := "";
    }
  }

  /** `replace(/^-+|-+$/g, '')`: the result is `s` with only hyphens removed
      around it, and it neither starts nor ends with a hyphen. */
  function StripHyphens(s: string): (r: string)
    ensures Hyphenated(s) ==> Hyphenated(r)
    ensures |r| > 0 ==> r[0] != '-' && r[|r| - 1] != '-'
    ensures exists lead, trail :: s == lead + r + trail && AllHyphens(lead) && AllHyphens(trail)
  {
    StripSlice(s, DropLeadingHyphens(s), DropTrailingHyphens(DropLeadingHyphens(s)));
    DropTrailingHyphens(DropLeadingHyphens(s))
  }

  /** The two drops leave the part of `s` between its edge hyphens. */
  lemma StripSlice(s: string, t: string, r: string)
    requires t == DropLeadingHyphens(s) && r == DropTrailingHyphens(t)
    ensures Hyphenated(s) ==> Hyphenated(r)
    ensures |r| > 0 ==> r[0] != '-' && r[|r| - 1] != '-'
    ensures exists lead, trail :: s == lead + r + trail && AllHyphens(lead) && AllHyphens(trail)
  {
    var lead := DropLeadingPart(s);
    var trail := DropTrailingPart(t);
    AppendAssoc(lead, r, trail);
    HyphenatedMiddle(lead, r, trail);
    if |r| > 0 {
      assert r[0] == t[0];
    }
  }

  lemma HyphenatedMiddle(a: string, b: string, c: string)
    ensures Hyphenated(a + b + c) ==> Hyphenated(b)
  {
    var s := a + b + c;
    if !Hyphenated(s) {
      return;
    }
    forall k | 0 <= k < |b|
      ensures IsSlugChar(b[k]) || b[k] == '-'
    {
      assert b[k] == s[|a| + k];
    }
    forall k | 0 <= k < |b| - 1
      ensures b[k] != '-' || b[k + 1] != '-'
    {
      assert b[k] == s[|a| + k] && b[k + 1] == s[|a| + k + 1];
    }
  }

  /** The directory id of a service name
      (src/app/api/directory/route.ts, line 19). */
  function Slug(name: string): (r: string)
    ensures IsSlug(r)
  {
    StripHyphens(Hyphenate(Lower(name)))
  }

  lemma {:induction false} HyphenateFixesHyphenated(s: string)
    requires Hyphenated(s)
    ensures Hyphenate(s) == s
    decreases |s|
  {
    if |s| > 0 {
      var p := s[..|s| - 1];
      assert Hyphenated(p);
      HyphenateFixesHyphenated(p);
    }
  }

  lemma LowerFixesSlugText(s: string)
    requires Hyphenated(s)
    ensures Lower(s) == s
  {
  }

  lemma {:induction false} StripFixesSlug(s: string)
    requires IsSlug(s)
    ensures StripHyphens(s) == s
  {
  }

  /** Slugging is idempotent: a slug is its own slug. */
  lemma SlugIdempotent(name: string)
    ensures Slug(Slug(name)) == Slug(name)
  {
    var s := Slug(name);
    LowerFixesSlugText(s);
    HyphenateFixesHyphenated(s);
    StripFixesSlug(s);
  }

  // ---------------------------------------------------------------------------
  // What the replacement does to the text

  /** A non-empty run of characters outside `[a-z0-9]` becomes one `-`. */
  lemma {:induction false} RunIsOneHyphen(w: string)
    requires |w| > 0 && NoSlugChar(w)
    ensures Hyphenate(w) == "-"
    decreases |w|
  {
    var p := w[..|w| - 1];
    if |p| > 0 {
      RunIsOneHyphen(p);
    }
  }

  /** A slug character is kept, and the text on either side of it is
      hyphenated on its own. */
  lemma {:induction false} SlugCharSplits(a: string, x: char, b: string)
    requires IsSlugChar(x)
    ensures Hyphenate(a + [x] + b) == Hyphenate(a) + [x] + Hyphenate(b)
    decreases |b|
  {
    if |b| == 0 {
      assert a + [x] + b == a + [x];
      SnocSlug(a, x);
    } else {
      var q, c := b[..|b| - 1], b[|b| - 1];
      var p := a + [x] + q;
      SlugCharSplits(a, x, q);
      assert b == q + [c];
      AppendAssoc(a + [x], q, [c]);
      var hx := Hyphenate(a) + [x];
      if IsSlugChar(c) {
        SnocSlug(p, c);
        SnocSlug(q, c);
        AppendAssoc(hx, Hyphenate(q), [c]);
      } else if |q| > 0 && !IsSlugChar(q[|q| - 1]) {
        assert p[|p| - 1] == q[|q| - 1];
        SnocRun(p, c);
        SnocRun(q, c);
      } else {
        assert p[|p| - 1] == if |q| > 0 then q[|q| - 1] else x;
        SnocNew(p, c);
        SnocNew(q, c);
        AppendAssoc(hx, Hyphenate(q), "-");
      }
    }
  }

  lemma HyphenateAfterSlug(a: string, b: string)
    requires |a| > 0 && IsSlugChar(a[|a| - 1])
    ensures Hyphenate(a + b) == Hyphenate(a) + Hyphenate(b)
  {
    var p, x := a[..|a| - 1], a[|a| - 1];
    assert a + b == p + [x] + b;
    assert a == p + [x] + [];
    SlugCharSplits(p, x, b);
    SlugCharSplits(p, x, []);
  }

  lemma HyphenateBeforeSlug(a: string, b: string)
    requires |b| > 0 && IsSlugChar(b[0])
    ensures Hyphenate(a + b) == Hyphenate(a) + Hyphenate(b)
  {
    var x, q := b[0], b[1..];
    assert b == [x] + q;
    AppendAssoc(a, [x], q);
    assert b == [] + [x] + q;
    SlugCharSplits(a, x, q);
    SlugCharSplits([], x, q);
  }

  /** A run of other characters in front of `t` puts one `-` in front of
      `t`'s hyphenation, merging with a hyphen already there. */
  lemma {:induction false} HyphenateRunBefore(p: string, t: string)
    requires |p| > 0 && NoSlugChar(p)
    ensures Hyphenate(p + t) == "-" + DropLeadingHyphens(Hyphenate(t))
    decreases |t|
  {
    if |t| == 0 {
      assert p + t == p;
      RunIsOneHyphen(p);
    } else {
      var q, c := t[..|t| - 1], t[|t| - 1];
      assert t == q + [c];
      assert p + t == (p + q) + [c];
      HyphenateRunBefore(p, q);
      RunBeforeStep(p, q, c);
    }
  }

  lemma RunBeforeStep(p: string, q: string, c: char)
    requires |p| > 0 && NoSlugChar(p)
    requires Hyphenate(p + q) == "-" + DropLeadingHyphens(Hyphenate(q))
    ensures Hyphenate((p + q) + [c]) == "-" + DropLeadingHyphens(Hyphenate(q + [c]))
  {
    if IsSlugChar(c) {
      RunBeforeSlug(p, q, c);
    } else if |q| == 0 {
      assert p + q == p && q + [c] == [c];
      RunBeforeFirst(p, c);
    } else if IsSlugChar(q[|q| - 1]) {
      RunBeforeNew(p, q, c);
    } else {
      RunBeforeRun(p, q, c);
    }
  }

  lemma RunBeforeSlug(p: string, q: string, c: char)
    requires IsSlugChar(c)
    requires Hyphenate(p + q) == "-" + DropLeadingHyphens(Hyphenate(q))
    ensures Hyphenate((p + q) + [c]) == "-" + DropLeadingHyphens(Hyphenate(q + [c]))
  {
    var d := DropLeadingHyphens(Hyphenate(q));
    SnocSlug(p + q, c);
    SnocSlug(q, c);
    DropLeadingAppend(Hyphenate(q), [c]);
    AppendAssoc("-", d, [c]);
  }

  lemma RunBeforeFirst(p: string, c: char)
    requires |p| > 0 && NoSlugChar(p) && !IsSlugChar(c)
    requires Hyphenate(p) == "-"
    ensures Hyphenate(p + [c]) == "-" + DropLeadingHyphens(Hyphenate([c]))
  {
    SnocRun(p, c);
    assert [c] == [] + [c];
    SnocNew([], c);
    assert "-"[1..] == "";
  }

  lemma RunBeforeNew(p: string, q: string, c: char)
    requires |q| > 0 && IsSlugChar(q[|q| - 1]) && !IsSlugChar(c)
    requires Hyphenate(p + q) == "-" + DropLeadingHyphens(Hyphenate(q))
    ensures Hyphenate((p + q) + [c]) == "-" + DropLeadingHyphens(Hyphenate(q + [c]))
  {
    var d := DropLeadingHyphens(Hyphenate(q));
    assert (p + q)[|p + q| - 1] == q[|q| - 1];
    SnocNew(p + q, c);
    SnocNew(q, c);
    DropLeadingAppend(Hyphenate(q), "-");
    AppendAssoc("-", d, "-");
  }

  lemma RunBeforeRun(p: string, q: string, c: char)
    requires |q| > 0 && !IsSlugChar(q[|q| - 1]) && !IsSlugChar(c)
    requires Hyphenate(p + q) == "-" + DropLeadingHyphens(Hyphenate(q))
    ensures Hyphenate((p + q) + [c]) == "-" + DropLeadingHyphens(Hyphenate(q + [c]))
  {
    assert (p + q)[|p + q| - 1] == q[|q| - 1];
    SnocRun(p + q, c);
    SnocRun(q, c);
  }

  /** Hyphenating one more character: a slug character is kept. */
  lemma SnocSlug(p: string, c: char)
    requires IsSlugChar(c)
    ensures Hyphenate(p + [c]) == Hyphenate(p) + [c]
  {
    var s := p + [c];
    assert s[..|s| - 1] == p;
  }

  /** Hyphenating one more character: a run already hyphenated absorbs it. */
  lemma SnocRun(p: string, c: char)
    requires !IsSlugChar(c) && |p| > 0 && !IsSlugChar(p[|p| - 1])
    ensures Hyphenate(p + [c]) == Hyphenate(p)
  {
    var s := p + [c];
    assert s[..|s| - 1] == p;
  }

  /** Hyphenating one more character: a new run starts with `-`. */
  lemma SnocNew(p: string, c: char)
    requires !IsSlugChar(c) && (|p| == 0 || IsSlugChar(p[|p| - 1]))
    ensures Hyphenate(p + [c]) == Hyphenate(p) + "-"
  {
    var s := p + [c];
    assert s[..|s| - 1] == p;
  }

  /** A run of other characters after `t` puts one `-` after `t`'s
      hyphenation, merging with a hyphen already there. */
  lemma {:induction false} HyphenateRunAfter(t: string, q: string)
    requires |q| > 0 && NoSlugChar(q)
    ensures Hyphenate(t + q) == DropTrailingHyphens(Hyphenate(t)) + "-"
    decreases |q|
  {
    var p, c := q[..|q| - 1], q[|q| - 1];
    assert q == p + [c];
    AppendAssoc(t, p, [c]);
    if |p| > 0 {
      HyphenateRunAfter(t, p);
      RunAfterStep(t, p, c);
    } else {
      assert t + p == t;
      RunAfterFirst(t, c);
    }
  }

  lemma RunAfterStep(t: string, p: string, c: char)
    requires |p| > 0 && NoSlugChar(p) && !IsSlugChar(c)
    ensures Hyphenate(t + p + [c]) == Hyphenate(t + p)
  {
    assert (t + p)[|t + p| - 1] == p[|p| - 1];
    SnocRun(t + p, c);
  }

  lemma RunAfterFirst(t: string, c: char)
    requires !IsSlugChar(c)
    ensures Hyphenate(t + [c]) == DropTrailingHyphens(Hyphenate(t)) + "-"
  {
    if |t| > 0 && !IsSlugChar(t[|t| - 1]) {
      SnocRun(t, c);
      HyphenatedEnd(Hyphenate(t));
    } else {
      SnocNew(t, c);
    }
  }

  /** Hyphenated text ending in `-` is its stripped end plus that one `-`. */
  lemma HyphenatedEnd(h: string)
    requires Hyphenated(h) && |h| > 0 && h[|h| - 1] == '-'
    ensures h == DropTrailingHyphens(h) + "-"
  {
    var g := h[..|h| - 1];
    assert DropTrailingHyphens(h) == DropTrailingHyphens(g);
    if |g| > 0 {
      var k := |h| - 2;
      assert 0 <= k < |h| - 1 && h[k + 1] == '-';
      assert h[k] != '-';
      assert g[|g| - 1] == h[k];
    }
    assert DropTrailingHyphens(g) == g;
    assert h == g + [h[|h| - 1]];
  }

  lemma {:induction false} DropLeadingAppend(x: string, z: string)
    requires (|x| > 0 && x[|x| - 1] != '-') || (|z| > 0 && z[0] != '-')
    ensures DropLeadingHyphens(x + z) == DropLeadingHyphens(x) + z
    decreases |x|
  {
    if |x| == 0 {
      assert x + z == z;
    } else if x[0] == '-' {
      assert (x + z)[1..] == x[1..] + z;
      DropLeadingAppend(x[1..], z);
    }
  }

  lemma {:induction false} DropTrailingPrepend(z: string, y: string)
    requires |y| > 0 && y[0] != '-'
    ensures DropTrailingHyphens(z + y) == z + DropTrailingHyphens(y)
    decreases |y|
  {
    if y[|y| - 1] == '-' {
      var p := y[..|y| - 1];
      assert y == p + "-";
      AppendAssoc(z, p, "-");
      DropTrailingPrepend(z, p);
      DropTrailingRun(z + p, "-");
      DropTrailingRun(p, "-");
    }
  }

  lemma {:induction false} DropTrailingRun(z: string, h: string)
    requires AllHyphens(h)
    ensures DropTrailingHyphens(z + h) == DropTrailingHyphens(z)
    decreases |h|
  {
    if |h| > 0 {
      var s := z + h;
      assert s[..|s| - 1] == z + h[..|h| - 1];
      DropTrailingRun(z, h[..|h| - 1]);
    } else {
      assert z + h == z;
    }
  }

  /** Stripping ignores one more hyphen in front of a stripped start. */
  lemma StripAfterHyphen(y: string)
    ensures StripHyphens("-" + DropLeadingHyphens(y)) == StripHyphens(y)
  {
    var d := DropLeadingHyphens(y);
    assert ("-" + d)[1..] == d;
    assert DropLeadingHyphens("-" + d) == DropLeadingHyphens(d);
    assert DropLeadingHyphens(d) == d;
  }

  /** Stripping ignores one more hyphen after a stripped end. */
  lemma StripBeforeHyphen(y: string)
    ensures StripHyphens(DropTrailingHyphens(y) + "-") == StripHyphens(y)
  {
    var d := DropTrailingHyphens(y);
    var h := DropTrailingPart(y);
    if |d| > 0 {
      StripWordRun(d, "-");
      StripWordRun(d, h);
    } else {
      assert d + "-" == "-" && "-"[1..] == "";
      assert StripHyphens("-") == "";
      AllHyphensStrip(y);
    }
  }

  /** Hyphens after text that ends in something else are stripped away. */
  lemma StripWordRun(d: string, h: string)
    requires |d| > 0 && d[|d| - 1] != '-' && AllHyphens(h)
    ensures StripHyphens(d + h) == StripHyphens(d)
  {
    var e := DropLeadingHyphens(d);
    DropLeadingAppend(d, h);
    DropTrailingRun(e, h);
  }

  lemma AllHyphensStrip(y: string)
    requires AllHyphens(y)
    ensures StripHyphens(y) == ""
  {
    DropAllHyphens(y);
  }

  lemma {:induction false} DropAllHyphens(y: string)
    requires AllHyphens(y)
    ensures DropLeadingHyphens(y) == ""
  {
    if |y| > 0 {
      assert y[0] == '-';
      DropAllHyphens(y[1..]);
    }
  }

  /** Two stripped pieces joined by a hyphen strip to themselves. */
  lemma StripJoin(x: string, y: string)
    requires |x| > 0 && x[|x| - 1] != '-'
    requires |y| > 0 && y[0] != '-'
    ensures StripHyphens(x + "-" + y) == StripHyphens(x) + "-" + StripHyphens(y)
  {
    AppendAssoc(x, "-", y);
    DropLeadingAppend(x, "-" + y);
    var d := DropLeadingHyphens(x);
    AppendAssoc(d, "-", y);
    DropTrailingPrepend(d + "-", y);
  }

  lemma LowerAppend(a: string, b: string)
    ensures Lower(a + b) == Lower(a) + Lower(b)
  {
  }

  /** A character is a letter or digit exactly when its lower case is a
      slug character. */
  lemma LowerSlugChar(c: char)
    ensures IsAlnum(c) <==> IsSlugChar(LowerChar(c))
  {
  }

  lemma LowerNoAlnum(s: string)
    requires NoAlnum(s)
    ensures NoSlugChar(Lower(s))
  {
    forall i | 0 <= i < |s|
      ensures !IsSlugChar(Lower(s)[i])
    {
      LowerSlugChar(s[i]);
    }
  }

  // ---------------------------------------------------------------------------
  // What the slug of a name is

  /** A word of ASCII letters and digits slugs to its lower-case text. */
  lemma SlugWord(w: string)
    requires forall i :: 0 <= i < |w| ==> IsAlnum(w[i])
    ensures Slug(w) == Lower(w)
  {
    var l := Lower(w);
    forall i | 0 <= i < |l|
      ensures IsSlugChar(l[i])
    {
      LowerSlugChar(w[i]);
    }
    HyphenateFixesHyphenated(l);
    StripFixesSlug(l);
  }

  /** Two parts of a name that end and start with a letter or digit, joined
      by a run of other characters, slug to their slugs joined by one `-`. */
  lemma SlugJoin(a: string, sep: string, b: string)
    requires |a| > 0 && IsAlnum(a[|a| - 1])
    requires |b| > 0 && IsAlnum(b[0])
    requires |sep| > 0 && NoAlnum(sep)
    ensures Slug(a + sep + b) == Slug(a) + "-" + Slug(b)
  {
    var la, ls, lb := Lower(a), Lower(sep), Lower(b);
    LowerAppend(a + sep, b);
    LowerAppend(a, sep);
    LowerSlugChar(a[|a| - 1]);
    LowerSlugChar(b[0]);
    LowerNoAlnum(sep);
    HyphenateJoin(la, ls, lb);
    StripJoin(Hyphenate(la), Hyphenate(lb));
  }

  /** A run between two slug characters becomes one `-`. */
  lemma HyphenateJoin(a: string, sep: string, b: string)
    requires |a| > 0 && IsSlugChar(a[|a| - 1])
    requires |b| > 0 && IsSlugChar(b[0])
    requires |sep| > 0 && NoSlugChar(sep)
    ensures Hyphenate(a + sep + b) == Hyphenate(a) + "-" + Hyphenate(b)
  {
    RunIsOneHyphen(sep);
    AppendAssoc(a, sep, b);
    HyphenateAfterSlug(a, sep + b);
    HyphenateBeforeSlug(sep, b);
    AppendAssoc(Hyphenate(a), "-", Hyphenate(b));
  }

  /** Characters other than letters and digits in front of a name do not
      change its slug. */
  lemma SlugPadLeft(p: string, s: string)
    requires NoAlnum(p)
    ensures Slug(p + s) == Slug(s)
  {
    if |p| == 0 {
      assert p + s == s;
    } else {
      LowerAppend(p, s);
      LowerNoAlnum(p);
      HyphenateRunBefore(Lower(p), Lower(s));
      StripAfterHyphen(Hyphenate(Lower(s)));
    }
  }

  /** Characters other than letters and digits after a name do not change
      its slug. */
  lemma SlugPadRight(s: string, q: string)
    requires NoAlnum(q)
    ensures Slug(s + q) == Slug(s)
  {
    if |q| == 0 {
      assert s + q == s;
    } else {
      LowerAppend(s, q);
      LowerNoAlnum(q);
      HyphenateRunAfter(Lower(s), Lower(q));
      StripBeforeHyphen(Hyphenate(Lower(s)));
    }
  }

  /** Stripping keeps every character other than `-`. */
  lemma StripKeepsNonHyphen(s: string, k: nat)
    requires k < |s| && s[k] != '-'
    ensures StripHyphens(s) != ""
  {
    DropLeadingKeeps(s, k);
    DropTrailingKeeps(DropLeadingHyphens(s));
  }

  lemma {:induction false} DropLeadingKeeps(s: string, k: nat)
    requires k < |s| && s[k] != '-'
    ensures DropLeadingHyphens(s) != ""
  {
    if s[0] == '-' {
      assert s[1..][k - 1] == s[k];
      DropLeadingKeeps(s[1..], k - 1);
    }
  }

  lemma {:induction false} DropTrailingKeeps(t: string)
    requires |t| > 0 && t[0] != '-'
    ensures DropTrailingHyphens(t) != ""
    decreases |t|
  {
    if t[|t| - 1] == '-' {
      var p := t[..|t| - 1];
      assert p[0] == t[0];
      DropTrailingKeeps(p);
    }
  }

  /** A name has an empty slug exactly when it has no ASCII letter or digit. */
  lemma SlugEmptyIff(name: string)
    ensures Slug(name) == "" <==> NoAlnum(name)
  {
    if NoAlnum(name) {
      assert "" + name == name;
      SlugPadRight("", name);
    } else {
      var k :| 0 <= k < |name| && IsAlnum(name[k]);
      var a, x, b := name[..k], name[k], name[k + 1..];
      assert name == a + [x] + b;
      LowerAppend(a + [x], b);
      LowerAppend(a, [x]);
      LowerSlugChar(x);
      var lx := LowerChar(x);
      assert Lower([x]) == [lx];
      SlugCharSplits(Lower(a), lx, Lower(b));
      var h := Hyphenate(Lower(a)) + [lx] + Hyphenate(Lower(b));
      assert h[|Hyphenate(Lower(a))|] == lx;
      StripKeepsNonHyphen(h, |Hyphenate(Lower(a))|);
    }
  }
}

=== FILE: sorting.dfy ===
/** `[...list].sort(cmp)`: JavaScript's sort is stable, so it is modelled as an
    insertion sort that places each element after every earlier element that is
    not greater than it.  `le(a, b)` stands for `cmp(a, b) <= 0`. */
module Sorting {
  import opened Common

  ghost predicate TotalPreorder<T(!new)>(le: (T, T) -> bool) {
    && (forall a, b :: le(a, b) || le(b, a))
    && (forall a, b, c :: le(a, b) && le(b, c) ==> le(a, c))
  }

  ghost predicate SortedBy<T>(xs: seq<T>, le: (T, T) -> bool) {
    forall i, j :: 0 <= i < j < |xs| ==> le(xs[i], xs[j])
  }

  /** Insert `x` after the longest prefix of elements not greater than it. */
  function Insert<T>(x: T, xs: seq<T>, le: (T, T) -> bool): (r: seq<T>)
    ensures multiset(r) == multiset(xs) + multiset{x}
    ensures |r| == |xs| + 1
  {
    if |xs| == 0 then [x]
    else if le(xs[0], x) then
      assert xs == [xs[0]] + xs[1..];
      [xs[0]] + Insert(x, xs[1..], le)
    else [x] + xs
  }

  lemma {:induction false} InsertSorted<T(!new)>(x: T, xs: seq<T>, le: (T, T) -> bool)
    requires TotalPreorder(le)
    requires SortedBy(xs, le)
    ensures SortedBy(Insert(x, xs, le), le)
  {
    if |xs| > 0 {
      if le(xs[0], x) {
        var rest := Insert(x, xs[1..], le);
        InsertSorted(x, xs[1..], le);
        forall j | 0 <= j < |rest|
          ensures le(xs[0], rest[j])
        {
          assert rest[j] in multiset(rest);
          if rest[j] != x {
            assert rest[j] in multiset(xs[1..]);
            var k :| 0 <= k < |xs[1..]| && xs[1..][k] == rest[j];
            assert xs[k + 1] == rest[j];
          }
        }
      } else {
        assert le(x, xs[0]);
      }
    }
  }

  lemma InsertKeepsSorted<T(!new)>(x: T, xs: seq<T>, le: (T, T) -> bool)
    ensures TotalPreorder(le) && SortedBy(xs, le) ==> SortedBy(Insert(x, xs, le), le)
  {
    if TotalPreorder(le) && SortedBy(xs, le) {
      InsertSorted(x, xs, le);
    }
  }

  /** The stable sort of `xs` under `le`. */
  function Sort<T(!new)>(xs: seq<T>, le: (T, T) -> bool): (r: seq<T>)
    ensures multiset(r) == multiset(xs)
    ensures |r| == |xs|
    ensures TotalPreorder(le) ==> SortedBy(r, le)
  {
    if |xs| == 0 then []
    else
      var init := xs[..|xs| - 1];
      assert xs == init + [xs[|xs| - 1]];
      var sorted := Sort(init, le);
      InsertKeepsSorted(xs[|xs| - 1], sorted, le);
      Insert(xs[|xs| - 1], sorted, le)
  }

  /** The elements that compare equal to `y`: neither is greater. */
  function Equiv<T>(le: (T, T) -> bool, y: T): T -> bool {
    (a: T) => le(a, y) && le(y, a)
  }

  /** Stability: the elements that compare equal to any `y` come out of the
      sort in the order they went in. */
  lemma {:induction false} SortStable<T(!new)>(xs: seq<T>, le: (T, T) -> bool, y: T)
    requires TotalPreorder(le)
    ensures Filter(Sort(xs, le), Equiv(le, y)) == Filter(xs, Equiv(le, y))
  {
    if |xs| > 0 {
      var init, x := xs[..|xs| - 1], xs[|xs| - 1];
      SortStable(init, le, y);
      InsertStable(x, Sort(init, le), le, y);
    }
  }

  /** Inserting `x` into a sorted list puts it after every element equal to
      it, so among the elements equal to `y` it comes last. */
  lemma {:induction false} InsertStable<T(!new)>(x: T, s: seq<T>, le: (T, T) -> bool, y: T)
    requires TotalPreorder(le) && SortedBy(s, le)
    ensures Filter(Insert(x, s, le), Equiv(le, y)) == Filter(s, Equiv(le, y)) + Filter([x], Equiv(le, y))
  {
    if |s| == 0 {
      assert Insert(x, s, le) == [x];
    } else {
      var a, t := s[0], s[1..];
      assert s == [a] + t;
      if le(a, x) {
        assert SortedBy(t, le) by {
          forall i, j | 0 <= i < j < |t|
            ensures le(t[i], t[j])
          {
            assert t[i] == s[i + 1] && t[j] == s[j + 1];
          }
        }
        InsertStable(x, t, le, y);
        InsertBehind(x, a, t, le, y);
      } else {
        InsertInFront(x, a, t, le, y);
      }
    }
  }

  /** `x` goes behind a first element not greater than it. */
  lemma InsertBehind<T(!new)>(x: T, a: T, t: seq<T>, le: (T, T) -> bool, y: T)
    requires le(a, x)
    requires Filter(Insert(x, t, le), Equiv(le, y)) == Filter(t, Equiv(le, y)) + Filter([x], Equiv(le, y))
    ensures Filter(Insert(x, [a] + t, le), Equiv(le, y)) == Filter([a] + t, Equiv(le, y)) + Filter([x], Equiv(le, y))
  {
    InsertCons(x, a, t, le);
    FilterBehind(a, Insert(x, t, le), t, x, Equiv(le, y));
  }

  /** Insertion passes over a first element not greater than `x`. */
  lemma InsertCons<T>(x: T, a: T, t: seq<T>, le: (T, T) -> bool)
    requires le(a, x)
    ensures Insert(x, [a] + t, le) == [a] + Insert(x, t, le)
  {
    assert ([a] + t)[1..] == t;
  }

  /** Putting `a` in front of both sides of a filter equation. */
  lemma FilterBehind<T(!new)>(a: T, rest: seq<T>, t: seq<T>, x: T, q: T -> bool)
    requires Filter(rest, q) == Filter(t, q) + Filter([x], q)
    ensures Filter([a] + rest, q) == Filter([a] + t, q) + Filter([x], q)
  {
    FilterAppend([a], rest, q);
    FilterAppend([a], t, q);
    var fa, ft, fx := Filter([a], q), Filter(t, q), Filter([x], q);
    assert fa + (ft + fx) == (fa + ft) + fx;
  }

  /** `x` goes in front of a sorted list whose first element is greater, and
      then no element of the list equals it. */
  lemma InsertInFront<T(!new)>(x: T, a: T, t: seq<T>, le: (T, T) -> bool, y: T)
    requires TotalPreorder(le) && SortedBy([a] + t, le)
    requires !le(a, x)
    ensures Filter(Insert(x, [a] + t, le), Equiv(le, y)) == Filter([a] + t, Equiv(le, y)) + Filter([x], Equiv(le, y))
  {
    var q := Equiv(le, y);
    var s := [a] + t;
    assert Insert(x, s, le) == [x] + s;
    FilterAppend([x], s, q);
    if q(x) {
      forall e | e in s
        ensures !q(e)
      {
        var k :| 0 <= k < |s| && s[k] == e;
        assert le(a, e) by {
          if k > 0 {
            assert le(s[0], s[k]);
          }
        }
      }
      FilterEmpty(s, q);
    }
  }

  /** A filter that no element passes keeps nothing. */
  lemma FilterEmpty<T(!new)>(xs: seq<T>, p: T -> bool)
    requires forall e :: e in xs ==> !p(e)
    ensures Filter(xs, p) == []
  {
    if |Filter(xs, p)| > 0 {
      assert Filter(xs, p)[0] in Filter(xs, p);
    }
  }

  /** A filter of a sorted list is sorted. */
  lemma {:induction false} FilterKeepsSorted<T(!new)>(xs: seq<T>, p: T -> bool, le: (T, T) -> bool)
    requires SortedBy(xs, le)
    ensures SortedBy(Filter(xs, p), le)
  {
    if |xs| > 0 {
      var init := xs[..|xs| - 1];
      FilterKeepsSorted(init, p, le);
      var f := Filter(init, p);
      forall i | 0 <= i < |f|
        ensures le(f[i], xs[|xs| - 1])
      {
        assert f[i] in init;
        var k :| 0 <= k < |init| && init[k] == f[i];
      }
    }
  }
}

=== FILE: subscriptions_route.dfy ===
/** The server's per-user store (src/app/api/subscriptions/route.ts): `GET`
    reads five Firestore documents with defaults, `POST` applies the body's
    fields to them in a fixed order.  Firestore is a map from document
    reference to document data; `new Date()` and `Date.now()` are the
    parameter `now`. */
module SubscriptionsRoute {
  import opened Common
  import opened Json

  /** The documents the route touches: `users/<email>/subscriptions/{detected,
      canceled, custom, removed}`, `users/<email>/meta/prefs` and the realtime
      `subscriptions/<email>`. */
  datatype DocName = Detected | Canceled | Custom | Removed | PrefsDoc | Realtime

  datatype DocRef = DocRef(email: string, name: DocName)

  type Db = map<DocRef, map<string, Value>>

  /** `session?.user?.email` when it is truthy. */
  predicate SignedIn(email: Option<string>) {
    email.Some? && email.value != ""
  }

  /** `doc.exists ? doc.data()?.<field> ?? [] : []`. */
  function ListField(db: Db, ref: DocRef, field: string): (r: Value)
    ensures ref in db && field in db[ref] && !Nullish(db[ref][field]) ==> r == db[ref][field]
    ensures !(ref in db && field in db[ref] && !Nullish(db[ref][field])) ==> r == Arr([])
  {
    if ref in db then OrElse(Prop(Obj(db[ref]), field), Arr([])) else Arr([])
  }

  // ---------------------------------------------------------------------------
  // GET

  datatype GetResponse =
    | GetUnauthorized
    | Lists(subscriptions: Value, prefs: Value, canceled: Value, custom: Value, removed: Value)

  /** `GET` (lines 7-33). */
  function Get(db: Db, email: Option<string>): (r: GetResponse)
    ensures r.GetUnauthorized? <==> !SignedIn(email)
    ensures r.Lists? ==> r.prefs.Obj?
    ensures r.Lists? ==> var e := email.value;
      && r.subscriptions == ListField(db, DocRef(e, Detected), "list")
      && r.canceled == ListField(db, DocRef(e, Canceled), "ids")
      && r.custom == ListField(db, DocRef(e, Custom), "list")
      && r.removed == ListField(db, DocRef(e, Removed), "ids")
      && (DocRef(e, PrefsDoc) in db ==> r.prefs.fields == db[DocRef(e, PrefsDoc)])
      && (DocRef(e, PrefsDoc) !in db ==> r.prefs.fields == map[])
  {
    if !SignedIn(email) then GetUnauthorized
    else
      var e := email.value;
      Lists(ListField(db, DocRef(e, Detected), "list"),
            if DocRef(e, PrefsDoc) in db then Obj(db[DocRef(e, PrefsDoc)]) else Obj(map[]),
            ListField(db, DocRef(e, Canceled), "ids"),
            ListField(db, DocRef(e, Custom), "list"),
            ListField(db, DocRef(e, Removed), "ids"))
  }

  /** A user with no documents reads four empty lists and empty preferences. */
  lemma GetDefaults(db: Db, e: string)
    requires e != ""
    requires forall n :: DocRef(e, n) !in db
    ensures Get(db, Some(e)) == Lists(Arr([]), Obj(map[]), Arr([]), Arr([]), Arr([]))
  {
    assert DocRef(e, PrefsDoc) !in db;
  }

  // ---------------------------------------------------------------------------
  // Firestore writes

  /** `set(data, { merge: true })` on one nested value.  The write's field
      mask holds the path of every leaf of `nv`, where a leaf is a value
      that is not an object or an object with no fields: a non-empty object
      written over an object merges field by field, anything else in `nv`
      replaces `prior`. */
  function Merge(prior: Value, nv: Value): (r: Value)
    ensures !(prior.Obj? && nv.Obj? && nv.fields != map[]) ==> r == nv
    ensures prior.Obj? && nv.Obj? && nv.fields != map[] ==>
      (&& r.Obj?
       && (forall k :: k in r.fields <==> k in prior.fields || k in nv.fields)
       && (forall k :: k in prior.fields && k !in nv.fields ==> r.fields[k] == prior.fields[k])
       && (forall k :: k in nv.fields && IsLeaf(nv.fields[k]) ==> r.fields[k] == nv.fields[k])
       && (forall k :: k in nv.fields && !IsLeaf(nv.fields[k]) ==> r.fields[k].Obj?))
    decreases nv
  {
    if prior.Obj? && nv.Obj? && nv.fields != map[] then
      Obj(map k | k in prior.fields.Keys + nv.fields.Keys ::
        if k in nv.fields then Merge(if k in prior.fields then prior.fields[k] else Undefined, nv.fields[k])
        else prior.fields[k])
    else nv
  }

  /** A leaf of a write: its path is in the field mask as a whole. */
  predicate IsLeaf(v: Value) {
    !v.Obj? || v.fields == map[]
  }

  /** The value at a field path, if every step is an object holding the
      next key. */
  function Lookup(v: Value, path: seq<string>): (r: Option<Value>)
    ensures |path| == 0 ==> r == Some(v)
    decreases |path|
  {
    if |path| == 0 then Some(v)
    else if v.Obj? && path[0] in v.fields then Lookup(v.fields[path[0]], path[1..])
    else None
  }

  /** The write goes into non-empty objects along `path` and stops at a key
      it does not hold, so the field mask covers no prefix of `path`. */
  predicate Untouched(nv: Value, path: seq<string>)
    decreases |path|
  {
    && |path| > 0 && nv.Obj? && nv.fields != map[]
    && (path[0] !in nv.fields || Untouched(nv.fields[path[0]], path[1..]))
  }

  /** Every leaf of the write lands at its path. */
  lemma {:induction false} MergeLeafLands(prior: Value, nv: Value, path: seq<string>)
    requires Lookup(nv, path).Some? && IsLeaf(Lookup(nv, path).value)
    ensures Lookup(Merge(prior, nv), path) == Lookup(nv, path)
    decreases |path|
  {
    if |path| > 0 && prior.Obj? && nv.Obj? && nv.fields != map[] {
      var k := path[0];
      MergeLeafLands(if k in prior.fields then prior.fields[k] else Undefined, nv.fields[k], path[1..]);
    }
  }

  /** A stored value the write does not reach stays where it was. */
  lemma {:induction false} MergeKeepsUntouched(prior: Value, nv: Value, path: seq<string>)
    requires Lookup(prior, path).Some? && Untouched(nv, path)
    ensures Lookup(Merge(prior, nv), path) == Lookup(prior, path)
    decreases |path|
  {
    var k := path[0];
    if k in nv.fields {
      MergeKeepsUntouched(prior.fields[k], nv.fields[k], path[1..]);
    }
  }

  /** Nothing else appears: every path of the result is a path of the write,
      or a path of the stored value that the write does not reach. */
  lemma {:induction false} MergePathsFrom(prior: Value, nv: Value, path: seq<string>)
    requires Lookup(Merge(prior, nv), path).Some?
    ensures Lookup(nv, path).Some? || (Untouched(nv, path) && Lookup(prior, path).Some?)
    decreases |path|
  {
    if |path| > 0 && prior.Obj? && nv.Obj? && nv.fields != map[] {
      var k := path[0];
      if k in nv.fields {
        MergePathsFrom(if k in prior.fields then prior.fields[k] else Undefined, nv.fields[k], path[1..]);
      }
    }
  }

  /** A merging write of `fields` into a document that may not exist.  An
      empty write has an empty field mask and leaves the document as it
      was (creating it empty when missing). */
  function MergeInto(db: Db, ref: DocRef, fields: map<string, Value>): (r: Db)
    ensures ref in r && r.Keys == db.Keys + {ref}
    ensures fields == map[] ==> r[ref] == if ref in db then db[ref] else map[]
    ensures forall k :: k in fields && IsLeaf(fields[k]) ==> k in r[ref] && r[ref][k] == fields[k]
    ensures ref in db ==> forall k :: k in db[ref] && k !in fields ==> k in r[ref] && r[ref][k] == db[ref][k]
    ensures forall k :: k in r[ref] ==> k in fields || (ref in db && k in db[ref])
    ensures forall other :: other in db && other != ref ==> r[other] == db[other]
  {
    var prior := if ref in db then db[ref] else map[];
    if fields == map[] then db[ref := prior]
    else db[ref := Merge(Obj(prior), Obj(fields)).fields]
  }

  /** Every leaf of a non-empty write lands in the document, every stored
      value it does not reach stays, and nothing else is there. */
  lemma MergeIntoPaths(db: Db, ref: DocRef, fields: map<string, Value>, path: seq<string>)
    requires fields != map[]
    ensures var doc, prior := Obj(MergeInto(db, ref, fields)[ref]), Obj(if ref in db then db[ref] else map[]);
      && (Lookup(Obj(fields), path).Some? && IsLeaf(Lookup(Obj(fields), path).value) ==>
            Lookup(doc, path) == Lookup(Obj(fields), path))
      && (Lookup(prior, path).Some? && Untouched(Obj(fields), path) ==> Lookup(doc, path) == Lookup(prior, path))
      && (Lookup(doc, path).Some? ==> Lookup(Obj(fields), path).Some? || (Untouched(Obj(fields), path) && Lookup(prior, path).Some?))
  {
    var prior := Obj(if ref in db then db[ref] else map[]);
    var m := Merge(prior, Obj(fields));
    assert Obj(MergeInto(db, ref, fields)[ref]) == m;
    if Lookup(Obj(fields), path).Some? && IsLeaf(Lookup(Obj(fields), path).value) {
      MergeLeafLands(prior, Obj(fields), path);
    }
    if Lookup(prior, path).Some? && Untouched(Obj(fields), path) {
      MergeKeepsUntouched(prior, Obj(fields), path);
    }
    if Lookup(m, path).Some? {
      MergePathsFrom(prior, Obj(fields), path);
    }
  }

  /** `{ <field>: v, updatedAt: now }`. */
  function Stamped(field: string, v: Value, now: real): map<string, Value> {
    map[field := v, "updatedAt" := Num(now)]
  }

  /** A plain write of an `ids` or `list` document stamped `updatedAt`. */
  function Put(db: Db, ref: DocRef, field: string, list: Value, now: real): (r: Db)
    ensures ref in r && r.Keys == db.Keys + {ref}
    ensures r[ref] == Stamped(field, list, now)
    ensures forall other :: other in db && other != ref ==> r[other] == db[other]
  {
    db[ref := Stamped(field, list, now)]
  }

  // ---------------------------------------------------------------------------
  // POST

  /** Every document of another user is as it was. */
  predicate OthersKept(db: Db, r: Db, e: string) {
    forall ref :: ref in db && ref.email != e ==> ref in r && r[ref] == db[ref]
  }

  lemma OthersKeptTrans(a: Db, b: Db, c: Db, e: string)
    requires OthersKept(a, b, e) && OthersKept(b, c, e)
    ensures OthersKept(a, c, e)
  {
  }

  /** A run of writes: the documents as they stand, and whether the handler
      got through without throwing (a throw leaves earlier writes in place
      and answers 500). */
  datatype Step = Step(db: Db, ok: bool)

  datatype PostResponse = PostUnauthorized | Answered(db: Db, ok: bool)

  /** The preferences document after the reset's merging write of
      `{ hiddenIds: [], sort: 'name' }` (line 57): other fields stay. */
  function ResetPrefs(prior: map<string, Value>): (r: map<string, Value>)
    ensures "hiddenIds" in r && r["hiddenIds"] == Arr([])
    ensures "sort" in r && r["sort"] == Str("name")
    ensures forall k :: k in prior && k != "hiddenIds" && k != "sort" ==> k in r && r[k] == prior[k]
  {
    Merge(Obj(prior), Obj(map["hiddenIds" := Arr([]), "sort" := Str("name")])).fields
  }

  /** `resetAll` (lines 51-61).  The six writes go to different documents,
      so the order in which the map is updated does not matter. */
  function ResetAll(db: Db, e: string, now: real): (r: Db)
    ensures DocRef(e, Canceled) in r && r[DocRef(e, Canceled)] == Stamped("ids", Arr([]), now)
    ensures DocRef(e, Removed) in r && r[DocRef(e, Removed)] == Stamped("ids", Arr([]), now)
    ensures DocRef(e, Custom) in r && r[DocRef(e, Custom)] == Stamped("list", Arr([]), now)
    ensures DocRef(e, Detected) in r && r[DocRef(e, Detected)] == Stamped("list", Arr([]), now)
    ensures DocRef(e, Realtime) in r && r[DocRef(e, Realtime)] == Stamped("items", Arr([]), now)
    ensures DocRef(e, PrefsDoc) in r && r[DocRef(e, PrefsDoc)] == ResetPrefs(if DocRef(e, PrefsDoc) in db then db[DocRef(e, PrefsDoc)] else map[])
    ensures OthersKept(db, r, e)
  {
    ResetLists(db, e, now)
      [DocRef(e, PrefsDoc) := ResetPrefs(if DocRef(e, PrefsDoc) in db then db[DocRef(e, PrefsDoc)] else map[])]
      [DocRef(e, Realtime) := Stamped("items", Arr([]), now)]
  }

  /** The first four writes of `resetAll`: the two id lists and the two
      subscription lists. */
  function ResetLists(db: Db, e: string, now: real): (r: Db)
    ensures DocRef(e, Canceled) in r && r[DocRef(e, Canceled)] == Stamped("ids", Arr([]), now)
    ensures DocRef(e, Removed) in r && r[DocRef(e, Removed)] == Stamped("ids", Arr([]), now)
    ensures DocRef(e, Custom) in r && r[DocRef(e, Custom)] == Stamped("list", Arr([]), now)
    ensures DocRef(e, Detected) in r && r[DocRef(e, Detected)] == Stamped("list", Arr([]), now)
    ensures forall ref :: ref in db && ref.email != e ==> ref in r && r[ref] == db[ref]
  {
    db[DocRef(e, Canceled) := Stamped("ids", Arr([]), now)]
      [DocRef(e, Removed) := Stamped("ids", Arr([]), now)]
      [DocRef(e, Custom) := Stamped("list", Arr([]), now)]
      [DocRef(e, Detected) := Stamped("list", Arr([]), now)]
  }

  /** `prefs` (lines 62-64): an object is merged in; an array is an object to
      `typeof` but not a document Firestore accepts, so the write throws. */
  function ApplyPrefs(db: Db, e: string, prefs: Value): (r: Step)
    ensures !(Truthy(prefs) && (prefs.Obj? || prefs.Arr?)) ==> r == Step(db, true)
    ensures prefs.Arr? ==> r == Step(db, false)
    ensures prefs.Obj? ==> r.ok && r.db == MergeInto(db, DocRef(e, PrefsDoc), prefs.fields)
    ensures OthersKept(db, r.db, e)
  {
    if !(Truthy(prefs) && (prefs.Obj? || prefs.Arr?)) then Step(db, true)
    else if prefs.Arr? then Step(db, false)
    else Step(MergeInto(db, DocRef(e, PrefsDoc), prefs.fields), true)
  }

  /** `canceledIds` / `removedIds` (lines 65-70): an array replaces the
      stored one, anything else is ignored. */
  function ApplyIds(db: Db, ref: DocRef, ids: Value, now: real): (r: Db)
    ensures !ids.Arr? ==> r == db
    ensures ids.Arr? ==> ref in r && r[ref] == Stamped("ids", ids, now)
    ensures forall other :: other in db && other != ref ==> other in r && r[other] == db[other]
    ensures OthersKept(db, r, ref.email)
    ensures r.Keys <= db.Keys + {ref}
  {
    if ids.Arr? then Put(db, ref, "ids", ids, now) else db
  }

  /** The custom list as the handler reads it. */
  function CustomList(db: Db, e: string): Value {
    ListField(db, DocRef(e, Custom), "list")
  }

  /** `[...list, x]`: arrays and strings spread, other values throw. */
  function SpreadAppend(list: Value, x: Value): (r: Option<seq<Value>>)
    ensures list.Arr? ==> r == Some(list.items + [x])
    ensures list.Str? ==> r == Some(Chars(list.s) + [x])
    ensures r.None? <==> !list.Arr? && !list.Str?
  {
    match list
    case Arr(items) => Some(items + [x])
    case Str(s) => Some(Chars(s) + [x])
    case _ => None
  }

  /** The entry `customAdd` creates. */
  function AddedEntry(add: Value): Value {
    Obj(map["id" := Prop(add, "id"), "name" := Prop(add, "name"),
            "cancelUrl" := OrElse(Prop(add, "cancelUrl"), Str(""))])
  }

  /** Whether the list already has an entry `x` with `x?.id === id`. */
  predicate ListHas(list: Value, id: Value) {
    list.Arr? && exists i :: 0 <= i < |list.items| && HasId(list.items[i], id)
  }

  /** `customAdd` (lines 71-78). */
  function ApplyCustomAdd(db: Db, e: string, add: Value, now: real): (r: Step)
    ensures !(Truthy(add) && Truthy(Prop(add, "id")) && Truthy(Prop(add, "name"))) ==> r == Step(db, true)
    ensures Truthy(add) && Truthy(Prop(add, "id")) && Truthy(Prop(add, "name")) && ListHas(CustomList(db, e), Prop(add, "id")) ==>
      r.ok && r.db == Put(db, DocRef(e, Custom), "list", CustomList(db, e), now)
    ensures Truthy(Prop(add, "id")) && Truthy(Prop(add, "name")) && CustomList(db, e).Arr? && !ListHas(CustomList(db, e), Prop(add, "id")) ==>
      r.ok && r.db == Put(db, DocRef(e, Custom), "list", Arr(CustomList(db, e).items + [AddedEntry(add)]), now)
    ensures Truthy(add) && Truthy(Prop(add, "id")) && Truthy(Prop(add, "name")) && CustomList(db, e).Str? ==>
      r.ok && r.db == Put(db, DocRef(e, Custom), "list", Arr(Chars(CustomList(db, e).s) + [AddedEntry(add)]), now)
    ensures !r.ok <==>
      (&& Truthy(add) && Truthy(Prop(add, "id")) && Truthy(Prop(add, "name"))
       && !CustomList(db, e).Arr? && !CustomList(db, e).Str?)
    ensures !r.ok ==> r.db == db
    ensures OthersKept(db, r.db, e)
  {
    if !(Truthy(add) && Truthy(Prop(add, "id")) && Truthy(Prop(add, "name"))) then Step(db, true)
    else
      var list := CustomList(db, e);
      if ListHas(list, Prop(add, "id")) then Step(Put(db, DocRef(e, Custom), "list", list, now), true)
      else match SpreadAppend(list, AddedEntry(add))
        case None => Step(db, false)
        case Some(next) => Step(Put(db, DocRef(e, Custom), "list", Arr(next), now), true)
  }

  /** `customUpsert` (lines 79-88): the list must be an array, and the id
      search reads `x.id` unguarded. */
  function ApplyCustomUpsert(db: Db, e: string, up: Value, now: real): (r: Step)
    ensures !(Truthy(up) && Truthy(Prop(up, "id")) && Truthy(Prop(up, "name"))) ==> r == Step(db, true)
    ensures (&& Truthy(Prop(up, "id")) && Truthy(Prop(up, "name")) && CustomList(db, e).Arr?
             && FindIndexChecked(CustomList(db, e).items, Prop(up, "id")).Ok?) ==>
      r.ok && r.db == Put(db, DocRef(e, Custom), "list", Arr(UpsertById(CustomList(db, e).items, up.fields)), now)
    ensures !r.ok <==>
      (&& Truthy(Prop(up, "id")) && Truthy(Prop(up, "name"))
       && (!CustomList(db, e).Arr? || FindIndexChecked(CustomList(db, e).items, Prop(up, "id")).Err?))
    ensures !r.ok ==> r.db == db
    ensures OthersKept(db, r.db, e)
  {
    if !(Truthy(up) && Truthy(Prop(up, "id")) && Truthy(Prop(up, "name"))) then Step(db, true)
    else match CustomList(db, e)
      case Arr(items) =>
        (match FindIndexChecked(items, Prop(up, "id"))
         case Err(_) => Step(db, false)
         case Ok(_) => Step(Put(db, DocRef(e, Custom), "list", Arr(UpsertById(items, up.fields)), now), true))
      case _ => Step(db, false)
  }

  /** `POST` (lines 35-90); `body` is `None` when `req.json()` throws. */
  function Post(db: Db, email: Option<string>, body: Option<Value>, now: real): (r: PostResponse)
    ensures r.PostUnauthorized? <==> !SignedIn(email)
    ensures r.Answered? && (body.None? || Nullish(body.value)) ==> r == Answered(db, false)
    ensures r.Answered? && body.Some? && Truthy(Prop(body.value, "resetAll")) ==>
      r == Answered(ResetAll(db, email.value, now), true)
  {
    if !SignedIn(email) then PostUnauthorized
    else if body.None? || Nullish(body.value) then Answered(db, false)
    else
      var e := email.value;
      var b := body.value;
      if Truthy(Prop(b, "resetAll")) then Answered(ResetAll(db, e, now), true)
      else
        var s1 := ApplyPrefs(db, e, Prop(b, "prefs"));
        if !s1.ok then Answered(s1.db, false)
        else
          var d2 := ApplyIds(s1.db, DocRef(e, Canceled), Prop(b, "canceledIds"), now);
          var d3 := ApplyIds(d2, DocRef(e, Removed), Prop(b, "removedIds"), now);
          var s4 := ApplyCustomAdd(d3, e, Prop(b, "customAdd"), now);
          if !s4.ok then Answered(s4.db, false)
          else
            var s5 := ApplyCustomUpsert(s4.db, e, Prop(b, "customUpsert"), now);
            Answered(s5.db, s5.ok)
  }

  // ---------------------------------------------------------------------------
  // Properties of POST

  /** With `resetAll` set, no other field of the body has any effect. */
  lemma ResetIgnoresOtherFields(db: Db, email: Option<string>, b: Value, now: real)
    requires !Nullish(b) && Truthy(Prop(b, "resetAll"))
    ensures Post(db, email, Some(b), now) == Post(db, email, Some(Obj(map["resetAll" := Prop(b, "resetAll")])), now)
  {
  }

  /** A POST only ever writes the signed-in user's documents. */
  lemma PostIsolated(db: Db, email: Option<string>, body: Option<Value>, now: real)
    requires SignedIn(email)
    ensures OthersKept(db, Post(db, email, body, now).db, email.value)
  {
    var e := email.value;
    if body.Some? && !Nullish(body.value) && !Truthy(Prop(body.value, "resetAll")) {
      var b := body.value;
      var s1 := ApplyPrefs(db, e, Prop(b, "prefs"));
      if s1.ok {
        var d2 := ApplyIds(s1.db, DocRef(e, Canceled), Prop(b, "canceledIds"), now);
        var d3 := ApplyIds(d2, DocRef(e, Removed), Prop(b, "removedIds"), now);
        OthersKeptTrans(db, s1.db, d2, e);
        OthersKeptTrans(db, d2, d3, e);
        var s4 := ApplyCustomAdd(d3, e, Prop(b, "customAdd"), now);
        OthersKeptTrans(db, d3, s4.db, e);
        if s4.ok {
          var s5 := ApplyCustomUpsert(s4.db, e, Prop(b, "customUpsert"), now);
          OthersKeptTrans(db, s4.db, s5.db, e);
        }
      }
    }
  }

  /** Sending the same `customAdd` twice stores the entry once: the second
      request finds the id and rewrites the list unchanged. */
  lemma CustomAddTwice(db: Db, e: string, add: Value, now: real, later: real)
    requires Truthy(add) && Truthy(Prop(add, "id")) && Truthy(Prop(add, "name"))
    requires !Prop(add, "id").Arr? && !Prop(add, "id").Obj?
    requires CustomList(db, e).Arr?
    ensures var once := ApplyCustomAdd(db, e, add, now).db;
      ApplyCustomAdd(once, e, add, later) == Step(Put(once, DocRef(e, Custom), "list", CustomList(once, e), later), true)
  {
    var list := CustomList(db, e);
    var once := ApplyCustomAdd(db, e, add, now).db;
    if !ListHas(list, Prop(add, "id")) {
      var next := list.items + [AddedEntry(add)];
      assert CustomList(once, e) == Arr(next);
      assert HasId(next[|next| - 1], Prop(add, "id"));
    } else {
      assert CustomList(once, e) == list;
    }
  }

  /** Upserting into a list whose only entry with the id is the last one
      merges into that entry. */
  lemma UpsertIntoLast(items: seq<Value>, last: Value, entry: map<string, Value>)
    requires HasId(last, Prop(Obj(entry), "id"))
    requires forall i :: 0 <= i < |items| ==> !HasId(items[i], Prop(Obj(entry), "id"))
    ensures UpsertById(items + [last], entry) == items + [Spread(last, entry)]
  {
    var next := items + [last];
    FindIndexAt(next, Prop(Obj(entry), "id"), |items|);
  }

  /** `customAdd` then `customUpsert` of the same new id leave one entry: the
      added one with the upsert's fields merged over it. */
  lemma AddThenUpsertSteps(db: Db, e: string, add: Value, up: Value, now: real)
    requires Truthy(add) && Truthy(Prop(add, "id")) && Truthy(Prop(add, "name"))
    requires !Prop(add, "id").Arr? && !Prop(add, "id").Obj?
    requires up.Obj? && Prop(up, "id") == Prop(add, "id") && Truthy(Prop(up, "name"))
    requires CustomList(db, e).Arr? && !ListHas(CustomList(db, e), Prop(add, "id"))
    requires forall i :: 0 <= i < |CustomList(db, e).items| ==> !Nullish(CustomList(db, e).items[i])
    ensures var s4 := ApplyCustomAdd(db, e, add, now);
      var s5 := ApplyCustomUpsert(s4.db, e, up, now);
      && s4.ok && s5.ok
      && CustomList(s5.db, e) == Arr(CustomList(db, e).items + [Spread(AddedEntry(add), up.fields)])
  {
    var id := Prop(add, "id");
    var items := CustomList(db, e).items;
    var s4 := ApplyCustomAdd(db, e, add, now);
    var next := items + [AddedEntry(add)];
    assert CustomList(s4.db, e) == Arr(next);
    assert HasId(AddedEntry(add), id);
    assert forall i :: 0 <= i < |items| ==> !HasId(items[i], id);
    assert forall i :: 0 <= i < |next| ==> !Nullish(next[i]);
    assert Prop(Obj(up.fields), "id") == id;
    UpsertIntoLast(items, AddedEntry(add), up.fields);
  }

  /** The fields apply in order, so a body carrying both a `customAdd` and a
      `customUpsert` of the same new id stores the added entry with the
      upsert merged over it. */
  lemma AddThenUpsertSameId(db: Db, e: string, b: Value, now: real)
    requires e != "" && b.Obj?
    requires !Truthy(Prop(b, "resetAll")) && !Prop(b, "prefs").Obj? && !Prop(b, "prefs").Arr?
    requires var add := Prop(b, "customAdd");
      Truthy(add) && Truthy(Prop(add, "id")) && Truthy(Prop(add, "name"))
    requires Prop(b, "customUpsert").Obj? && Prop(Prop(b, "customUpsert"), "id") == Prop(Prop(b, "customAdd"), "id")
      && Truthy(Prop(Prop(b, "customUpsert"), "name"))
    requires !Prop(Prop(b, "customAdd"), "id").Arr? && !Prop(Prop(b, "customAdd"), "id").Obj?
    requires CustomList(db, e).Arr? && !ListHas(CustomList(db, e), Prop(Prop(b, "customAdd"), "id"))
    requires forall i :: 0 <= i < |CustomList(db, e).items| ==> !Nullish(CustomList(db, e).items[i])
    ensures var r := Post(db, Some(e), Some(b), now);
      && r.Answered? && r.ok
      && CustomList(r.db, e) == Arr(CustomList(db, e).items
           + [Spread(AddedEntry(Prop(b, "customAdd")), Prop(b, "customUpsert").fields)])
  {
    assert ApplyPrefs(db, e, Prop(b, "prefs")) == Step(db, true);
    var d2 := ApplyIds(db, DocRef(e, Canceled), Prop(b, "canceledIds"), now);
    var d3 := ApplyIds(d2, DocRef(e, Removed), Prop(b, "removedIds"), now);
    assert CustomList(d3, e) == CustomList(db, e);
    AddThenUpsertSteps(d3, e, Prop(b, "customAdd"), Prop(b, "customUpsert"), now);
  }

  // ---------------------------------------------------------------------------
  // GET after POST

  /** After a reset the user reads four empty lists, and preferences with no
      hidden ids and the name sort. */
  lemma ResetThenGet(db: Db, e: string, now: real)
    requires e != ""
    ensures var r := Get(ResetAll(db, e, now), Some(e));
      && r == Lists(Arr([]), r.prefs, Arr([]), Arr([]), Arr([]))
      && Prop(r.prefs, "hiddenIds") == Arr([]) && Prop(r.prefs, "sort") == Str("name")
  {
  }

  /** An id array stored under `canceledIds` or `removedIds` is what the next
      GET returns; everything else reads as before. */
  lemma IdsThenGet(db: Db, e: string, n: DocName, ids: Value, now: real)
    requires e != "" && (n == Canceled || n == Removed) && ids.Arr?
    ensures var before, after := Get(db, Some(e)), Get(ApplyIds(db, DocRef(e, n), ids, now), Some(e));
      && (n == Canceled ==> after == before.(canceled := ids))
      && (n == Removed ==> after == before.(removed := ids))
  {
    var ref := DocRef(e, n);
    var db2 := ApplyIds(db, ref, ids, now);
    forall m | m != n
      ensures DocRef(e, m) in db2 <==> DocRef(e, m) in db
      ensures DocRef(e, m) in db ==> db2[DocRef(e, m)] == db[DocRef(e, m)]
    {
      assert DocRef(e, m) != ref;
    }
    assert ListField(db2, ref, "ids") == ids;
  }

  /** A `customAdd` of a new id to a stored array is read back by the next GET
      as that array with the entry at its end; everything else reads as
      before. */
  lemma CustomAddThenGet(db: Db, e: string, add: Value, now: real)
    requires e != ""
    requires Truthy(add) && Truthy(Prop(add, "id")) && Truthy(Prop(add, "name"))
    requires CustomList(db, e).Arr? && !ListHas(CustomList(db, e), Prop(add, "id"))
    ensures var before, after := Get(db, Some(e)), Get(ApplyCustomAdd(db, e, add, now).db, Some(e));
      after == before.(custom := Arr(CustomList(db, e).items + [AddedEntry(add)]))
  {
  }

  /** A search whose first match is at `k` returns `k`. */
  lemma {:induction false} FindIndexAt(list: seq<Value>, id: Value, k: nat)
    requires k < |list| && HasId(list[k], id)
    requires forall i :: 0 <= i < k ==> !HasId(list[i], id)
    ensures FindIndex(list, id) == Some(k)
  {
    if k > 0 {
      FindIndexAt(list[1..], id, k - 1);
    }
  }
}

=== FILE: theme.dfy ===
/** The colour theme (src/app/theme/ThemeProvider.tsx): a chosen theme, the
    light or dark scheme it resolves to, and the toggle between them.  The
    stored text is cast without a check, so any other text is kept as is. */
module Theme {
  import opened Common

  datatype Theme = Light | Dark | System | Other(text: string)

  /** The text kept under the `theme` key. */
  function ThemeText(t: Theme): string {
    match t
    case Light => "light"
    case Dark => "dark"
    case System => "system"
    case Other(s) => s
  }

  /** Reading the stored text back. */
  function FromText(s: string): (r: Theme)
    ensures ThemeText(r) == s
  {
    if s == "light" then Light else if s == "dark" then Dark else if s == "system" then System else Other(s)
  }

  /** The initial theme (lines 28-32): `'system'` without a window or
      without a stored value. */
  function InitialTheme(window: bool, stored: Option<string>): (r: Theme)
    ensures !window || stored.None? ==> r == System
    ensures window && stored.Some? ==> ThemeText(r) == stored.value
  {
    if !window then System
    else match stored
      case None => System
      case Some(s) => FromText(s)
  }

  /** `getSystemTheme()` (lines 16-19): light without a window. */
  function SystemTheme(window: bool, prefersDark: bool): (r: Theme)
    ensures r == Light || r == Dark
    ensures r == Dark <==> window && prefersDark
  {
    if window && prefersDark then Dark else Light
  }

  /** `resolvedTheme` (lines 34-36). */
  function Resolved(t: Theme, system: Theme): (r: Theme)
    requires system == Light || system == Dark
    ensures r != System
    ensures t == System ==> r == system
    ensures t != System ==> r == t
  {
    if t == System then system else t
  }

  /** `toggleTheme` (lines 58-63). */
  function Toggle(t: Theme, system: Theme): (r: Theme)
    requires system == Light || system == Dark
    ensures r == Light || r == Dark
    ensures Resolved(t, system) == Light ==> r == Dark
    ensures Resolved(t, system) == Dark ==> r == Light
    ensures Resolved(t, system).Other? ==> r == Dark
  {
    if Resolved(t, system) == Dark then Light else Dark
  }

  /** Under an unchanged system preference, two toggles come back to the
      scheme shown before. */
  lemma ToggleTwice(t: Theme, system: Theme)
    requires system == Light || system == Dark
    requires !t.Other?
    ensures Resolved(Toggle(Toggle(t, system), system), system) == Resolved(t, system)
  {
  }

  /** The three named themes survive being stored and read back. */
  lemma StoredThemeRoundTrip(t: Theme)
    requires !t.Other?
    ensures InitialTheme(true, Some(ThemeText(t))) == t
  {
  }
}
